=== FILE: README.md ===
# Text pipeline of the Physical AI book chatbot, in Dafny

The chatbot backend answers questions about a Docusaurus book in two stages.

**Ingestion** (`backend/main.py`) reads every Markdown/MDX page and does the following:
- splits off the YAML-like frontmatter;
- works out a title, a section and a module for the page;
- lightly cleans the body;
- cuts the body into overlapping token windows ("chunks"), each with a deterministic 64-bit id;
- embeds the chunks 96 at a time;
- upserts the embedded chunks into the vector store 100 at a time.

**Answering** (`backend/server.py`) cleans each retrieved chunk with the aggressive `clean_text` pipeline. It then builds an extractive answer:
- the paragraphs of the best source that match the query best, within a 1000-character budget;
- truncated to about 1200 characters;
- optionally prefixed by a context sentence;
- followed by a footer naming related chapters.

This project models those pure text operations as Dafny functions over `string` (`seq<char>`) and sequences, and proves what the code promises about them.

The modules follow the program's structure:

| module | file | models |
|---|---|---|
| `Wrappers` | wrappers.dfy | `Option` |
| `Seqs` | seqs.dfy | filtering, flattening, subsequences |
| `Strings` | strings.dfy | the Python `str` methods the code relies on (`strip`, `split`, `join`, `find`, `rfind`, `count`, `replace`, `lower`) |
| `Rewrite` | rewrite.dfy | regular-expression deletion stages, and the `\n{3,}` collapse |
| `Frontmatter` | frontmatter.dfy | `extract_frontmatter` |
| `Metadata` | metadata.dfy | `extract_first_heading`, `determine_module`, the pure part of `extract_text_from_file` |
| `Chunker` | chunker.dfy | `chunk_text` and its chunk ids |
| `Batching` | batching.dfy | `embed_texts`, `save_chunks_to_qdrant` |
| `Sanitizer` | sanitizer.dfy | `clean_text` |
| `Relevance` | relevance.dfy | `extract_relevant_content` |
| `Answer` | answer.dfy | `generate_answer` |

Services and libraries are parameters of the model:
- **Tokenizer.** The `cl100k_base` tokenizer is a pair of functions `encode`/`decode`.
- **SHA-256.** Modelled as a function from a string to lower-case hexadecimal digits. Turning hex into an integer is concrete.
- **Embedding service.** A function from one batch of texts to its vectors.
- **Set order.** Python's iteration order of a set is a function from a set to a sequence. It is assumed to list each element once.

Stages whose patterns need a full regex engine (lazy, DOTALL, look-ahead, multi-line anchors) are modelled as follows:
- Each such stage replaces a match by nothing or by a captured group of the match, so it only deletes characters.
- Each stage is a deletion chosen by an abstract `Matcher`.
- The matcher is keyed by the source line of the stage.
- The stages are applied in the source's order.

Other stages, including those that put literal text in place of a match, are modelled concretely:
- literal-only substitutions;
- the boilerplate line filter;
- the table-row filter;
- the removal of `<` and `>`;
- all whitespace stages of `clean_text`.

Three behaviours of the code worth noting:
- `extract_relevant_content` returns the best paragraph alone when it alone exceeds the 1000-character budget, so its result can be longer than 1000 characters.
- `generate_answer` appends "..." after a hard cut. The body can therefore be 1203 characters long, before the context prefix and the footer.
- The chunk loop stops as soon as a window reaches the last token. Every window but the last holds exactly `target_size` tokens. Consecutive windows share exactly `overlap` tokens.

## Model

| member | source | states |
|---|---|---|
| Frontmatter.ParseLine | backend/main.py:83-87 | a header line gives a key/value pair exactly when it contains `:`, and the key never contains `:` |
| Frontmatter.ParseLineRoundTrip | backend/main.py:83-86 | a line `key: value`, with a trimmed key free of `:` and a value without surrounding blanks or quotes, parses back to exactly that key and value |
| Frontmatter.ParseHeaderLastWins | backend/main.py:82-87 | a key is in the frontmatter exactly when some header line sets it, and its value is the one from the last such line (later duplicates overwrite earlier ones; lines without `:` are skipped) |
| Frontmatter.ExtractFrontmatter | backend/main.py:69-89 | content that does not start with `---`, or has no second `---`, gives empty frontmatter and the content unchanged as body |
| Frontmatter.SingleEntryHeader | backend/main.py:69-89 | a header `---\nk: v\n---` followed by `b`, for a trimmed key without `:`, `-` or newline and a trimmed value without `-`, newline or surrounding quotes, gives exactly the frontmatter `{k: v}` and the body `b` stripped |
| Frontmatter.HeaderAndBody | backend/main.py:75-89 | for `---h---b`, where `h` has no `---`, the frontmatter is parsed from the lines of `h` stripped and the body is `b` stripped, even when `b` itself contains `---` |
| Metadata.Stem | backend/main.py:129 | the file stem is the name without its last suffix; names without a dot, with a leading dot only, or ending in a dot are kept whole |
| Metadata.DetermineModule | backend/main.py:101-114 | the module is the first path part that starts with `module` or is `intro`/`introduction`; otherwise the second-to-last part when there are at least two parts; otherwise `general` |
| Metadata.ModuleIsPart | backend/main.py:101-114 | the module is always one of the path parts or `general` |
| Metadata.FirstHeadingFrom | backend/main.py:92-98 | the heading found is the one at the first line start holding a `#`/`##` heading; with none, no line start holds one |
| Metadata.FirstHeading | backend/main.py:92-98 | a heading found is the text of one line, without newline and stripped, taken from a heading at a line start |
| Metadata.LeadingHeading | backend/main.py:95-97 | a body that starts with `# t` or `## t` followed by a line end has heading `t` |
| Metadata.NoHashNoHeading | backend/main.py:95-98 | a body with no `#` has no heading |
| Metadata.TitleCase | backend/main.py:129 | `.title()` upper-cases letters that start a word and lower-cases the others, and leaves other characters alone |
| Metadata.Humanise | backend/main.py:129 | humanising keeps the length and replaces `-` and `_` by spaces, so neither remains, then title-cases |
| Metadata.ResolveTitle | backend/main.py:124-129 | the title is the first non-empty of frontmatter `title`, frontmatter `sidebar_label` and the first heading; otherwise the humanised stem |
| Metadata.TitleNonEmpty | backend/main.py:124-129 | a file with a non-empty stem always gets a non-empty title |
| Metadata.FolderTitle | backend/main.py:136 | the folder title keeps the length, turns each `-` into a space so none remains, keeps `_`, and title-cases each character by whether the character before it is a letter |
| Metadata.ResolveSection | backend/main.py:131-136 | the section is `Section ` followed by the non-empty `sidebar_position`; otherwise the parent folder name with dashes replaced by spaces, then title-cased |
| Metadata.LightClean | backend/main.py:141-151 | the cleaned body has no run of three newlines, no leading or trailing whitespace, is no longer than the body and uses only the body's characters; after the deletion stages, the collapse and strip keep every non-whitespace character in order, and a text without triple newlines is only stripped |
| Metadata.ExtractTextFromFile | backend/main.py:117-160 | the returned body is exactly the light cleanup of the frontmatter body (so no triple newline, trimmed, characters from the file), and the metadata carries the resolved title and section, the module and the path |
| Rewrite.ApplyStages | backend/main.py:143-148 | a sequence of deletion stages never lengthens the text nor introduces a character |
| Rewrite.CollapseNewlines | backend/main.py:150 | after replacing each run of three or more newlines by two, no three consecutive newlines remain, the non-newline characters are kept in order, a text without three consecutive newlines is unchanged, and no character is introduced |
| Rewrite.CollapseKeepsText | backend/main.py:150 | the collapse keeps, in order, every character that a newline-rejecting filter keeps |
| Rewrite.CollapseAround | backend/main.py:150 | a non-newline character splits the collapse: the parts before and after it collapse independently |
| Rewrite.CollapseRun | backend/main.py:150 | a run of only newlines becomes exactly two newlines when it has three or more, and stays as it is otherwise |
| Rewrite.NoTripleStrip | backend/main.py:150-151 | stripping a text without triple newlines keeps it free of them |
| Chunker.HexValue | backend/main.py:185-186 | a string of `k` hex digits denotes a number below 16^k |
| Chunker.ChunkId | backend/main.py:183-186 | a chunk id, from the first 16 hex digits of the digest, is below 2^64 |
| Chunker.ChunkIdDeterministic | backend/main.py:183-186 | the id depends only on the file path, the chunk index and the first 50 characters of the chunk text |
| Chunker.WindowsFrom | backend/main.py:176-205 | the windows start at the first token and the last one ends at the last token |
| Chunker.WindowsTiled | backend/main.py:176-205 | every window but the last has exactly `target_size` tokens and ends before the last token; each next window starts `overlap` tokens before the previous end; the last ends at the last token |
| Chunker.SingleWindow | backend/main.py:176-205 | there is exactly one window if and only if the remaining tokens number at most `target_size` |
| Chunker.WindowsCover | backend/main.py:176-205 | every token lies in some window |
| Chunker.WindowStarts | backend/main.py:173-200 | window `i` starts `i * (target_size - overlap)` tokens after the first |
| Chunker.WindowEnds | backend/main.py:178 | window `i` ends at `min(start + target_size, len(tokens))` and is never empty |
| Chunker.MakeChunk | backend/main.py:178-197 | a chunk carries its index, no embedding, the id of its path, index and text, the document's metadata, and the token count and decoded text of its window |
| Chunker.ChunksOf | backend/main.py:163-207 | no chunks exactly when there are fewer than 50 tokens; one chunk for at most `target_size` tokens; indices are `0..k-1`; every token count is positive and at most `target_size`, and all but the last equal it |
| Chunker.ChunkFields | backend/main.py:183-197 | every chunk has the id of its index and text below 2^64 and carries the document's title, section, path and module |
| Chunker.ChunkWindow | backend/main.py:176-201 | chunk `i` is the decoded token window starting at `i * (target_size - overlap)`, and its token count is that window's length |
| Chunker.ChunksCoverTokens | backend/main.py:176-205 | every token of a long enough text lies in the window of some chunk, whose text is that window decoded |
| Chunker.ChunkLoop | backend/main.py:172-207 | the `while` loop with its early `break` yields exactly one chunk per window of the window sequence, numbered from 0 |
| Chunker.ChunkText | backend/main.py:163-207 | chunk_text returns exactly the chunks of the definition: none under 50 tokens, otherwise one per window |
| Batching.Batches | backend/main.py:218-219 | batches are non-empty and hold at most the batch size; there are none exactly when there is nothing to send |
| Batching.BatchesFlatten | backend/main.py:218-226 | concatenating the batches in order gives back the input |
| Batching.BatchesFull | backend/main.py:218-219 | every batch but the last is full |
| Batching.BatchesCount | backend/main.py:218 | the number of batches is the input length divided by the batch size, rounded up |
| Batching.EmbedTexts | backend/main.py:210-229 | the loop over 96-text slices returns the per-batch responses concatenated in order |
| Batching.EmbedPerText | backend/main.py:218-226 | when the service embeds each text on its own, the result is the per-text embeddings in input order, whatever the batching |
| Batching.AttachFields | backend/main.py:388-389 | zipping embeddings onto chunks sets the embedding of each chunk that has a partner and changes nothing else |
| Batching.Points | backend/main.py:248-264 | one point per embedded chunk |
| Batching.PointsOfEmbedded | backend/main.py:248-264 | an embedded chunk is upserted exactly when it is among the chunks |
| Batching.AllAttachedSaved | backend/main.py:248-264 | once every chunk has an embedding, every chunk becomes a point, in order, with its own id and vector |
| Batching.SendBatches | backend/main.py:267-271 | the upsert loop sends exactly the batches of the points |
| Batching.SaveChunks | backend/main.py:246-273 | the batches sent are the embedded chunks' points, in order, in batches of at most 100 with all but the last full; the count returned is the number of embedded chunks |
| Sanitizer.LineClean | backend/server.py:222-224 | the markdown-stripped line starts with no blank, `-` or `*` and uses only the line's characters |
| Sanitizer.LineFilterKeeps | backend/server.py:158-237 | the kept lines are an in-order subsequence of the lines. A line is kept exactly when it is non-blank, no skip pattern occurs (case-insensitively) in its raw stripped or its markdown-stripped form, it does not start with an objective verb after bullets, and it is at least 20 characters long or ends with `.` |
| Sanitizer.TableFilter | backend/server.py:306-307 | dropping table rows introduces no character other than line breaks |
| Sanitizer.TableLines | backend/server.py:306-307 | right after the table step, the lines are exactly the input lines with fewer than two pipe characters, so every line has fewer than two |
| Sanitizer.DeleteAngles | backend/server.py:330 | no `<` or `>` remains and no character is introduced |
| Sanitizer.DeleteAnglesKeeps | backend/server.py:330 | a character survives exactly when it was present and is neither `<` nor `>` |
| Sanitizer.CollapseBlanks | backend/server.py:337 | no tab and no two adjacent blanks remain; non-blank characters are kept in order; a text with no tab and no two adjacent blanks is unchanged; only spaces are introduced |
| Sanitizer.CollapseBlanksKeepsText | backend/server.py:337 | the collapse keeps, in order, every character that a filter rejecting space and tab keeps |
| Sanitizer.CollapseBlanksAround | backend/server.py:337 | a non-blank character splits the collapse: the parts before and after it collapse independently |
| Sanitizer.CollapseBlanksRun | backend/server.py:337 | a non-empty run of spaces and tabs becomes exactly one space |
| Sanitizer.StripLinesLines | backend/server.py:339 | the lines of the result are the stripped input lines, one for one |
| Sanitizer.StripLinesKeepsText | backend/server.py:339 | stripping every line keeps all non-whitespace characters in order |
| Sanitizer.DropBlankLines | backend/server.py:340 | no newline at the start and no two newlines in a row remain; a last line with no newline after it is kept even if blank; the non-whitespace characters are kept in order; no character is introduced |
| Sanitizer.DropBlankLinesOfLines | backend/server.py:340 | on stripped lines without newlines, the removal gives exactly the non-empty lines, in order, joined by newlines, plus one trailing newline when the last line is empty and some line is not |
| Sanitizer.DropBlankStrippedLines | backend/server.py:339-340 | after the per-line strip, the removal keeps exactly the non-empty stripped lines, in order, joined by newlines, plus one trailing newline when the last line is empty and some line is not |
| Sanitizer.DropSpaceBeforePunct | backend/server.py:343 | no whitespace remains before `.,!?;:`, only whitespace is removed (the other characters are kept in order), a text with no whitespace before punctuation is unchanged, and no character is introduced |
| Sanitizer.NormaliseWhitespace | backend/server.py:337-345 | the final text has no triple newline, no tab, no leading or trailing whitespace, keeps every non-whitespace character in order, and introduces only spaces and newlines |
| Sanitizer.NormaliseKeepsText | backend/server.py:337-345 | the chain of whitespace stages, followed by the strip, keeps the non-whitespace characters of its input in order |
| Sanitizer.CleanText | backend/server.py:131-347 | empty input gives empty output; the output has no `<`, `>` or tab, no three consecutive newlines, and is trimmed |
| Relevance.Paragraphs | backend/server.py:393 | the paragraphs are exactly the non-empty stripped pieces between blank-line separators, each as many times as it occurs, in order; each is non-empty, stripped and free of the separator |
| Relevance.QueryTerms | backend/server.py:399 | the terms are exactly the whitespace-separated words of the lower-cased query, each non-empty and blank-free |
| Relevance.MatchedTerms | backend/server.py:407-408 | the matched terms are exactly the query terms that occur in the lower-cased paragraph |
| Relevance.Score | backend/server.py:407-412 | the score is the number of matched terms, plus 2 exactly when a definitional phrase occurs, so at most the number of terms plus 2 |
| Relevance.ScoreAllTerms | backend/server.py:408 | a paragraph containing every term scores at least the number of terms |
| Relevance.ScoreAll | backend/server.py:402-414 | the scored texts are exactly the paragraphs of at least 50 characters, in document order, each with its own score; none is scored exactly when all are short |
| Relevance.SortDesc | backend/server.py:420 | the sort is a permutation in descending score order |
| Relevance.SortStable | backend/server.py:420 | paragraphs of equal score keep their original relative order |
| Relevance.SortTopIsBest | backend/server.py:420 | the first paragraph after sorting has the highest score |
| Relevance.Select | backend/server.py:423-429 | the selection is a prefix of the ranking within the 1000-character budget, and the next paragraph would overflow it |
| Relevance.SelectLongest | backend/server.py:423-429 | every longer prefix overflows the budget |
| Relevance.JoinLength | backend/server.py:431 | joining with a separator adds exactly one separator between consecutive paragraphs |
| Relevance.Ranked | backend/server.py:399-420 | the ranking is the scored paragraphs, permuted into descending order |
| Relevance.ExtractRelevantContent | backend/server.py:387-431 | the result is `""` for empty content, the content itself when it has no paragraph, `content[:800]` when every paragraph is short, the selected paragraphs joined by a blank line, or, when even the best overflows, the best paragraph alone (then longer than 1000) |
| Relevance.ShortParagraphsFallback | backend/server.py:416-417 | when every paragraph is under 50 characters the result is the first 800 characters of the content |
| Relevance.ExtractWithinBudget | backend/server.py:423-431 | when some paragraph is selected, the result's length is the selection's total plus the separators, and the selection fits the budget with the next paragraph overflowing it |
| Answer.Truncate | backend/server.py:450-458 | a body of at most 1200 characters is kept; a longer one is cut after the last `.` of its first 1200 characters when that `.` lies after index 600, otherwise cut at 1200 characters and followed by `...` |
| Answer.Body | backend/server.py:443-458 | the body is the best source's relevant extract: kept whole when at most 1200 characters, otherwise a prefix of the extract or its first 1200 characters followed by `...`, at most 1203 characters either way; empty content gives an empty body |
| Answer.TruncateShape | backend/server.py:450-458 | a truncated body is the body itself, a prefix of it, or its first 1200 characters followed by `...`, never longer than 1203 characters |
| Answer.ContextPart | backend/server.py:463-464 | the context sentence is present exactly when the context is truthy |
| Answer.RelatedTitles | backend/server.py:470-471 | the related titles are exactly the titles of the second and third sources that differ from the best source's title |
| Answer.Footer | backend/server.py:472-473 | the footer is empty exactly when there is no related title to list |
| Answer.GenerateAnswer | backend/server.py:434-475 | empty sources give the fixed not-found message; otherwise the answer starts with the optional context sentence followed by the truncated relevant body |
| Answer.AnswerParts | backend/server.py:461-475 | the answer is the context part, the body and the footer; the footer is omitted exactly when there is no related title, and otherwise lists each related title once |
| Answer.OneSourceAnswer | backend/server.py:461-475 | with one source and no context the answer is the processed body itself |
| Answer.FooterExcludesBest | backend/server.py:471 | the footer never names the best source's title, only titles of the second and third sources |
| Strings.SplitN | backend/main.py:76 | splitting with a limit gives at most limit+1 pieces, at least two when the separator occurs, the whole text when it does not, and pieces that joined by the separator give back the text |
| Strings.SplitNPiecesFree | backend/main.py:76 | no piece but the last holds the separator; with no limit, no piece does |
| Strings.JoinSplit | backend/server.py:306-307 | joining the pieces of a split with its separator gives back the text |
| Strings.SplitJoin | backend/main.py:82 | splitting a join by a separator character that occurs in no piece gives back the pieces |
| Strings.Strip | backend/main.py:78-79 | stripping leaves a text without leading or trailing whitespace, which is empty exactly when the text is all whitespace |
| Strings.StripSlice | backend/main.py:78-79 | the stripped text is the slice between the leading and the trailing whitespace, both of which are all whitespace |
| Strings.StripPaddedBoth | backend/main.py:78-79 | a trimmed text padded with whitespace on both sides strips back to itself |
| Strings.StripKeepsText | backend/main.py:78-79 | stripping keeps every non-whitespace character in order |
| Strings.Words | backend/server.py:399 | the argument-less `split()` gives non-empty words without whitespace that together hold every non-whitespace character of the text, in order |
| Strings.WordsOfJoin | backend/server.py:399 | words joined by single spaces split back into exactly those words |
| Strings.RFind | backend/server.py:454 | `rfind` gives the last index of the character, or -1 when it does not occur |
| Strings.Count | backend/server.py:307 | the count is the number of occurrences of the character, so zero exactly when it does not occur |
| Strings.CountTwo | backend/server.py:307 | the count is at least two exactly when the character occurs at two different positions |
| Strings.Prefix | backend/server.py:417 | `content[:800]` is the first 800 characters, or the whole content when shorter |

## Left out

- Reading files, discovering pages with `rglob`, the logging, and `main()`'s orchestration (backend/main.py:53-66, 119, 305-419) are I/O. The one exception is zipping embeddings onto chunks, modelled by `Batching.Attach`.
- The FastAPI endpoints, CORS, the lifespan hook and the global clients of backend/server.py are HTTP plumbing and are left out.
- `embed_query` and `search_qdrant` call external services and are left out.
- The tokenizer's internals are not modelled. `encode` and `decode` are deterministic function parameters.
- The internals of SHA-256 are not modelled. The digest is a parameter function.
- The Cohere and Qdrant services are not modelled. Embedding is a per-batch function parameter, and the upsert is modelled by the batches it would send.
- Rewrite.ApplyStages: the regex stages of `clean_text` (backend/server.py:143-155, 222-223, 240-304, 310-324, 333-334) and of the light cleanup (backend/main.py:143-148) are deletions chosen by an abstract matcher. What each pattern matches is not modelled, and nothing is claimed about idempotence.
- The `<-->` stage (backend/server.py:253) runs after the `-->` stage (backend/server.py:252). It still fires on text such as `<---->>`, which the earlier stage turns into `<-->`. Both are modelled as written, as literal deletions in that order.
- Strings.Lower: lower-casing and `.title()` are modelled on ASCII letters only. Python also folds other Unicode letters, and `re.IGNORECASE` matching in the skip patterns and objective verbs is treated the same way.
- Chunker.ChunksOf: requires `overlap < target_size`. With a larger overlap the source loop can fail to advance; the defaults are 50 and 500.
- Answer.GenerateAnswer: the order of the related-chapter titles comes from Python's set iteration. It is a parameter, and the contract speaks of which titles are listed, not their order.
- Sanitizer.TableFilter: the character contract allows introduced line breaks. In fact a line break appears only between two kept lines, and so only when the text had one.
- Similarity scores are floats from the vector store and are left out. Sources are taken in the order given.
- Chunker.ChunkId: the digest is any sequence of lower-case hex digits, and the id reads its first 16 (all of them if there are fewer). `hexdigest()` always yields 64.
- The `section` default `"Main"` when the chunk metadata has no section (backend/main.py:192) is not modelled. `ExtractTextFromFile` always sets the section, so the default is never used.

=== FILE: answer.dfy ===
/** generate_answer in backend/server.py: the reply built from the
    retrieved sources without a language model. */
module Answer {
  import opened Wrappers
  import opened Seqs
  import opened Strings
  import opened Relevance

  const NotFound: string := "I couldn't find relevant information for your question in the book."

  const ContextPrefix: string := "Regarding your question about the selected text:\n\n"

  const FooterHead: string := "\n\n---\n**Related chapters:** "

  const TitleSeparator: string := ", "

  /** Longer bodies are cut to at most this many characters. */
  const MaxBody: nat := 1200

  /** A cut at a period is taken only when the period lies beyond this index. */
  const MinCut: nat := 600

  /** One retrieved chunk: its chapter title and its (already cleaned) text. */
  datatype Source = Source(title: string, content: string)

  // ---------------------------------------------------------------------
  // The body
  // ---------------------------------------------------------------------

  /** A body of at most 1200 characters is kept. A longer one is cut just
      after the last period of its first 1200 characters when that period
      lies after index 600; otherwise it is cut at 1200 characters and "..."
      is appended. */
  function Truncate(content: string): (r: string)
    ensures |content| <= MaxBody ==> r == content
    ensures |content| > MaxBody && (exists i :: MinCut < i < MaxBody && content[i] == '.') ==>
      MinCut + 1 < |r| <= MaxBody && r == content[..|r|] && r[|r| - 1] == '.'
      && forall j :: |r| <= j < MaxBody ==> content[j] != '.'
    ensures |content| > MaxBody && (forall i :: MinCut < i < MaxBody ==> content[i] != '.') ==>
      r == content[..MaxBody] + "..."
  {
    if |content| <= MaxBody then content
    else
      var truncated := content[..MaxBody];
      var lastPeriod := RFind(truncated, '.');
      if lastPeriod > MinCut as int then
        truncated[..lastPeriod + 1]
      else
        assert forall i :: MinCut < i < MaxBody ==> content[i] == truncated[i];
        truncated + "..."
  }

  /** The body of the answer for the best source: its relevant extract,
      kept whole when short enough, otherwise cut to a prefix of at most
      1200 characters or to the first 1200 characters followed by "...". */
  function Body(query: string, best: Source): (r: string)
    ensures best.content == "" ==> r == ""
    ensures var e := ExtractRelevantContent(best.content, query);
      && (|e| <= MaxBody ==> r == e)
      && (|e| > MaxBody ==> |r| <= MaxBody + 3)
      && (StartsWith(e, r) || (|e| > MaxBody && r == e[..MaxBody] + "..."))
  {
    var e := ExtractRelevantContent(best.content, query);
    TruncateShape(e);
    Truncate(e)
  }

  /** A truncated body is the body itself, a prefix of it no longer than
      1200 characters, or its first 1200 characters followed by "...". */
  lemma TruncateShape(content: string)
    ensures var r := Truncate(content);
      && (|content| <= MaxBody ==> r == content)
      && (|content| > MaxBody ==> |r| <= MaxBody + 3)
      && (StartsWith(content, r) || (|content| > MaxBody && r == content[..MaxBody] + "..."))
  {
  }

  // ---------------------------------------------------------------------
  // Context and footer
  // ---------------------------------------------------------------------

  /** Python truthiness of the optional `context` argument. */
  predicate Truthy(context: Option<string>) {
    context.Some? && context.value != ""
  }

  function ContextPart(context: Option<string>): (p: string)
    ensures Truthy(context) ==> p == ContextPrefix
    ensures !Truthy(context) ==> p == ""
  {
    if Truthy(context) then ContextPrefix else ""
  }

  /** The titles of the second and third sources that differ from the
      best source's title, without repetition. */
  function RelatedTitles(sources: seq<Source>): (titles: set<string>)
    requires sources != []
    ensures forall t :: t in titles <==>
      exists i :: 1 <= i < |sources| && i < 3 && sources[i].title == t && t != sources[0].title
    ensures |sources| == 1 ==> titles == {}
  {
    set i | 1 <= i < |sources| && i < 3 && sources[i].title != sources[0].title :: sources[i].title
  }

  /** How `list(set)` orders a set: unspecified, so it is a parameter. */
  type Order = set<string> -> seq<string>

  /** The order lists each element of the set exactly once. */
  ghost predicate Enumerates(order: Order) {
    forall titles: set<string> :: |order(titles)| == |titles| && forall t :: t in order(titles) <==> t in titles
  }

  function Footer(listed: seq<string>): (f: string)
    ensures listed == [] <==> f == ""
  {
    if listed == [] then "" else FooterHead + Join(listed, TitleSeparator)
  }

  // ---------------------------------------------------------------------
  // The answer
  // ---------------------------------------------------------------------

  /** generate_answer: the not-found message when there are no sources;
      otherwise the optional context prefix, the body and the optional
      footer, in that order. */
  function GenerateAnswer(order: Order, query: string, sources: seq<Source>, context: Option<string>): (r: string)
    ensures sources == [] ==> r == NotFound
    ensures sources != [] && Truthy(context) ==> StartsWith(r, ContextPrefix + Body(query, sources[0]))
    ensures sources != [] && !Truthy(context) ==> StartsWith(r, Body(query, sources[0]))
  {
    if sources == [] then NotFound
    else
      var head := ContextPart(context) + Body(query, sources[0]);
      var footer := if |sources| > 1 then Footer(order(RelatedTitles(sources))) else "";
      assert (head + footer)[..|head|] == head;
      head + footer
  }

  /** The answer is the context part, the body and the footer over the
      related titles; the footer is empty exactly when there is no related
      title, and otherwise lists each related title once. */
  lemma AnswerParts(order: Order, query: string, sources: seq<Source>, context: Option<string>)
    requires sources != [] && Enumerates(order)
    ensures var related := RelatedTitles(sources);
      GenerateAnswer(order, query, sources, context)
        == ContextPart(context) + Body(query, sources[0]) + Footer(order(related))
      && (related == {} <==> Footer(order(related)) == "")
      && (forall t :: t in order(related) <==> t in related)
      && |order(related)| == |related|
  {
    var related := RelatedTitles(sources);
    assert |order(related)| == |related|;
    if |sources| == 1 {
      assert order(related) == [];
    }
  }

  /** With one source and no context the answer is the processed body. */
  lemma OneSourceAnswer(order: Order, query: string, sources: seq<Source>, context: Option<string>)
    requires |sources| == 1 && !Truthy(context)
    ensures GenerateAnswer(order, query, sources, context) == Body(query, sources[0])
  {
    assert "" + Body(query, sources[0]) + "" == Body(query, sources[0]);
  }

  /** The footer names only titles of the second and third sources, never
      the best source's own title. */
  lemma FooterExcludesBest(order: Order, sources: seq<Source>, t: string)
    requires sources != [] && Enumerates(order)
    requires t in order(RelatedTitles(sources))
    ensures t != sources[0].title
    ensures exists i :: 1 <= i < |sources| && i < 3 && sources[i].title == t
  {
    assert t in RelatedTitles(sources);
  }
}

=== FILE: batching.dfy ===
/** The batching around the two external services of ingestion: texts sent
    to the embedding service 96 at a time (embed_texts in backend/main.py),
    embeddings attached to their chunks, and the embedded chunks sent to the
    vector store 100 at a time (save_chunks_to_qdrant). The services
    themselves are parameters: the embedding service is a function from one
    batch of texts to its vectors, and what is sent to the store is returned
    as the list of batches. */
module Batching {
  import opened Wrappers
  import opened Seqs
  import opened Chunker

  const EmbedBatchSize: nat := 96
  const UpsertBatchSize: nat := 100

  // ---------------------------------------------------------------------
  // Batches
  // ---------------------------------------------------------------------

  /** `[s[i:i + size] for i in range(0, len(s), size)]`. */
  function Batches<T>(s: seq<T>, size: nat): (bs: seq<seq<T>>)
    requires size > 0
    ensures s == [] <==> bs == []
    ensures forall k :: 0 <= k < |bs| ==> 0 < |bs[k]| <= size
    decreases |s|
  {
    if s == [] then []
    else if |s| <= size then [s]
    else [s[..size]] + Batches(s[size..], size)
  }

  /** The batches, put back together in order, are the whole sequence. */
  lemma {:induction false} BatchesFlatten<T>(s: seq<T>, size: nat)
    requires size > 0
    ensures Flatten(Batches(s, size)) == s
    decreases |s|
  {
    if |s| > size {
      var bs := Batches(s, size);
      assert bs[1..] == Batches(s[size..], size);
      BatchesFlatten(s[size..], size);
      assert s == s[..size] + s[size..];
    } else if s != [] {
      assert Flatten(Batches(s, size)) == s + Flatten([]);
    }
  }

  /** Every batch but the last is full. */
  lemma {:induction false} BatchesFull<T>(s: seq<T>, size: nat)
    requires size > 0
    ensures var bs := Batches(s, size);
      forall k :: 0 <= k < |bs| - 1 ==> |bs[k]| == size
    decreases |s|
  {
    if |s| > size {
      var bs := Batches(s, size);
      BatchesFull(s[size..], size);
      assert forall k :: 1 <= k < |bs| ==> bs[k] == Batches(s[size..], size)[k - 1];
    }
  }

  /** There are `ceil(|s| / size)` batches: the fewest that hold `|s|`
      elements. */
  lemma {:induction false} BatchesCount<T>(s: seq<T>, size: nat)
    requires size > 0
    ensures (|Batches(s, size)| - 1) * size < |s| <= |Batches(s, size)| * size
    decreases |s|
  {
    if |s| > size {
      var m := |Batches(s[size..], size)|;
      BatchesCount(s[size..], size);
      assert |Batches(s, size)| == m + 1;
      assert (m + 1) * size == m * size + size;
    }
  }

  /** The loop `for i in range(0, len(s), size)` at a start `i` inside the
      sequence: the batch `s[i:i + size]`, then the batches of what follows. */
  lemma BatchesStep<T>(s: seq<T>, i: nat, size: nat)
    requires size > 0 && i < |s|
    ensures Batches(s[i..], size) == [Slice(s, i, i + size)] + Batches(s[Min(i + size, |s|)..], size)
  {
    var t := s[i..];
    if |t| > size {
      assert t[..size] == s[i..i + size];
      assert t[size..] == s[i + size..];
    } else {
      assert Slice(s, i, i + size) == t;
      assert s[|s|..] == [];
    }
  }

  // ---------------------------------------------------------------------
  // Embedding
  // ---------------------------------------------------------------------

  /** The embedding service: the vectors it returns for one batch of texts. */
  type Embedder = seq<string> -> seq<Vector>

  /** The service's answer to each batch, in order. */
  function Responses(embed: Embedder, bs: seq<seq<string>>): (rs: seq<seq<Vector>>)
    ensures |rs| == |bs|
    ensures forall k :: 0 <= k < |bs| ==> rs[k] == embed(bs[k])
  {
    seq(|bs|, k requires 0 <= k < |bs| => embed(bs[k]))
  }

  /** embed_texts as a definition: the answers to the batches of 96,
      concatenated in order. */
  function EmbedAll(embed: Embedder, texts: seq<string>): seq<Vector> {
    Flatten(Responses(embed, Batches(texts, EmbedBatchSize)))
  }

  /** The answers for the batches of `texts[i..]` are the answer for
      `texts[i:i + 96]` followed by those for what comes after it. */
  lemma EmbedStep(embed: Embedder, texts: seq<string>, i: nat)
    requires i < |texts|
    ensures EmbedAll(embed, texts[i..])
      == embed(Slice(texts, i, i + EmbedBatchSize)) + EmbedAll(embed, texts[Min(i + EmbedBatchSize, |texts|)..])
  {
    var rest := texts[Min(i + EmbedBatchSize, |texts|)..];
    BatchesStep(texts, i, EmbedBatchSize);
    var rs := Responses(embed, Batches(texts[i..], EmbedBatchSize));
    assert rs == [embed(Slice(texts, i, i + EmbedBatchSize))] + Responses(embed, Batches(rest, EmbedBatchSize));
  }

  /** embed_texts: one service call per batch of at most 96 texts, the
      answers appended in order. */
  method EmbedTexts(embed: Embedder, texts: seq<string>) returns (all: seq<Vector>)
    ensures all == EmbedAll(embed, texts)
  {
    all := [];
    var i: nat := 0;
    while i < |texts|
      invariant all + EmbedAll(embed, texts[Min(i, |texts|)..]) == EmbedAll(embed, texts)
      decreases |texts| - i
    {
      var batch := Slice(texts, i, i + EmbedBatchSize);
      EmbedStep(embed, texts, i);
      var response := embed(batch);
      MoveHeadSeq(all, response, EmbedAll(embed, texts[i..]),
                  EmbedAll(embed, texts[Min(i + EmbedBatchSize, |texts|)..]), EmbedAll(embed, texts));
      all := all + response;
      i := i + EmbedBatchSize;
    }
    assert texts[|texts|..] == [];
  }

  /** Moving a leading block of the remainder to the end of the part done. */
  lemma MoveHeadSeq<T>(done: seq<T>, x: seq<T>, rest: seq<T>, later: seq<T>, all: seq<T>)
    requires done + rest == all && rest == x + later
    ensures done + x + later == all
  {
    assert done + x + later == done + (x + later);
  }

  /** A vector per text, computed from that text alone. */
  function EachText(f: string -> Vector, texts: seq<string>): (vs: seq<Vector>)
    ensures |vs| == |texts|
    ensures forall j :: 0 <= j < |texts| ==> vs[j] == f(texts[j])
  {
    seq(|texts|, j requires 0 <= j < |texts| => f(texts[j]))
  }

  lemma EachTextAppend(f: string -> Vector, a: seq<string>, b: seq<string>)
    ensures EachText(f, a + b) == EachText(f, a) + EachText(f, b)
  {
  }

  /** When the service embeds each text of a batch on its own, batching is
      invisible: text `j` gets the vector of text `j`. */
  lemma {:induction false} EmbedPerText(embed: Embedder, f: string -> Vector, texts: seq<string>)
    requires forall b :: embed(b) == EachText(f, b)
    ensures EmbedAll(embed, texts) == EachText(f, texts)
    decreases |texts|
  {
    if texts != [] {
      EmbedStep(embed, texts, 0);
      var k := Min(EmbedBatchSize, |texts|);
      assert texts[0..] == texts;
      EmbedPerText(embed, f, texts[k..]);
      EachTextAppend(f, texts[..k], texts[k..]);
      assert texts[..k] + texts[k..] == texts;
    }
  }

  // ---------------------------------------------------------------------
  // Attaching embeddings
  // ---------------------------------------------------------------------

  /** `for chunk, embedding in zip(chunks, embeddings): chunk.embedding =
      embedding`: the first chunks get the vectors in order; chunks beyond
      the vectors keep what they had. */
  function Attach(chunks: seq<Chunk>, embeddings: seq<Vector>): (r: seq<Chunk>)
    ensures |r| == |chunks|
  {
    seq(|chunks|, i requires 0 <= i < |chunks| =>
      if i < |embeddings| then chunks[i].(embedding := Some(embeddings[i])) else chunks[i])
  }

  /** Attaching changes nothing but the embedding: chunk `i` gets vector `i`
      when there is one. */
  lemma AttachFields(chunks: seq<Chunk>, embeddings: seq<Vector>, i: nat)
    requires i < |chunks|
    ensures var c := Attach(chunks, embeddings)[i];
      c.(embedding := chunks[i].embedding) == chunks[i]
      && (i < |embeddings| ==> c.embedding == Some(embeddings[i]))
      && (i >= |embeddings| ==> c.embedding == chunks[i].embedding)
  {
  }

  // ---------------------------------------------------------------------
  // Saving
  // ---------------------------------------------------------------------

  /** One point of the vector store: the chunk's id, its vector and the
      chunk's other fields as payload. */
  datatype Point = Point(
    id: nat,
    vector: Vector,
    content: string,
    title: string,
    section: string,
    filePath: string,
    moduleName: string,
    chunkIndex: nat,
    tokenCount: nat)

  predicate Embedded(c: Chunk) {
    c.embedding.Some?
  }

  function ToPoint(c: Chunk): (p: Point)
    requires Embedded(c)
  {
    Point(c.id, c.embedding.value, c.content, c.title, c.section, c.filePath, c.moduleName,
          c.chunkIndex, c.tokenCount)
  }

  /** The points of the chunks that have an embedding, in chunk order. */
  function Points(chunks: seq<Chunk>): (ps: seq<Point>)
    ensures |ps| == |Filter(chunks, Embedded)|
  {
    var kept := Filter(chunks, Embedded);
    FilterSatisfies(chunks, Embedded);
    seq(|kept|, i requires 0 <= i < |kept| => ToPoint(kept[i]))
  }

  /** A point is kept for a chunk exactly when the chunk has an embedding. */
  lemma PointsOfEmbedded(chunks: seq<Chunk>, c: Chunk)
    requires Embedded(c)
    ensures c in chunks <==> ToPoint(c) in Points(chunks)
  {
    var kept := Filter(chunks, Embedded);
    FilterSatisfies(chunks, Embedded);
    FilterMembers(chunks, Embedded, c);
    if c in chunks {
      var i :| 0 <= i < |kept| && kept[i] == c;
      assert Points(chunks)[i] == ToPoint(c);
    }
    if ToPoint(c) in Points(chunks) {
      var i :| 0 <= i < |Points(chunks)| && Points(chunks)[i] == ToPoint(c);
      assert ToPoint(kept[i]) == ToPoint(c);
      assert kept[i] == c;
    }
  }

  /** With at least one vector per chunk, every chunk is saved, in order. */
  lemma AllAttachedSaved(chunks: seq<Chunk>, embeddings: seq<Vector>)
    requires |embeddings| >= |chunks|
    ensures |Points(Attach(chunks, embeddings))| == |chunks|
    ensures forall i :: 0 <= i < |chunks| ==>
      Points(Attach(chunks, embeddings))[i].id == chunks[i].id
      && Points(Attach(chunks, embeddings))[i].vector == embeddings[i]
  {
    var attached := Attach(chunks, embeddings);
    FilterAll(attached, Embedded);
  }

  /** `for i in range(0, len(s), size): send(s[i:i + size])`: the batches
      sent, in order. */
  method SendBatches<T>(s: seq<T>, size: nat) returns (sent: seq<seq<T>>)
    requires size > 0
    ensures sent == Batches(s, size)
  {
    sent := [];
    var i: nat := 0;
    while i < |s|
      invariant sent + Batches(s[Min(i, |s|)..], size) == Batches(s, size)
      decreases |s| - i
    {
      var batch := Slice(s, i, i + size);
      BatchesStep(s, i, size);
      MoveHead(sent, batch, Batches(s[i..], size), Batches(s[Min(i + size, |s|)..], size), Batches(s, size));
      sent := sent + [batch];
      i := i + size;
    }
    assert s[|s|..] == [];
  }

  /** save_chunks_to_qdrant: the points of the embedded chunks, sent in
      batches of at most 100; the result is the number of points. */
  method SaveChunks(chunks: seq<Chunk>) returns (sent: seq<seq<Point>>, count: nat)
    ensures Flatten(sent) == Points(chunks)
    ensures forall k :: 0 <= k < |sent| ==> 0 < |sent[k]| <= UpsertBatchSize
    ensures forall k :: 0 <= k < |sent| - 1 ==> |sent[k]| == UpsertBatchSize
    ensures count == |Filter(chunks, Embedded)| && count <= |chunks|
  {
    var points := Points(chunks);
    sent := SendBatches(points, UpsertBatchSize);
    BatchesFlatten(points, UpsertBatchSize);
    BatchesFull(points, UpsertBatchSize);
    count := |points|;
  }
}

=== FILE: chunker.dfy ===
/** Token-window chunking with deterministic 64-bit ids (chunk_text in
    backend/main.py). The tokenizer and SHA-256 are parameters. */
module Chunker {
  import opened Wrappers
  import opened Seqs
  import opened Strings
  import opened Metadata

  type Token = nat

  /** An encoding and its decoder (`cl100k_base` in the source). */
  datatype Tokenizer = Tokenizer(encode: string -> seq<Token>, decode: seq<Token> -> string)

  /** Texts with fewer tokens than this are not chunked. */
  const MinTokens: nat := 50
  /** The default window size and overlap of chunk_text. */
  const DefaultTarget: nat := 500
  const DefaultOverlap: nat := 50
  /** How much of a chunk's text enters its id. */
  const IdTextLength: nat := 50
  /** How many hex digits of the digest make the id. */
  const IdHexDigits: nat := 16

  // ---------------------------------------------------------------------
  // Ids
  // ---------------------------------------------------------------------

  /** A character of `hexdigest()`: lower-case hexadecimal. */
  predicate IsHexDigit(c: char) {
    '0' <= c <= '9' || 'a' <= c <= 'f'
  }

  type HexChar = c: char | IsHexDigit(c) witness '0'

  /** A SHA-256 digest as `hexdigest()` prints it (64 hex digits). */
  type HexDigest = seq<HexChar>

  function HexDigitValue(c: char): (v: nat)
    requires IsHexDigit(c)
    ensures v < 16
  {
    if c <= '9' then c as int - '0' as int else c as int - 'a' as int + 10
  }

  function Pow(b: nat, e: nat): (p: nat)
    ensures p >= 1 || b == 0
  {
    if e == 0 then 1 else b * Pow(b, e - 1)
  }

  /** `int(s, 16)` for a string of hex digits. */
  function HexValue(s: seq<HexChar>): (v: nat)
    ensures v < Pow(16, |s|)
    decreases |s|
  {
    if s == [] then 0
    else
      var init := HexValue(s[..|s| - 1]);
      init * 16 + HexDigitValue(s[|s| - 1])
  }

  /** Sixteen hex digits hold exactly 64 bits. */
  lemma PowSixteen()
    ensures Pow(16, 16) == 0x1_0000_0000_0000_0000
  {
    assert Pow(16, 4) == 0x1_0000 by {
      assert Pow(16, 2) == 0x100;
    }
    assert Pow(16, 8) == 0x1_0000_0000 by {
      PowAdd(16, 4, 4);
    }
    PowAdd(16, 8, 8);
  }

  lemma {:induction false} PowAdd(b: nat, x: nat, y: nat)
    ensures Pow(b, x + y) == Pow(b, x) * Pow(b, y)
    decreases x
  {
    if x > 0 {
      PowAdd(b, x - 1, y);
      assert Pow(b, x + y) == b * Pow(b, x - 1 + y);
      MulAssoc(b, Pow(b, x - 1), Pow(b, y));
    }
  }

  lemma MulAssoc(a: nat, b: nat, c: nat)
    ensures a * (b * c) == (a * b) * c
  {
  }

  /** What the id is a digest of: `f"{file_path}:{chunk_index}:{chunk_text[:50]}"`. */
  function IdKey(filePath: string, index: nat, text: string): string {
    filePath + ":" + NatToString(index) + ":" + Prefix(text, IdTextLength)
  }

  /** The first 16 hex digits of the digest, read as an unsigned number. */
  function ChunkId(sha: string -> HexDigest, filePath: string, index: nat, text: string): (id: nat)
    ensures id < 0x1_0000_0000_0000_0000
  {
    var digest := sha(IdKey(filePath, index, text));
    var head := digest[..Min(IdHexDigits, |digest|)];
    PowSixteen();
    PowMonotone(16, |head|, IdHexDigits);
    HexValue(head)
  }

  lemma {:induction false} PowMonotone(b: nat, x: nat, y: nat)
    requires b >= 1 && x <= y
    ensures Pow(b, x) <= Pow(b, y)
    decreases y
  {
    if x < y {
      PowMonotone(b, x, y - 1);
      MulAtLeast(b, Pow(b, y - 1));
    }
  }

  lemma MulAtLeast(b: nat, p: nat)
    requires b >= 1
    ensures p <= b * p
  {
  }

  /** A direct consequence of the definition, stated for reference: two
      chunks of the same file at the same index whose texts agree on their
      first 50 characters get the same id. */
  lemma ChunkIdDeterministic(sha: string -> HexDigest, filePath: string, index: nat, a: string, b: string)
    requires Prefix(a, IdTextLength) == Prefix(b, IdTextLength)
    ensures ChunkId(sha, filePath, index, a) == ChunkId(sha, filePath, index, b)
  {
  }

  // ---------------------------------------------------------------------
  // Windows
  // ---------------------------------------------------------------------

  /** The token positions `[start, end)` of one chunk. */
  datatype Window = Window(start: nat, end: nat)
  {
    function Length(): int {
      end - start
    }
  }

  /** The windows over `n` tokens from `start`: `target` tokens each, the
      next one starting `overlap` tokens before the previous end, until a
      window reaches the last token. */
  function WindowsFrom(n: nat, start: nat, target: nat, overlap: nat): (ws: seq<Window>)
    requires overlap < target && start < n
    ensures |ws| >= 1 && ws[0].start == start && ws[|ws| - 1].end == n
    decreases n - start
  {
    var end := Min(start + target, n);
    if end == n then [Window(start, n)]
    else
      var rest := WindowsFrom(n, end - overlap, target, overlap);
      [Window(start, end)] + rest
  }

  /** The shape of a tiling of `n` tokens: every window is nonempty, at
      most `target` long and inside the text; every window but the last is
      exactly `target` long and ends before the text does; each next window
      starts `overlap` tokens before the previous one ends. */
  predicate Tiled(ws: seq<Window>, n: nat, target: nat, overlap: nat) {
    && (forall i :: 0 <= i < |ws| ==> 0 < ws[i].Length() <= target && ws[i].end <= n)
    && (forall i :: 0 <= i < |ws| - 1 ==> ws[i].Length() == target && ws[i].end < n)
    && (forall i, j :: 0 <= i < |ws| - 1 && j == i + 1 ==> ws[j].start == ws[i].end - overlap)
  }

  lemma {:induction false} WindowsTiled(n: nat, start: nat, target: nat, overlap: nat)
    requires overlap < target && start < n
    ensures Tiled(WindowsFrom(n, start, target, overlap), n, target, overlap)
    decreases n - start
  {
    if start + target < n {
      var next := start + target - overlap;
      WindowsStep(n, start, target, overlap);
      WindowsTiled(n, next, target, overlap);
      TiledCons(Window(start, start + target), WindowsFrom(n, next, target, overlap), n, target, overlap);
    }
  }

  /** A full window that stops before the end, put before a tiling that
      starts `overlap` tokens before its end, gives a tiling. */
  lemma TiledCons(w: Window, ws: seq<Window>, n: nat, target: nat, overlap: nat)
    requires Tiled(ws, n, target, overlap) && ws != []
    requires w.Length() == target > 0 && w.end < n && ws[0].start == w.end - overlap
    ensures Tiled([w] + ws, n, target, overlap)
  {
    var t := [w] + ws;
    forall i | 0 < i < |t| ensures t[i] == ws[i - 1] {
    }
  }

  /** There is a single window exactly when the tokens from `start` fit in one. */
  lemma SingleWindow(n: nat, start: nat, target: nat, overlap: nat)
    requires overlap < target && start < n
    ensures |WindowsFrom(n, start, target, overlap)| == 1 <==> n - start <= target
  {
  }

  /** A window that does not reach the end is followed by the windows from
      `overlap` tokens before its end. */
  lemma WindowsStep(n: nat, start: nat, target: nat, overlap: nat)
    requires overlap < target && start + target < n
    ensures WindowsFrom(n, start, target, overlap)
      == [Window(start, start + target)] + WindowsFrom(n, start + target - overlap, target, overlap)
  {
  }

  /** The windows together cover every token from `start` on: token `j`
      lies in window `i`. */
  lemma {:induction false} WindowsCover(n: nat, start: nat, target: nat, overlap: nat, j: nat)
    returns (i: nat)
    requires overlap < target && start <= j < n
    ensures i < |WindowsFrom(n, start, target, overlap)|
    ensures WindowsFrom(n, start, target, overlap)[i].start <= j < WindowsFrom(n, start, target, overlap)[i].end
    decreases n - start
  {
    var ws := WindowsFrom(n, start, target, overlap);
    if j < ws[0].end {
      i := 0;
    } else {
      WindowsStep(n, start, target, overlap);
      var k := WindowsCover(n, start + target - overlap, target, overlap, j);
      i := k + 1;
    }
  }

  /** `i` strides of `target - overlap` tokens. */
  function Strides(i: nat, target: nat, overlap: nat): nat
    requires overlap < target
  {
    i * (target - overlap)
  }

  lemma StridesStep(i: nat, target: nat, overlap: nat)
    requires overlap < target && i > 0
    ensures Strides(i, target, overlap) == Strides(i - 1, target, overlap) + (target - overlap)
  {
  }

  /** Window `i` starts `i` strides of `target - overlap` tokens after the
      first. */
  lemma {:induction false} WindowStarts(n: nat, start: nat, target: nat, overlap: nat, i: nat)
    requires overlap < target && start < n && i < |WindowsFrom(n, start, target, overlap)|
    ensures WindowsFrom(n, start, target, overlap)[i].start == start + Strides(i, target, overlap)
    decreases i
  {
    if i > 0 {
      SingleWindow(n, start, target, overlap);
      WindowsStep(n, start, target, overlap);
      WindowStarts(n, start + target - overlap, target, overlap, i - 1);
      StridesStep(i, target, overlap);
    }
  }

  /** Window `i` ends `target` tokens after its start, or at the last token
      if that comes first. */
  lemma WindowEnds(n: nat, target: nat, overlap: nat, i: nat)
    requires overlap < target && 0 < n && i < |WindowsFrom(n, 0, target, overlap)|
    ensures var w := WindowsFrom(n, 0, target, overlap)[i];
      w.start == Strides(i, target, overlap) && w.end == Min(w.start + target, n) && w.start < w.end
  {
    WindowsTiled(n, 0, target, overlap);
    WindowStarts(n, 0, target, overlap, i);
  }

  // ---------------------------------------------------------------------
  // Chunks
  // ---------------------------------------------------------------------

  type Vector = seq<real>

  /** One chunk as stored: id, text, document metadata, position and size,
      and its embedding once one is attached. */
  datatype Chunk = Chunk(
    id: nat,
    content: string,
    title: string,
    section: string,
    filePath: string,
    moduleName: string,
    chunkIndex: nat,
    tokenCount: nat,
    embedding: Option<Vector>)

  /** The chunk built from window `w` of `tokens`: the window's tokens
      (sliced as Python does, so a window past the end gives fewer), decoded;
      its id from the file path, its number and its text. */
  function MakeChunk(tok: Tokenizer, sha: string -> HexDigest, tokens: seq<Token>, meta: DocMetadata,
                     index: nat, w: Window): (c: Chunk)
    ensures c.chunkIndex == index && c.embedding.None?
    ensures c.id == ChunkId(sha, meta.filePath, index, c.content) && c.id < 0x1_0000_0000_0000_0000
    ensures c.title == meta.title && c.section == meta.section
    ensures c.filePath == meta.filePath && c.moduleName == meta.moduleName
    ensures w.start <= w.end <= |tokens| ==>
      c.tokenCount == w.Length() && c.content == tok.decode(tokens[w.start..w.end])
  {
    var part := Slice(tokens, w.start, w.end);
    var content := tok.decode(part);
    Chunk(ChunkId(sha, meta.filePath, index, content), content, meta.title, meta.section,
          meta.filePath, meta.moduleName, index, |part|, None)
  }

  /** One chunk per window, numbered from `index`. */
  function ChunksOfWindows(tok: Tokenizer, sha: string -> HexDigest, tokens: seq<Token>, meta: DocMetadata,
                           ws: seq<Window>, index: nat): (cs: seq<Chunk>)
    ensures |cs| == |ws|
  {
    seq(|ws|, i requires 0 <= i < |ws| => MakeChunk(tok, sha, tokens, meta, index + i, ws[i]))
  }

  /** The chunks of a window followed by more windows. */
  lemma ChunksOfWindowsCons(tok: Tokenizer, sha: string -> HexDigest, tokens: seq<Token>, meta: DocMetadata,
                            w: Window, ws: seq<Window>, index: nat)
    ensures ChunksOfWindows(tok, sha, tokens, meta, [w] + ws, index)
      == [MakeChunk(tok, sha, tokens, meta, index, w)] + ChunksOfWindows(tok, sha, tokens, meta, ws, index + 1)
  {
    var a := ChunksOfWindows(tok, sha, tokens, meta, [w] + ws, index);
    var b := [MakeChunk(tok, sha, tokens, meta, index, w)] + ChunksOfWindows(tok, sha, tokens, meta, ws, index + 1);
    forall i | 0 <= i < |a| ensures a[i] == b[i] {
      if i > 0 {
        assert ([w] + ws)[i] == ws[i - 1];
      }
    }
  }

  /** The chunks of the windows from `start`: the chunk of the first window,
      then those of the windows from `overlap` tokens before its end. */
  lemma ChunksStep(tok: Tokenizer, sha: string -> HexDigest, tokens: seq<Token>, meta: DocMetadata,
                   target: nat, overlap: nat, start: nat, next: nat, index: nat)
    requires overlap < target && start + target < |tokens| && next == start + target - overlap
    ensures ChunksOfWindows(tok, sha, tokens, meta, WindowsFrom(|tokens|, start, target, overlap), index)
      == [MakeChunk(tok, sha, tokens, meta, index, Window(start, start + target))]
         + ChunksOfWindows(tok, sha, tokens, meta, WindowsFrom(|tokens|, next, target, overlap), index + 1)
  {
    var w := Window(start, start + target);
    var ws := WindowsFrom(|tokens|, next, target, overlap);
    WindowsStep(|tokens|, start, target, overlap);
    assert WindowsFrom(|tokens|, start, target, overlap) == [w] + ws;
    ChunksOfWindowsCons(tok, sha, tokens, meta, w, ws, index);
  }

  /** The windows from a `start` within `target` tokens of the end give one chunk. */
  lemma ChunksLast(tok: Tokenizer, sha: string -> HexDigest, tokens: seq<Token>, meta: DocMetadata,
                   target: nat, overlap: nat, start: nat, index: nat)
    requires overlap < target && start < |tokens| <= start + target
    ensures ChunksOfWindows(tok, sha, tokens, meta, WindowsFrom(|tokens|, start, target, overlap), index)
      == [MakeChunk(tok, sha, tokens, meta, index, Window(start, |tokens|))]
  {
  }

  /** One turn of the chunking loop: the chunk of the window at `start` moves
      from the chunks still to make to those made. */
  lemma ChunksAdvance(tok: Tokenizer, sha: string -> HexDigest, tokens: seq<Token>, meta: DocMetadata,
                      target: nat, overlap: nat, start: nat, next: nat, index: nat,
                      done: seq<Chunk>, all: seq<Chunk>)
    requires overlap < target && start + target < |tokens| && next == start + target - overlap
    requires done + ChunksOfWindows(tok, sha, tokens, meta, WindowsFrom(|tokens|, start, target, overlap), index) == all
    ensures done + [MakeChunk(tok, sha, tokens, meta, index, Window(start, start + target))]
      + ChunksOfWindows(tok, sha, tokens, meta, WindowsFrom(|tokens|, next, target, overlap), index + 1)
      == all
  {
    var chunk := MakeChunk(tok, sha, tokens, meta, index, Window(start, start + target));
    var now := ChunksOfWindows(tok, sha, tokens, meta, WindowsFrom(|tokens|, start, target, overlap), index);
    var later := ChunksOfWindows(tok, sha, tokens, meta, WindowsFrom(|tokens|, next, target, overlap), index + 1);
    ChunksStep(tok, sha, tokens, meta, target, overlap, start, next, index);
    MoveHead(done, chunk, now, later, all);
  }

  /** chunk_text as a definition: nothing for a text under 50 tokens;
      otherwise one chunk per window, numbered from 0. */
  function ChunksOf(tok: Tokenizer, sha: string -> HexDigest, text: string, meta: DocMetadata,
                    target: nat, overlap: nat): (cs: seq<Chunk>)
    requires overlap < target
    ensures |tok.encode(text)| < MinTokens <==> cs == []
    ensures MinTokens <= |tok.encode(text)| <= target ==> |cs| == 1
    ensures forall i :: 0 <= i < |cs| ==> cs[i].chunkIndex == i && 0 < cs[i].tokenCount <= target
    ensures forall i :: 0 <= i < |cs| - 1 ==> cs[i].tokenCount == target
  {
    var tokens := tok.encode(text);
    if |tokens| < MinTokens then []
    else
      WindowsTiled(|tokens|, 0, target, overlap);
      SingleWindow(|tokens|, 0, target, overlap);
      ChunksOfWindows(tok, sha, tokens, meta, WindowsFrom(|tokens|, 0, target, overlap), 0)
  }

  /** Every chunk carries the document's metadata, no embedding yet, and a
      64-bit id computed from its own text and its number. */
  lemma ChunkFields(tok: Tokenizer, sha: string -> HexDigest, text: string, meta: DocMetadata,
                    target: nat, overlap: nat, i: nat)
    requires overlap < target && i < |ChunksOf(tok, sha, text, meta, target, overlap)|
    ensures var c := ChunksOf(tok, sha, text, meta, target, overlap)[i];
      c.embedding.None? && c.id == ChunkId(sha, meta.filePath, i, c.content)
      && c.id < 0x1_0000_0000_0000_0000
      && c.title == meta.title && c.section == meta.section
      && c.filePath == meta.filePath && c.moduleName == meta.moduleName
  {
  }

  /** Read back through their windows, the chunks cover every token: token
      `j` lies in the window of chunk `i`, whose text is that window decoded. */
  lemma ChunksCoverTokens(tok: Tokenizer, sha: string -> HexDigest, text: string, meta: DocMetadata,
                          target: nat, overlap: nat, j: nat)
    returns (i: nat)
    requires overlap < target && MinTokens <= |tok.encode(text)| && j < |tok.encode(text)|
    ensures i < |ChunksOf(tok, sha, text, meta, target, overlap)|
    ensures i < |WindowsFrom(|tok.encode(text)|, 0, target, overlap)|
    ensures var w := WindowsFrom(|tok.encode(text)|, 0, target, overlap)[i];
      w.start <= j < w.end <= |tok.encode(text)|
      && ChunksOf(tok, sha, text, meta, target, overlap)[i].content == tok.decode(tok.encode(text)[w.start..w.end])
  {
    var tokens := tok.encode(text);
    WindowsTiled(|tokens|, 0, target, overlap);
    i := WindowsCover(|tokens|, 0, target, overlap, j);
  }

  /** Chunk `i` is made of the tokens from `i * (target - overlap)` up to
      `target` tokens further or the end of the text: its token count is
      that window's length and its text that window decoded. */
  lemma ChunkWindow(tok: Tokenizer, sha: string -> HexDigest, text: string, meta: DocMetadata,
                    target: nat, overlap: nat, i: nat)
    requires overlap < target && i < |ChunksOf(tok, sha, text, meta, target, overlap)|
    ensures var tokens := tok.encode(text);
      var c := ChunksOf(tok, sha, text, meta, target, overlap)[i];
      var start := Strides(i, target, overlap);
      var end := Min(start + target, |tokens|);
      start < end && c.tokenCount == end - start && c.content == tok.decode(tokens[start..end])
  {
    var tokens := tok.encode(text);
    WindowEnds(|tokens|, target, overlap, i);
  }

  /** The last turn of the chunking loop: the chunk of the window at
      `start`, which reaches the last token, completes the chunks. */
  lemma ChunksFinish(tok: Tokenizer, sha: string -> HexDigest, tokens: seq<Token>, meta: DocMetadata,
                     target: nat, overlap: nat, start: nat, index: nat,
                     done: seq<Chunk>, all: seq<Chunk>)
    requires overlap < target && start < |tokens| <= start + target
    requires done + ChunksOfWindows(tok, sha, tokens, meta, WindowsFrom(|tokens|, start, target, overlap), index) == all
    ensures done + [MakeChunk(tok, sha, tokens, meta, index, Window(start, |tokens|))] == all
  {
    ChunksLast(tok, sha, tokens, meta, target, overlap, start, index);
  }

  /** The loop of chunk_text over a nonempty token sequence. It stops once
      the next start would leave fewer than `overlap` tokens, that is once a
      window has reached the last token. */
  method ChunkLoop(tok: Tokenizer, sha: string -> HexDigest, tokens: seq<Token>, meta: DocMetadata,
                   target: nat, overlap: nat) returns (chunks: seq<Chunk>)
    requires overlap < target && 0 < |tokens|
    ensures chunks == ChunksOfWindows(tok, sha, tokens, meta, WindowsFrom(|tokens|, 0, target, overlap), 0)
  {
    var n := |tokens|;
    ghost var all := ChunksOfWindows(tok, sha, tokens, meta, WindowsFrom(n, 0, target, overlap), 0);
    chunks := [];
    var start: nat := 0;
    var index: nat := 0;
    while start < n
      invariant start < n
      invariant chunks + ChunksOfWindows(tok, sha, tokens, meta, WindowsFrom(n, start, target, overlap), index) == all
      decreases n - start
    {
      var end := Min(start + target, n);
      var chunk := MakeChunk(tok, sha, tokens, meta, index, Window(start, end));
      if end - overlap >= n - overlap {
        assert end == n;
        ChunksFinish(tok, sha, tokens, meta, target, overlap, start, index, chunks, all);
        chunks := chunks + [chunk];
        return;
      }
      assert end == start + target;
      ChunksAdvance(tok, sha, tokens, meta, target, overlap, start, end - overlap, index, chunks, all);
      chunks := chunks + [chunk];
      start := end - overlap;
      index := index + 1;
    }
  }

  /** chunk_text: no chunks for a text under 50 tokens, otherwise the chunks
      the loop makes. */
  method ChunkText(tok: Tokenizer, sha: string -> HexDigest, text: string, meta: DocMetadata,
                   target: nat, overlap: nat) returns (chunks: seq<Chunk>)
    requires overlap < target
    ensures chunks == ChunksOf(tok, sha, text, meta, target, overlap)
  {
    var tokens := tok.encode(text);
    if |tokens| < MinTokens {
      return [];
    }
    chunks := ChunkLoop(tok, sha, tokens, meta, target, overlap);
  }
}

=== FILE: frontmatter.dfy ===
/** The leading `---` header of a Markdown/MDX document and its simple
    `key: value` lines (extract_frontmatter in backend/main.py). */
module Frontmatter {
  import opened Wrappers
  import opened Strings

  type Frontmatter = map<string, string>

  const Delimiter: string := "---"

  predicate IsDoubleQuote(c: char) {
    c == '"'
  }

  predicate IsSingleQuote(c: char) {
    c == '\''
  }

  /** One header line: nothing when it has no `:`; otherwise the text before
      its first `:` trimmed, and the text after it trimmed, then stripped of
      `"` characters, then of `'` characters. */
  function ParseLine(line: string): (kv: Option<(string, string)>)
    ensures kv.None? <==> ':' !in line
    ensures kv.Some? ==> ':' !in kv.value.0
  {
    ContainsChar(line, ':');
    if Contains(line, ":") then
      var parts := SplitN(line, ":", 1);
      SplitPiecesStep(line, ":");
      Some((Strip(parts[0]), CleanValue(parts[1])))
    else None
  }

  /** The piece before the first separator of a one-split holds no separator. */
  lemma SplitPiecesStep(s: string, sep: string)
    requires |sep| == 1 && Contains(s, sep)
    ensures sep[0] !in SplitN(s, sep, 1)[0]
  {
    var i := FindFrom(s, sep, 0).value;
    SplitNStep(s, sep, 1, i);
    assert sep == [sep[0]];
    if sep[0] in s[..i] {
      var j :| 0 <= j < i && s[..i][j] == sep[0];
      assert s[j] == sep[0];
      OccursAtChar(s, sep[0], j);
    }
  }

  /** What one header line contributes: a key and its value, or nothing. */
  type Entry = Option<(string, string)>

  /** `e` sets `key`. */
  predicate Sets(e: Entry, key: string) {
    e.Some? && e.value.0 == key
  }

  /** The entries stored into a dictionary in order, so that a later entry
      overwrites an earlier one with the same key. */
  function Assign(entries: seq<Entry>): Frontmatter
    decreases |entries|
  {
    if entries == [] then map[]
    else
      var fm := Assign(entries[..|entries| - 1]);
      match entries[|entries| - 1]
      case None => fm
      case Some(kv) => fm[kv.0 := kv.1]
  }

  /** A key is in the dictionary exactly when some entry sets it, and its
      value is the one set by the last entry that sets it. */
  ghost predicate LastWins(entries: seq<Entry>, key: string) {
    && (key in Assign(entries) <==> exists i :: 0 <= i < |entries| && Sets(entries[i], key))
    && (key in Assign(entries) ==>
          exists i :: 0 <= i < |entries| && Sets(entries[i], key)
            && Assign(entries)[key] == entries[i].value.1
            && forall j :: i < j < |entries| ==> !Sets(entries[j], key))
  }

  lemma {:induction false} AssignLastWins(entries: seq<Entry>, key: string)
    ensures key in Assign(entries) <==> exists i :: 0 <= i < |entries| && Sets(entries[i], key)
    ensures key in Assign(entries) ==>
      exists i :: 0 <= i < |entries| && Sets(entries[i], key)
        && Assign(entries)[key] == entries[i].value.1
        && forall j :: i < j < |entries| ==> !Sets(entries[j], key)
    decreases |entries|
  {
    if entries != [] {
      var n := |entries| - 1;
      AssignLastWins(entries[..n], key);
      if Sets(entries[n], key) {
        LastEntrySets(entries, key);
      } else {
        LastEntryOther(entries, key);
      }
    }
  }

  /** The last entry sets the key: its value wins. */
  lemma LastEntrySets(entries: seq<Entry>, key: string)
    requires entries != [] && Sets(entries[|entries| - 1], key)
    ensures LastWins(entries, key)
  {
    var n := |entries| - 1;
    assert Assign(entries)[key] == entries[n].value.1;
  }

  /** The last entry does not set the key: the earlier entries decide. */
  lemma LastEntryOther(entries: seq<Entry>, key: string)
    requires entries != [] && !Sets(entries[|entries| - 1], key)
    requires LastWins(entries[..|entries| - 1], key)
    ensures LastWins(entries, key)
  {
    var n := |entries| - 1;
    var init := entries[..n];
    assert forall i :: 0 <= i < n ==> init[i] == entries[i];
    assert key in Assign(entries) <==> key in Assign(init);
    if key in Assign(entries) {
      assert Assign(entries)[key] == Assign(init)[key];
      var i :| 0 <= i < n && Sets(init[i], key)
        && Assign(init)[key] == init[i].value.1
        && forall j :: i < j < n ==> !Sets(init[j], key);
      assert Sets(entries[i], key);
    }
    if exists i :: 0 <= i < |entries| && Sets(entries[i], key) {
      var i :| 0 <= i < |entries| && Sets(entries[i], key);
      assert Sets(init[i], key);
    }
  }

  /** The entry each header line contributes, in order. */
  function Entries(lines: seq<string>): (es: seq<Entry>)
    ensures |es| == |lines|
    ensures forall i :: 0 <= i < |lines| ==> es[i] == ParseLine(lines[i])
  {
    seq(|lines|, i requires 0 <= i < |lines| => ParseLine(lines[i]))
  }

  /** The header lines parsed one by one and stored in order. */
  function ParseHeader(lines: seq<string>): Frontmatter
  {
    Assign(Entries(lines))
  }

  /** A key is in the parsed header exactly when some line with a `:` has it
      as its trimmed key; lines without a `:` set nothing; the value comes from
      the last such line. */
  lemma ParseHeaderLastWins(lines: seq<string>, key: string)
    ensures key in ParseHeader(lines) <==>
      exists i :: 0 <= i < |lines| && Sets(ParseLine(lines[i]), key)
    ensures key in ParseHeader(lines) ==>
      exists i :: 0 <= i < |lines| && Sets(ParseLine(lines[i]), key)
        && ParseHeader(lines)[key] == ParseLine(lines[i]).value.1
        && forall j :: i < j < |lines| ==> !Sets(ParseLine(lines[j]), key)
  {
    AssignLastWins(Entries(lines), key);
  }

  /** Splitting `key:rest` once at `:` when the key has none. */
  lemma KeyValueSplit(key: string, rest: string)
    requires ':' !in key
    ensures SplitN(key + ":" + rest, ":", 1) == [key, rest]
  {
    var line := key + ":" + rest;
    assert line == key + [':'] + rest;
    FindCharAfter(key, ':', rest);
    SplitNStep(line, ":", 1, |key|);
    assert line[..|key|] == key;
    assert line[|key| + 1..] == rest;
  }

  /** The value part after trimming and quote stripping, as ParseLine computes it. */
  function CleanValue(v: string): string {
    StripBy(StripBy(Strip(v), IsDoubleQuote), IsSingleQuote)
  }

  lemma ParseLineOfPieces(line: string, key: string, rest: string)
    requires ':' in line && SplitN(line, ":", 1) == [key, rest]
    ensures ParseLine(line) == Some((Strip(key), CleanValue(rest)))
  {
    ContainsChar(line, ':');
  }

  /** A line `key:rest` whose key holds no `:` parses to the trimmed key and
      the cleaned rest, whatever `rest` holds (further colons included). */
  lemma ParseKeyValueLine(key: string, rest: string)
    requires ':' !in key
    ensures ParseLine(key + ":" + rest) == Some((Strip(key), CleanValue(rest)))
  {
    var line := key + ":" + rest;
    KeyValueSplit(key, rest);
    assert line[|key|] == ':';
    ParseLineOfPieces(line, key, rest);
  }

  lemma Regroup(key: string, value: string)
    ensures key + ": " + value == key + ":" + (" " + value)
  {
  }

  /** A `key: value` line with a trimmed key free of `:` and a trimmed value
      that neither starts nor ends with a quote parses back to that pair. */
  lemma ParseLineRoundTrip(key: string, value: string)
    requires ':' !in key && Trimmed(key)
    requires Trimmed(value) && TrimmedBy(value, IsDoubleQuote) && TrimmedBy(value, IsSingleQuote)
    ensures ParseLine(key + ": " + value) == Some((key, value))
  {
    Regroup(key, value);
    ParseKeyValueLine(key, " " + value);
    StripTrimmed(key);
    CleanPaddedValue(value);
  }

  lemma CleanPaddedValue(value: string)
    requires Trimmed(value) && TrimmedBy(value, IsDoubleQuote) && TrimmedBy(value, IsSingleQuote)
    ensures CleanValue(" " + value) == value
  {
    StripPadded(" ", value, IsSpace);
    StripByTrimmed(value, IsDoubleQuote);
    StripByTrimmed(value, IsSingleQuote);
  }

  /** Python's `content.split("---", 2)` and what extract_frontmatter makes of
      it: the header between the first two delimiters, parsed line by line,
      and the rest of the text trimmed. Text that does not start with the
      delimiter, or has no second one, is returned unchanged with no header. */
  function ExtractFrontmatter(content: string): (r: (Frontmatter, string))
    ensures !StartsWith(content, Delimiter) ==> r == (map[], content)
    ensures StartsWith(content, Delimiter) && !Contains(content[|Delimiter|..], Delimiter)
      ==> r == (map[], content)
  {
    if StartsWith(content, Delimiter) then
      var parts := SplitN(content, Delimiter, 2);
      OpeningDelimiter(content);
      if |parts| >= 3 then
        (ParseHeader(Split(Strip(parts[1]), "\n")), Strip(parts[2]))
      else
        (map[], content)
    else
      (map[], content)
  }

  /** Text that starts with the delimiter splits first at index 0. */
  lemma OpeningDelimiter(content: string)
    requires StartsWith(content, Delimiter)
    ensures SplitN(content, Delimiter, 2) == [""] + SplitN(content[|Delimiter|..], Delimiter, 1)
  {
    assert OccursAt(content, Delimiter, 0);
    assert FindFrom(content, Delimiter, 0) == Some(0);
  }

  /** In `h---b`, when `h` holds no delimiter, the first one is the one after `h`. */
  lemma FirstDelimiterAfter(h: string, b: string)
    requires !Contains(h + "--", Delimiter)
    ensures FindFrom(h + Delimiter + b, Delimiter, 0) == Some(|h|)
  {
    var tail := h + Delimiter + b;
    assert OccursAt(tail, Delimiter, |h|) by {
      assert tail[|h|..|h| + 3] == Delimiter;
    }
    ContainsIff(h + "--", Delimiter);
    forall j | 0 <= j < |h|
      ensures !OccursAt(tail, Delimiter, j)
    {
      if OccursAt(tail, Delimiter, j) {
        assert (h + "--")[j..j + 3] == tail[j..j + 3];
        assert OccursAt(h + "--", Delimiter, j);
      }
    }
  }

  /** `h---b` split once at the delimiter gives `h` and `b`. */
  lemma TailPieces(h: string, b: string)
    requires !Contains(h + "--", Delimiter)
    ensures SplitN(h + Delimiter + b, Delimiter, 1) == [h, b]
  {
    var tail := h + Delimiter + b;
    FirstDelimiterAfter(h, b);
    SplitNStep(tail, Delimiter, 1, |h|);
    assert tail[..|h|] == h;
    assert tail[|h| + 3..] == b;
  }

  /** The three pieces of `---h---b` when `h` holds no delimiter. */
  lemma ThreePieces(h: string, b: string)
    requires !Contains(h + "--", Delimiter)
    ensures SplitN(Delimiter + h + Delimiter + b, Delimiter, 2) == ["", h, b]
  {
    var content := Delimiter + h + Delimiter + b;
    var tail := h + Delimiter + b;
    assert StartsWith(content, Delimiter);
    assert content[|Delimiter|..] == tail;
    OpeningDelimiter(content);
    TailPieces(h, b);
  }

  /** A document `---h---b` whose header `h` holds no delimiter (not even one
      straddling its end) yields the parsed lines of `h` and `b` trimmed,
      whatever `b` contains, further delimiters included. */
  lemma HeaderAndBody(h: string, b: string)
    requires !Contains(h + "--", Delimiter)
    ensures ExtractFrontmatter(Delimiter + h + Delimiter + b)
      == (ParseHeader(Split(Strip(h), "\n")), Strip(b))
  {
    var content := Delimiter + h + Delimiter + b;
    assert StartsWith(content, Delimiter) by {
      assert content[..|Delimiter|] == Delimiter;
    }
    ThreePieces(h, b);
    SplitHeader(content, h, b);
  }

  /** A text starting with the delimiter and splitting into `"", h, b`. */
  lemma SplitHeader(content: string, h: string, b: string)
    requires StartsWith(content, Delimiter)
    requires SplitN(content, Delimiter, 2) == ["", h, b]
    ensures ExtractFrontmatter(content) == (ParseHeader(Split(Strip(h), "\n")), Strip(b))
  {
  }

  /** A header of one `key: value` line comes back as a one-entry dictionary,
      and the text after the closing delimiter as the trimmed body. */
  lemma SingleEntryHeader(key: string, value: string, b: string)
    requires key != "" && Trimmed(key) && ':' !in key && '-' !in key && '\n' !in key
    requires value != "" && Trimmed(value) && '-' !in value && '\n' !in value
    requires TrimmedBy(value, IsDoubleQuote) && TrimmedBy(value, IsSingleQuote)
    ensures ExtractFrontmatter("---\n" + key + ": " + value + "\n---" + b) == (map[key := value], Strip(b))
  {
    var line := key + ": " + value;
    var h := "\n" + line + "\n";
    assert "---\n" + key + ": " + value + "\n---" + b == Delimiter + h + Delimiter + b;
    NoDelimiterInHeader(line);
    HeaderAndBody(h, b);
    SingleLineParsed(key, value);
  }

  /** The header text `\n key: value \n` parses to the one pair. */
  lemma SingleLineParsed(key: string, value: string)
    requires key != "" && Trimmed(key) && ':' !in key && '\n' !in key
    requires value != "" && Trimmed(value) && '\n' !in value
    requires TrimmedBy(value, IsDoubleQuote) && TrimmedBy(value, IsSingleQuote)
    ensures ParseHeader(Split(Strip("\n" + (key + ": " + value) + "\n"), "\n")) == map[key := value]
  {
    PairLineTrimmed(key, value);
    OneLineHeader(key + ": " + value);
    ParseOneLine(key, value);
  }

  lemma PairLineTrimmed(key: string, value: string)
    requires key != "" && Trimmed(key) && value != "" && Trimmed(value)
    ensures Trimmed(key + ": " + value)
  {
    var line := key + ": " + value;
    assert line[0] == key[0];
    assert line[|line| - 1] == value[|value| - 1];
  }

  /** A header of the one line `key: value` is the one pair. */
  lemma ParseOneLine(key: string, value: string)
    requires ':' !in key && Trimmed(key)
    requires Trimmed(value) && TrimmedBy(value, IsDoubleQuote) && TrimmedBy(value, IsSingleQuote)
    ensures ParseHeader([key + ": " + value]) == map[key := value]
  {
    ParseLineRoundTrip(key, value);
    EntriesOne(key + ": " + value, Some((key, value)));
    AssignOne(key, value);
  }

  lemma EntriesOne(line: string, e: Entry)
    requires ParseLine(line) == e
    ensures Entries([line]) == [e]
  {
  }

  /** A trimmed newline-free line between two newlines is one header line. */
  lemma OneLineHeader(line: string)
    requires Trimmed(line) && '\n' !in line
    ensures Split(Strip("\n" + line + "\n"), "\n") == [line]
  {
    StripPaddedBoth("\n", line, "\n");
    ContainsChar(line, '\n');
  }

  lemma AssignOne(key: string, value: string)
    ensures Assign([Some((key, value))]) == map[key := value]
  {
    var es := [Some((key, value))];
    assert es[..0] == [];
  }

  /** `\n line \n--` holds no delimiter when `line` holds no `-`. */
  lemma NoDelimiterInHeader(line: string)
    requires '-' !in line
    ensures !Contains("\n" + line + "\n" + "--", Delimiter)
  {
    var t := "\n" + line + "\n" + "--";
    ContainsIff(t, Delimiter);
    forall j: nat | j + 3 <= |t|
      ensures !OccursAt(t, Delimiter, j)
    {
      if 1 <= j <= |line| {
        assert t[j] == line[j - 1];
      }
      assert t[j..j + 3][0] == t[j] != '-';
    }
  }
}

=== FILE: metadata.dfy ===
/** Per-document metadata and the light cleanup at ingestion time
    (extract_first_heading, determine_module and extract_text_from_file in
    backend/main.py). */
module Metadata {
  import opened Wrappers
  import opened Seqs
  import opened Strings
  import opened Rewrite
  import opened Frontmatter

  // ---------------------------------------------------------------------
  // Paths
  // ---------------------------------------------------------------------

  /** One path component as `pathlib` keeps it: nonempty, no separator, not `.`. */
  type Segment = s: string | s != [] && '/' !in s && s != "." witness "a"

  /** A `pathlib.Path`: absolute (rooted at `/`) or relative, and its names. */
  datatype FilePath = FilePath(absolute: bool, names: seq<Segment>)
  {
    /** `path.parts`: the anchor `/` of an absolute path, then the names. */
    function Parts(): (ps: seq<string>)
      ensures |ps| == |names| + (if absolute then 1 else 0)
      ensures absolute ==> ps[0] == "/"
      ensures forall i :: 0 <= i < |names| ==> ps[|ps| - |names| + i] == names[i]
    {
      (if absolute then ["/"] else []) + names
    }

    /** `path.name`: the last name, or "" for `/` and the empty path. */
    function Name(): (n: string)
      ensures names != [] ==> n == names[|names| - 1]
      ensures names == [] ==> n == ""
    {
      if names == [] then "" else names[|names| - 1]
    }

    /** `path.parent.name`: the name before the last, or "". */
    function ParentName(): (n: string)
      ensures |names| >= 2 ==> n == names[|names| - 2]
      ensures |names| < 2 ==> n == ""
    {
      if |names| >= 2 then names[|names| - 2] else ""
    }

    /** `str(path)`. */
    function ToString(): (s: string)
      ensures s != []
      ensures absolute ==> s[0] == '/'
    {
      if absolute then "/" + Join(names, "/")
      else if names == [] then "."
      else
        assert names[0] != [];
        JoinHead(names, "/");
        Join(names, "/")
    }
  }

  /** The first name of a nonempty list heads its joined form. */
  lemma JoinHead(parts: seq<string>, sep: string)
    requires parts != [] && parts[0] != []
    ensures Join(parts, sep) != [] && Join(parts, sep)[0] == parts[0][0]
  {
    if |parts| >= 2 {
      assert parts == [parts[0]] + parts[1..];
      JoinCons(parts[0], parts[1..], sep);
    }
  }

  /** `path.stem`: the name without its last suffix, where a suffix is a
      final `.` that is neither the first nor the last character. */
  function Stem(name: string): (stem: string)
    ensures stem == name || (exists i :: 0 < i < |name| - 1 && name[i] == '.' && stem == name[..i])
    ensures |stem| > 0 <==> |name| > 0
    ensures RFind(name, '.') <= 0 || RFind(name, '.') == |name| - 1 ==> stem == name
  {
    var i := RFind(name, '.');
    if 0 < i < |name| - 1 then name[..i] else name
  }

  // ---------------------------------------------------------------------
  // Module
  // ---------------------------------------------------------------------

  /** A folder named like a book module: `module…`, `intro` or `introduction`. */
  predicate IsModuleFolder(part: string) {
    StartsWith(part, "module") || part == "intro" || part == "introduction"
  }

  /** The index of the first part at or after `from` that is a module folder. */
  function FirstModuleFolder(parts: seq<string>, from: nat): (r: Option<nat>)
    requires from <= |parts|
    ensures r.Some? ==> from <= r.value < |parts| && IsModuleFolder(parts[r.value])
    ensures r.Some? ==> forall j :: from <= j < r.value ==> !IsModuleFolder(parts[j])
    ensures r.None? ==> forall j :: from <= j < |parts| ==> !IsModuleFolder(parts[j])
    decreases |parts| - from
  {
    if from == |parts| then None
    else if IsModuleFolder(parts[from]) then Some(from)
    else FirstModuleFolder(parts, from + 1)
  }

  /** The module a document belongs to: its first module-like folder; else
      the part before the last (the parent folder, or `/` for a file at the
      root); else "general". */
  function DetermineModule(parts: seq<string>): (m: string)
    ensures (exists i :: 0 <= i < |parts| && IsModuleFolder(parts[i])) ==>
      exists i :: 0 <= i < |parts| && IsModuleFolder(parts[i]) && m == parts[i]
        && forall j :: 0 <= j < i ==> !IsModuleFolder(parts[j])
    ensures (forall i :: 0 <= i < |parts| ==> !IsModuleFolder(parts[i])) && |parts| >= 2 ==>
      m == parts[|parts| - 2]
    ensures |parts| < 2 && (forall i :: 0 <= i < |parts| ==> !IsModuleFolder(parts[i])) ==>
      m == "general"
  {
    match FirstModuleFolder(parts, 0)
    case Some(i) => parts[i]
    case None => if |parts| >= 2 then parts[|parts| - 2] else "general"
  }

  /** A direct consequence of the definition, stated for reference: the
      result is always a part of the path, or "general". */
  lemma ModuleIsPart(parts: seq<string>)
    ensures DetermineModule(parts) in parts || DetermineModule(parts) == "general"
  {
  }

  // ---------------------------------------------------------------------
  // First heading
  // ---------------------------------------------------------------------

  /** `p` is where the `^` of a multi-line pattern can match. */
  predicate LineStart(s: string, p: nat) {
    p <= |s| && (p == 0 || s[p - 1] == '\n')
  }

  /** The text from `i` to the end of its line (excluding the newline). */
  function RestOfLine(s: string, i: nat): (line: string)
    requires i <= |s|
    ensures '\n' !in line
    ensures i + |line| <= |s| && line == s[i..i + |line|]
    ensures i + |line| == |s| || s[i + |line|] == '\n'
  {
    var n := SpanLength(s[i..], NotNewline);
    s[i..i + n]
  }

  /** The number of `#` the pattern `#{1,2}` takes at `p`: two when there are
      two (giving one back never helps, since `#` is not whitespace). */
  function Hashes(s: string, p: nat): (h: nat)
    requires p < |s|
    ensures h == 1 || h == 2
    ensures p + h <= |s|
  {
    if p + 1 < |s| && s[p + 1] == '#' then 2 else 1
  }

  /** `^#{1,2}\s+(.+)$` matched at line start `p`, and the group stripped.
      The greedy `\s+` may run over newlines; when it reaches the end of the
      text it gives characters back until `.+` can take one that is not a
      newline, which leaves only whitespace in the group. */
  function HeadingAt(s: string, p: nat): (h: Option<string>)
    requires p <= |s|
    ensures h.Some? ==> p < |s| && s[p] == '#'
    ensures h.Some? ==> '\n' !in h.value && Trimmed(h.value)
  {
    if p == |s| || s[p] != '#' then None
    else AfterHashes(s, p + Hashes(s, p))
  }

  /** `\s+(.+)$` matched at `q`, just after the hashes, and the group stripped. */
  function AfterHashes(s: string, q: nat): (h: Option<string>)
    requires q <= |s|
    ensures h.Some? ==> '\n' !in h.value && Trimmed(h.value)
  {
    var w := SpanLength(s[q..], IsSpace);
    if w == 0 then None
    else if q + w < |s| then Some(Strip(RestOfLine(s, q + w)))
    else if exists k :: q + 1 <= k < q + w && s[k] != '\n' then Some("")
    else None
  }

  /** The index of the first newline at or after `from`. */
  function NextNewline(s: string, from: nat): (r: Option<nat>)
    requires from <= |s|
    ensures r.Some? ==> from <= r.value < |s| && s[r.value] == '\n'
    ensures r.Some? ==> forall j :: from <= j < r.value ==> s[j] != '\n'
    ensures r.None? ==> forall j :: from <= j < |s| ==> s[j] != '\n'
  {
    var n := SpanLength(s[from..], NotNewline);
    if from + n < |s| then Some(from + n) else None
  }

  /** `re.search` with MULTILINE from line start `from`: the match at the
      earliest line start that has one. */
  function FirstHeadingFrom(s: string, from: nat): (h: Option<string>)
    requires LineStart(s, from)
    ensures h.Some? ==>
      exists p :: from <= p <= |s| && LineStart(s, p) && HeadingAt(s, p) == h
        && (forall p' :: from <= p' < p && LineStart(s, p') ==> HeadingAt(s, p').None?)
    ensures h.None? ==> forall p :: from <= p <= |s| && LineStart(s, p) ==> HeadingAt(s, p).None?
    decreases |s| - from
  {
    var here := HeadingAt(s, from);
    if here.Some? then here
    else
      match NextNewline(s, from)
      case None => here
      case Some(j) =>
        NoLineStartWithin(s, from, j);
        FirstHeadingFrom(s, j + 1)
  }

  /** No line starts strictly after `from` and up to the next newline. */
  lemma NoLineStartWithin(s: string, from: nat, j: nat)
    requires from <= j < |s| && forall k :: from <= k < j ==> s[k] != '\n'
    ensures forall p :: from < p <= j ==> !LineStart(s, p)
  {
  }

  /** extract_first_heading: the first level-1 or level-2 heading, stripped. */
  function FirstHeading(s: string): (h: Option<string>)
    ensures h.Some? ==> '\n' !in h.value && Trimmed(h.value)
    ensures h.Some? ==> exists p :: LineStart(s, p) && HeadingAt(s, p) == h
  {
    FirstHeadingFrom(s, 0)
  }

  /** Text with no `#` has no heading. */
  lemma NoHashNoHeading(s: string)
    requires '#' !in s
    ensures FirstHeading(s) == None
  {
  }

  /** The rest of the line at `i` is `t` when `t` is newline-free and is
      followed by a newline or the end of the text. */
  lemma RestOfLineIs(s: string, i: nat, t: string)
    requires i + |t| <= |s| && s[i..i + |t|] == t && '\n' !in t
    requires i + |t| == |s| || s[i + |t|] == '\n'
    ensures RestOfLine(s, i) == t
  {
    var line := RestOfLine(s, i);
    assert |line| == |t|;
  }

  /** The heading at `p` when a single space follows the hashes. */
  lemma HeadingAfterSpace(s: string, p: nat, t: string)
    requires p < |s| && s[p] == '#'
    requires p + Hashes(s, p) + 1 + |t| <= |s|
    requires s[p + Hashes(s, p)] == ' '
    requires t != [] && Trimmed(t) && '\n' !in t
    requires s[p + Hashes(s, p) + 1..p + Hashes(s, p) + 1 + |t|] == t
    requires p + Hashes(s, p) + 1 + |t| == |s| || s[p + Hashes(s, p) + 1 + |t|] == '\n'
    ensures HeadingAt(s, p) == Some(t)
  {
    AfterOneSpace(s, p + Hashes(s, p), t);
  }

  /** `\s+(.+)$` after the hashes when one space comes before `t`. */
  lemma AfterOneSpace(s: string, q: nat, t: string)
    requires q + 1 + |t| <= |s| && s[q] == ' '
    requires t != [] && Trimmed(t) && '\n' !in t
    requires s[q + 1..q + 1 + |t|] == t
    requires q + 1 + |t| == |s| || s[q + 1 + |t|] == '\n'
    ensures AfterHashes(s, q) == Some(t)
  {
    assert s[q + 1] == t[0];
    SingleSpace(s[q..]);
    RestOfLineIs(s, q + 1, t);
    StripTrimmed(t);
  }


  lemma SingleSpace(u: string)
    requires |u| >= 2 && IsSpace(u[0]) && !IsSpace(u[1])
    ensures SpanLength(u, IsSpace) == 1
  {
  }

  /** A document whose first line is `# t` or `## t`, for a trimmed one-line
      `t`, has `t` as its heading whatever follows. */
  lemma LeadingHeading(marker: string, t: string, rest: string)
    requires marker == "#" || marker == "##"
    requires t != [] && Trimmed(t) && '\n' !in t
    requires rest == [] || rest[0] == '\n'
    ensures FirstHeading(marker + " " + t + rest) == Some(t)
  {
    var s := marker + " " + t + rest;
    var q := |marker|;
    assert s[0] == '#';
    assert Hashes(s, 0) == q by {
      if marker == "#" { assert s[1] == ' '; }
    }
    assert s[q] == ' ';
    assert s[q + 1..q + 1 + |t|] == t;
    if rest != [] {
      assert s[q + 1 + |t|] == rest[0];
    }
    HeadingAfterSpace(s, 0, t);
  }

  // ---------------------------------------------------------------------
  // Title and section
  // ---------------------------------------------------------------------

  /** One character of Python's `str.title()` (ASCII letters only): a letter
      after a letter is lowered, any other letter is raised. */
  function TitleChar(c: char, afterLetter: bool): (d: char)
    ensures IsAsciiLetter(d) <==> IsAsciiLetter(c)
    ensures !IsAsciiLetter(c) ==> d == c
  {
    if !IsAsciiLetter(c) then c
    else if afterLetter then LowerChar(c)
    else UpperChar(c)
  }

  /** `str.title()` as CPython computes it, one character at a time while
      remembering whether the previous one was cased. */
  function TitleFrom(s: string, afterLetter: bool): (r: string)
    ensures |r| == |s|
    decreases |s|
  {
    if s == [] then []
    else [TitleChar(s[0], afterLetter)] + TitleFrom(s[1..], IsAsciiLetter(s[0]))
  }

  lemma {:induction false} TitleFromAt(s: string, afterLetter: bool, i: nat)
    requires i < |s|
    ensures TitleFrom(s, afterLetter)[i]
      == TitleChar(s[i], if i == 0 then afterLetter else IsAsciiLetter(s[i - 1]))
    decreases i
  {
    if i > 0 {
      TitleFromAt(s[1..], IsAsciiLetter(s[0]), i - 1);
    }
  }

  /** Python's `s.title()`: every character depends only on itself and its
      predecessor; only letters change. */
  function TitleCase(s: string): (r: string)
    ensures |r| == |s|
    ensures forall i :: 0 <= i < |s| ==> r[i] == TitleChar(s[i], i > 0 && IsAsciiLetter(s[i - 1]))
  {
    var r := TitleFrom(s, false);
    assert forall i :: 0 <= i < |s| ==> r[i] == TitleChar(s[i], i > 0 && IsAsciiLetter(s[i - 1])) by {
      forall i | 0 <= i < |s| {
        TitleFromAt(s, false, i);
      }
    }
    r
  }

  /** `s.replace("-", " ").replace("_", " ")`. */
  function Despace(s: string): (d: string)
    ensures |d| == |s|
    ensures forall i :: 0 <= i < |s| ==> d[i] == (if s[i] == '-' || s[i] == '_' then ' ' else s[i])
  {
    var t := Replace(s, "-", " ");
    ReplaceCharAt(s, '-', ' ');
    ReplaceCharAt(t, '_', ' ');
    Replace(t, "_", " ")
  }

  /** A name turned into words: `-` and `_` become spaces, then title case. */
  function Humanise(s: string): (r: string)
    ensures |r| == |s|
    ensures forall i :: 0 <= i < |s| ==> HumaniseChar(s[i], r[i])
    ensures '-' !in r && '_' !in r
  {
    HumaniseChars(s);
    TitleCase(Despace(s))
  }

  lemma HumaniseChars(s: string)
    ensures forall i :: 0 <= i < |s| ==> HumaniseChar(s[i], TitleCase(Despace(s))[i])
  {
    var d := Despace(s);
    var r := TitleCase(d);
    forall i | 0 <= i < |s|
      ensures HumaniseChar(s[i], r[i])
    {
      assert r[i] == TitleChar(d[i], i > 0 && IsAsciiLetter(d[i - 1]));
    }
  }

  /** How one character of a name relates to its humanised form. */
  predicate HumaniseChar(c: char, d: char) {
    && d != '-' && d != '_'
    && ((c == '-' || c == '_') ==> d == ' ')
    && (!IsAsciiLetter(c) ==> d == c || d == ' ')
    && (IsAsciiLetter(d) <==> IsAsciiLetter(c))
  }

  /** Replacing one character by another works position by position. */
  lemma {:induction false} ReplaceCharAt(s: string, a: char, b: char)
    ensures |Replace(s, [a], [b])| == |s|
    ensures forall i :: 0 <= i < |s| ==> Replace(s, [a], [b])[i] == (if s[i] == a then b else s[i])
    decreases |s|
  {
    if s != [] {
      ReplaceCharAt(s[1..], a, b);
      assert StartsWith(s, [a]) <==> s[0] == a;
    }
  }

  /** A frontmatter value, or "" when the key is absent (`dict.get(k, "")`). */
  function Lookup(fm: Frontmatter, key: string): string {
    if key in fm then fm[key] else ""
  }

  /** Candidate `i` is the first nonempty one. */
  predicate FirstNonEmptyAt(candidates: seq<string>, i: int) {
    0 <= i < |candidates| && candidates[i] != [] && forall k :: 0 <= k < i ==> candidates[k] == []
  }

  /** The first nonempty candidate, else the fallback (a chain of `or`). */
  function FirstNonEmpty(candidates: seq<string>, fallback: string): (r: string)
    ensures forall i :: FirstNonEmptyAt(candidates, i) ==> r == candidates[i]
    ensures (forall i :: 0 <= i < |candidates| ==> candidates[i] == []) ==> r == fallback
    decreases |candidates|
  {
    if candidates == [] then fallback
    else if candidates[0] != [] then candidates[0]
    else
      var tail := candidates[1..];
      assert forall i :: 1 <= i < |candidates| ==> candidates[i] == tail[i - 1];
      FirstNonEmpty(tail, fallback)
  }

  /** The title: frontmatter `title`, else `sidebar_label`, else the first
      heading of the body, else the file stem made readable; the first
      nonempty one wins. */
  function ResolveTitle(fm: Frontmatter, heading: Option<string>, stem: string): (t: string)
    ensures Lookup(fm, "title") != "" ==> t == fm["title"]
    ensures Lookup(fm, "title") == "" && Lookup(fm, "sidebar_label") != "" ==> t == fm["sidebar_label"]
    ensures (Lookup(fm, "title") == "" && Lookup(fm, "sidebar_label") == ""
             && heading.Some? && heading.value != "")
      ==> t == heading.value
    ensures (Lookup(fm, "title") == "" && Lookup(fm, "sidebar_label") == "" && heading.GetOr("") == "")
      ==> t == Humanise(stem)
  {
    var candidates := [Lookup(fm, "title"), Lookup(fm, "sidebar_label"), heading.GetOr("")];
    assert candidates[1] != [] && candidates[0] == [] ==> FirstNonEmptyAt(candidates, 1);
    assert candidates[2] != [] && candidates[0] == [] && candidates[1] == [] ==> FirstNonEmptyAt(candidates, 2);
    FirstNonEmpty(candidates, Humanise(stem))
  }

  /** The title is empty only when every source of one is, the stem included. */
  lemma TitleNonEmpty(fm: Frontmatter, heading: Option<string>, stem: string)
    requires stem != []
    ensures ResolveTitle(fm, heading, stem) != []
  {
  }

  /** A folder name made readable: only `-` becomes a space (an `_` stays),
      then title case. */
  function FolderTitle(s: string): (r: string)
    ensures |r| == |s|
    ensures forall i :: 0 <= i < |s| ==>
      r[i] == TitleChar(if s[i] == '-' then ' ' else s[i], i > 0 && IsAsciiLetter(s[i - 1]))
    ensures '-' !in r
    ensures forall i :: 0 <= i < |s| && s[i] == '_' ==> r[i] == '_'
  {
    var d := Replace(s, "-", " ");
    ReplaceCharAt(s, '-', ' ');
    var r := TitleCase(d);
    forall i | 0 <= i < |s|
      ensures r[i] == TitleChar(if s[i] == '-' then ' ' else s[i], i > 0 && IsAsciiLetter(s[i - 1]))
      ensures r[i] != '-'
      ensures s[i] == '_' ==> r[i] == '_'
    {
      assert r[i] == TitleChar(d[i], i > 0 && IsAsciiLetter(d[i - 1]));
      assert i > 0 ==> (IsAsciiLetter(d[i - 1]) <==> IsAsciiLetter(s[i - 1]));
    }
    r
  }

  /** The section: `Section <n>` from frontmatter `sidebar_position`, else
      the parent folder's name with dashes turned into spaces and then
      title-cased. */
  function ResolveSection(fm: Frontmatter, parentName: string): (section: string)
    ensures Lookup(fm, "sidebar_position") != "" ==> section == "Section " + fm["sidebar_position"]
    ensures Lookup(fm, "sidebar_position") == "" ==> section == FolderTitle(parentName)
  {
    var position := Lookup(fm, "sidebar_position");
    if position != "" then "Section " + position else FolderTitle(parentName)
  }

  // ---------------------------------------------------------------------
  // Light cleanup
  // ---------------------------------------------------------------------

  /** The ingestion-side substitutions, in order: import lines, paired JSX
      components, self-closing JSX components, HTML comments. */
  const LightStages: seq<Stage> :=
    [Pattern(Light(143)), Pattern(Light(145)), Pattern(Light(146)), Pattern(Light(148))]

  /** The body after the substitutions, the newline collapse and `strip()`.
      After the substitutions only whitespace changes: the other characters
      stay in order, and a text with no run of three newlines is only
      stripped. */
  function LightClean(rx: Matcher, body: string): (r: string)
    ensures NoTripleNewline(r) && Trimmed(r)
    ensures |r| <= |body|
    ensures forall c :: c in r ==> c in body
    ensures Filter(r, NotSpace) == Filter(ApplyStages(rx, LightStages, body), NotSpace)
    ensures NoTripleNewline(ApplyStages(rx, LightStages, body)) ==> r == Strip(ApplyStages(rx, LightStages, body))
  {
    var deleted := ApplyStages(rx, LightStages, body);
    var collapsed := CollapseNewlines(deleted);
    var r := Strip(collapsed);
    NoTripleStrip(collapsed);
    CollapseLength(deleted);
    CollapseKeepsText(deleted, NotSpace);
    StripKeepsText(collapsed, NotSpace);
    r
  }

  /** Collapsing newline runs never lengthens the text. */
  lemma {:induction false} CollapseLength(s: string)
    ensures |CollapseNewlines(s)| <= |s|
    decreases |s|
  {
    if s != [] {
      if s[0] != '\n' {
        CollapseLength(s[1..]);
      } else {
        var k := SpanLength(s, IsNewline);
        CollapseLength(s[k..]);
      }
    }
  }

  /** What extract_text_from_file records about a document. */
  datatype DocMetadata = DocMetadata(title: string, section: string, moduleName: string, filePath: string)

  /** extract_text_from_file after the file has been read: the cleaned body
      and the document's metadata. */
  function ExtractTextFromFile(rx: Matcher, content: string, path: FilePath): (r: (string, DocMetadata))
    ensures NoTripleNewline(r.0) && Trimmed(r.0)
    ensures r.1.moduleName == DetermineModule(path.Parts())
    ensures r.1.filePath == path.ToString()
    ensures r.1.title == ResolveTitle(ExtractFrontmatter(content).0, FirstHeading(ExtractFrontmatter(content).1), Stem(path.Name()))
    ensures r.1.section == ResolveSection(ExtractFrontmatter(content).0, path.ParentName())
    ensures forall c :: c in r.0 ==> c in content
    ensures r.0 == LightClean(rx, ExtractFrontmatter(content).1)
  {
    var fm := ExtractFrontmatter(content).0;
    var body := ExtractFrontmatter(content).1;
    BodyChars(content);
    var title := ResolveTitle(fm, FirstHeading(body), Stem(path.Name()));
    var section := ResolveSection(fm, path.ParentName());
    (LightClean(rx, body), DocMetadata(title, section, DetermineModule(path.Parts()), path.ToString()))
  }

  /** The body split from the frontmatter is made of the document's characters. */
  lemma BodyChars(content: string)
    ensures forall c :: c in ExtractFrontmatter(content).1 ==> c in content
  {
    if StartsWith(content, Delimiter) {
      var parts := SplitN(content, Delimiter, 2);
      if |parts| >= 3 {
        forall c | c in Strip(parts[2]) ensures c in content {
          SplitNChars(content, Delimiter, 2, 2, c);
        }
      }
    }
  }
}

=== FILE: relevance.dfy ===
/** extract_relevant_content in backend/server.py: the paragraphs of a
    retrieved chunk ranked by a keyword score, and as many of the best as
    fit a character budget. */
module Relevance {
  import opened Seqs
  import opened Strings

  /** Paragraphs shorter than this are not ranked. */
  const MinParagraph: nat := 50

  /** The most characters of paragraph text an extract collects. */
  const Budget: nat := 1000

  /** How much of the content is returned when no paragraph is long enough. */
  const FallbackLength: nat := 800

  const ParagraphBreak: string := "\n\n"

  /** Phrases that mark a paragraph as a definition or explanation. */
  const DefinitionPhrases: seq<string> := ["refers to", "is a", "means", "defined as", "the key"]

  // ---------------------------------------------------------------------
  // Paragraphs and scores
  // ---------------------------------------------------------------------

  /** The `\n\n`-separated pieces of the content, stripped, blank ones
      dropped: exactly the nonempty stripped pieces, each as often as it
      occurs, in document order, none of them holding a paragraph break. */
  function Paragraphs(content: string): (ps: seq<string>)
    ensures forall i :: 0 <= i < |ps| ==> ps[i] != "" && Trimmed(ps[i])
    ensures forall p :: p in ps <==> p != "" && p in StripEach(Split(content, ParagraphBreak))
    ensures forall p :: multiset(ps)[p] == if p == "" then 0 else multiset(StripEach(Split(content, ParagraphBreak)))[p]
    ensures IsSubsequence(ps, StripEach(Split(content, ParagraphBreak)))
    ensures forall i :: 0 <= i < |ps| ==> !Contains(ps[i], ParagraphBreak)
  {
    ParagraphFacts(content);
    ParagraphCounts(content);
    Filter(StripEach(Split(content, ParagraphBreak)), NonEmpty)
  }

  /** A repeated paragraph is kept as many times as it occurs. */
  lemma ParagraphCounts(content: string)
    ensures var stripped := StripEach(Split(content, ParagraphBreak));
      forall p :: multiset(Filter(stripped, NonEmpty))[p] == if p == "" then 0 else multiset(stripped)[p]
  {
    var stripped := StripEach(Split(content, ParagraphBreak));
    forall p {
      FilterMultiset(stripped, NonEmpty, p);
    }
  }

  lemma ParagraphFacts(content: string)
    ensures var stripped := StripEach(Split(content, ParagraphBreak));
      var ps := Filter(stripped, NonEmpty);
      && (forall i :: 0 <= i < |ps| ==> ps[i] != "" && Trimmed(ps[i]))
      && (forall p :: p in ps <==> p != "" && p in stripped)
      && IsSubsequence(ps, stripped)
      && (forall i :: 0 <= i < |ps| ==> !Contains(ps[i], ParagraphBreak))
  {
    var stripped := StripEach(Split(content, ParagraphBreak));
    var ps := Filter(stripped, NonEmpty);
    FilterIsSubsequence(stripped, NonEmpty);
    forall p {
      FilterMembers(stripped, NonEmpty, p);
    }
    forall i | 0 <= i < |ps| ensures ps[i] != "" && Trimmed(ps[i]) && !Contains(ps[i], ParagraphBreak) {
      ParagraphPiece(content, ps[i]);
    }
  }

  /** One paragraph: a nonempty stripped piece, so trimmed and without a break. */
  lemma ParagraphPiece(content: string, p: string)
    requires p in Filter(StripEach(Split(content, ParagraphBreak)), NonEmpty)
    ensures p != "" && Trimmed(p) && !Contains(p, ParagraphBreak)
  {
    var pieces := Split(content, ParagraphBreak);
    var stripped := StripEach(pieces);
    FilterMembers(stripped, NonEmpty, p);
    var j :| 0 <= j < |stripped| && stripped[j] == p;
    SplitPiecesFree(content, ParagraphBreak, j);
    StripFree(pieces[j], ParagraphBreak);
  }

  /** `set(query.lower().split())`. */
  function QueryTerms(query: string): (terms: set<string>)
    ensures forall t :: t in terms <==> t in Words(Lower(query))
    ensures forall t :: t in terms ==> t != "" && forall j :: 0 <= j < |t| ==> !IsSpace(t[j])
  {
    var ws := Words(Lower(query));
    set i | 0 <= i < |ws| :: ws[i]
  }

  /** The query terms that occur in the lowered paragraph. */
  function MatchedTerms(terms: set<string>, para: string): (found: set<string>)
    ensures found <= terms
    ensures forall t :: t in found <==> t in terms && Contains(Lower(para), t)
  {
    set t | t in terms && Contains(Lower(para), t)
  }

  predicate IsDefinition(para: string) {
    exists k :: 0 <= k < |DefinitionPhrases| && Contains(Lower(para), DefinitionPhrases[k])
  }

  /** The number of distinct query terms in the paragraph, plus 2 when it
      reads like a definition. */
  function Score(terms: set<string>, para: string): (score: nat)
    ensures score <= |terms| + 2
    ensures score >= |MatchedTerms(terms, para)|
    ensures IsDefinition(para) <==> score == |MatchedTerms(terms, para)| + 2
    ensures !IsDefinition(para) ==> score == |MatchedTerms(terms, para)|
  {
    var found := MatchedTerms(terms, para);
    SubsetCardinality(found, terms);
    |found| + (if IsDefinition(para) then 2 else 0)
  }

  lemma SubsetCardinality(a: set<string>, b: set<string>)
    requires a <= b
    ensures |a| <= |b|
  {
    assert b == a + (b - a);
  }

  /** Every query term in the paragraph, or a definitional phrase, raises the
      score: a paragraph holding all terms scores at least their number. */
  lemma ScoreAllTerms(terms: set<string>, para: string)
    requires forall t :: t in terms ==> Contains(Lower(para), t)
    ensures Score(terms, para) >= |terms|
  {
    assert MatchedTerms(terms, para) == terms;
  }

  datatype Scored = Scored(score: nat, text: string)

  predicate IsLong(para: string) {
    |para| >= MinParagraph
  }

  /** The long paragraphs with their scores, in document order: the texts
      are exactly the paragraphs of at least 50 characters. */
  function ScoreAll(terms: set<string>, paras: seq<string>): (scored: seq<Scored>)
    ensures Texts(scored) == Filter(paras, IsLong)
    ensures forall i :: 0 <= i < |scored| ==> |scored[i].text| >= MinParagraph
    ensures forall i :: 0 <= i < |scored| ==> scored[i].score == Score(terms, scored[i].text)
    ensures forall i :: 0 <= i < |scored| ==> scored[i].text in paras
    ensures scored == [] <==> forall i :: 0 <= i < |paras| ==> |paras[i]| < MinParagraph
    decreases |paras|
  {
    if paras == [] then []
    else
      var rest := ScoreAll(terms, paras[1..]);
      SplitFirst(paras);
      FilterCons(paras[0], paras[1..], IsLong);
      if IsLong(paras[0]) then
        var x := Scored(Score(terms, paras[0]), paras[0]);
        TextsCons(x, rest);
        ScoredCons(terms, x, rest, [x] + rest, paras);
        [x] + rest
      else
        ShortFirst(paras);
        rest
  }

  /** A scored long first paragraph in front of the rest's scores. */
  lemma ScoredCons(terms: set<string>, x: Scored, rest: seq<Scored>, r: seq<Scored>, paras: seq<string>)
    requires paras != [] && x == Scored(Score(terms, paras[0]), paras[0]) && IsLong(paras[0])
    requires r == [x] + rest
    requires forall i :: 0 <= i < |rest| ==> |rest[i].text| >= MinParagraph
    requires forall i :: 0 <= i < |rest| ==> rest[i].score == Score(terms, rest[i].text)
    requires forall i :: 0 <= i < |rest| ==> rest[i].text in paras[1..]
    ensures forall i :: 0 <= i < |r| ==> |r[i].text| >= MinParagraph
    ensures forall i :: 0 <= i < |r| ==> r[i].score == Score(terms, r[i].text)
    ensures forall i :: 0 <= i < |r| ==> r[i].text in paras
  {
    forall i | 1 <= i < |r|
      ensures r[i] == rest[i - 1]
    {
    }
    forall p | p in paras[1..]
      ensures p in paras
    {
    }
  }

  /** A short first paragraph is not scored: the rest's paragraphs are all
      short exactly when all are. */
  lemma ShortFirst(paras: seq<string>)
    requires paras != [] && !IsLong(paras[0])
    ensures (forall i :: 0 <= i < |paras| ==> |paras[i]| < MinParagraph)
      <==> (forall i :: 0 <= i < |paras[1..]| ==> |paras[1..][i]| < MinParagraph)
    ensures forall p :: p in paras[1..] ==> p in paras
  {
    var rest := paras[1..];
    assert forall i :: 1 <= i < |paras| ==> paras[i] == rest[i - 1];
  }

  lemma TextsCons(x: Scored, rest: seq<Scored>)
    ensures Texts([x] + rest) == [x.text] + Texts(rest)
  {
    assert forall i :: 1 <= i <= |rest| ==> ([x] + rest)[i] == rest[i - 1];
  }

  // ---------------------------------------------------------------------
  // Stable descending sort
  // ---------------------------------------------------------------------

  predicate SortedDesc(s: seq<Scored>) {
    forall i, j :: 0 <= i < j < |s| ==> s[i].score >= s[j].score
  }

  /** `x` placed after every element scoring at least as much, so equal
      scores keep their order. */
  function Insert(x: Scored, s: seq<Scored>): (r: seq<Scored>)
    requires SortedDesc(s)
    ensures SortedDesc(r)
    ensures multiset(r) == multiset(s) + multiset{x}
    ensures |r| == |s| + 1
    ensures r[0] == x || (s != [] && r[0] == s[0])
    decreases |s|
  {
    if s == [] then [x]
    else if s[0].score >= x.score then
      var rest := Insert(x, s[1..]);
      KeepHead(x, s, rest);
      [s[0]] + rest
    else
      InsertHead(x, s);
      [x] + s
  }

  /** The head of `s` stays in front of `x` inserted into the tail. */
  lemma KeepHead(x: Scored, s: seq<Scored>, rest: seq<Scored>)
    requires s != [] && SortedDesc(s) && s[0].score >= x.score
    requires SortedDesc(rest) && multiset(rest) == multiset(s[1..]) + multiset{x}
    requires |rest| == |s[1..]| + 1
    requires rest[0] == x || (s[1..] != [] && rest[0] == s[1..][0])
    ensures SortedDesc([s[0]] + rest)
    ensures multiset([s[0]] + rest) == multiset(s) + multiset{x}
  {
    SplitFirst(s);
    SortedTail(s);
    InsertHead(s[0], rest);
  }

  lemma SortedTail(s: seq<Scored>)
    requires s != [] && SortedDesc(s)
    ensures SortedDesc(s[1..])
    ensures |s| >= 2 ==> s[0].score >= s[1].score
  {
    assert forall i :: 0 <= i < |s| - 1 ==> s[1..][i] == s[i + 1];
  }

  /** A head scoring at least the first of a sorted tail keeps it sorted. */
  lemma InsertHead(h: Scored, t: seq<Scored>)
    requires SortedDesc(t)
    requires t == [] || h.score >= t[0].score
    ensures SortedDesc([h] + t)
  {
    var r := [h] + t;
    forall i, j | 0 <= i < j < |r| ensures r[i].score >= r[j].score {
      if i == 0 {
        assert r[j] == t[j - 1];
      } else {
        assert r[i] == t[i - 1] && r[j] == t[j - 1];
      }
    }
  }

  /** Python's `sort(key=score, reverse=True)`: descending by score, stable. */
  function SortDesc(s: seq<Scored>): (r: seq<Scored>)
    ensures SortedDesc(r)
    ensures multiset(r) == multiset(s)
    ensures |r| == |s|
    decreases |s|
  {
    if s == [] then []
    else
      var init := s[..|s| - 1];
      SplitLast(s);
      Insert(s[|s| - 1], SortDesc(init))
  }

  /** The elements with score `k`, in order. */
  function WithScore(s: seq<Scored>, k: nat): (r: seq<Scored>)
    ensures |r| <= |s|
    decreases |s|
  {
    if s == [] then []
    else (if s[0].score == k then [s[0]] else []) + WithScore(s[1..], k)
  }

  /** The class of one element. */
  function Single(e: Scored, k: nat): seq<Scored> {
    if e.score == k then [e] else []
  }

  lemma WithScoreCons(e: Scored, t: seq<Scored>, k: nat)
    ensures WithScore([e] + t, k) == Single(e, k) + WithScore(t, k)
  {
    assert ([e] + t)[0] == e;
    assert ([e] + t)[1..] == t;
  }

  lemma {:induction false} WithScoreAppend(a: seq<Scored>, b: seq<Scored>, k: nat)
    ensures WithScore(a + b, k) == WithScore(a, k) + WithScore(b, k)
    decreases |a|
  {
    if a == [] {
      assert a + b == b;
    } else {
      assert a + b == [a[0]] + (a[1..] + b);
      assert a == [a[0]] + a[1..];
      WithScoreCons(a[0], a[1..] + b, k);
      WithScoreCons(a[0], a[1..], k);
      WithScoreAppend(a[1..], b, k);
    }
  }

  lemma {:induction false} WithScoreNone(s: seq<Scored>, k: nat)
    requires forall i :: 0 <= i < |s| ==> s[i].score < k
    ensures WithScore(s, k) == []
    decreases |s|
  {
    if s != [] {
      WithScoreNone(s[1..], k);
    }
  }

  /** Inserting adds `x` at the end of its score class and leaves every
      other class unchanged. */
  lemma {:induction false} InsertWithScore(x: Scored, s: seq<Scored>, k: nat)
    requires SortedDesc(s)
    ensures WithScore(Insert(x, s), k) == WithScore(s, k) + Single(x, k)
    decreases |s|, 1
  {
    if s == [] {
      assert Insert(x, s) == [x] + [];
      WithScoreCons(x, [], k);
    } else if s[0].score >= x.score {
      InsertBehind(x, s, k);
    } else {
      InsertInFront(x, s, k);
    }
  }

  /** `x` goes behind the head, which scores at least as much. */
  lemma {:induction false} InsertBehind(x: Scored, s: seq<Scored>, k: nat)
    requires SortedDesc(s) && s != [] && s[0].score >= x.score
    ensures WithScore(Insert(x, s), k) == WithScore(s, k) + Single(x, k)
    decreases |s|, 0
  {
    SortedTail(s);
    var rest := Insert(x, s[1..]);
    InsertWithScore(x, s[1..], k);
    assert Insert(x, s) == [s[0]] + rest;
    SplitFirst(s);
    WithScoreCons(s[0], rest, k);
    WithScoreCons(s[0], s[1..], k);
    ConcatAssoc(Single(s[0], k), WithScore(s[1..], k), Single(x, k));
  }

  /** `x` outscores everything in `s`, so its class in `s` is empty. */
  lemma InsertInFront(x: Scored, s: seq<Scored>, k: nat)
    requires SortedDesc(s) && s != [] && s[0].score < x.score
    ensures WithScore(Insert(x, s), k) == WithScore(s, k) + Single(x, k)
  {
    assert Insert(x, s) == [x] + s;
    WithScoreCons(x, s, k);
    if x.score == k {
      WithScoreNone(s, k);
    }
  }

  /** The sort is stable: each score class keeps its original order. */
  lemma {:induction false} SortStable(s: seq<Scored>, k: nat)
    ensures WithScore(SortDesc(s), k) == WithScore(s, k)
    decreases |s|
  {
    if s != [] {
      var init := s[..|s| - 1];
      var x := s[|s| - 1];
      assert SortDesc(s) == Insert(x, SortDesc(init));
      SortStable(init, k);
      InsertWithScore(x, SortDesc(init), k);
      SplitLast(s);
      WithScoreAppend(init, [x], k);
      WithScoreCons(x, [], k);
      assert [x] + [] == [x];
    }
  }

  /** The first element after sorting has the highest score. */
  lemma SortTopIsBest(s: seq<Scored>, i: nat)
    requires i < |s|
    ensures SortDesc(s)[0].score >= s[i].score
  {
    var r := SortDesc(s);
    assert s[i] in multiset(r);
    var j :| 0 <= j < |r| && r[j] == s[i];
  }

  // ---------------------------------------------------------------------
  // Greedy selection
  // ---------------------------------------------------------------------

  /** The summed length of the paragraphs. */
  function TotalLength(ps: seq<string>): nat
    decreases |ps|
  {
    if ps == [] then 0 else |ps[0]| + TotalLength(ps[1..])
  }

  function Texts(s: seq<Scored>): (ts: seq<string>)
    ensures |ts| == |s|
    ensures forall i :: 0 <= i < |s| ==> ts[i] == s[i].text
  {
    seq(|s|, i requires 0 <= i < |s| => s[i].text)
  }

  /** The paragraphs taken in order while the running total stays within the
      budget; the first one that would exceed it ends the selection. */
  function Select(ps: seq<string>, budget: nat): (chosen: seq<string>)
    ensures |chosen| <= |ps| && chosen == ps[..|chosen|]
    ensures TotalLength(chosen) <= budget
    ensures |chosen| < |ps| ==> TotalLength(chosen) + |ps[|chosen|]| > budget
    decreases |ps|
  {
    if ps == [] || |ps[0]| > budget then []
    else
      var rest := Select(ps[1..], budget - |ps[0]|);
      assert ([ps[0]] + rest)[1..] == rest;
      [ps[0]] + rest
  }

  /** The selection is the longest prefix within the budget: no longer prefix
      fits. */
  lemma {:induction false} SelectLongest(ps: seq<string>, budget: nat, n: nat)
    requires |Select(ps, budget)| < n <= |ps|
    ensures TotalLength(ps[..n]) > budget
    decreases |ps|
  {
    var prefix := ps[..n];
    assert prefix[0] == ps[0];
    if |ps[0]| <= budget {
      assert |Select(ps, budget)| == 1 + |Select(ps[1..], budget - |ps[0]|)|;
      assert prefix[1..] == ps[1..][..n - 1];
      SelectLongest(ps[1..], budget - |ps[0]|, n - 1);
    }
  }

  /** A joined text is as long as its parts and the separators between them. */
  lemma {:induction false} JoinLength(ps: seq<string>, sep: string)
    ensures ps != [] ==> |Join(ps, sep)| == TotalLength(ps) + (|ps| - 1) * |sep|
    ensures ps == [] ==> Join(ps, sep) == ""
    decreases |ps|
  {
    if |ps| >= 2 {
      JoinLength(ps[1..], sep);
    }
  }

  // ---------------------------------------------------------------------
  // The extract
  // ---------------------------------------------------------------------

  /** The long paragraphs of the content, scored against the query and
      sorted best first. */
  function Ranked(content: string, query: string): (ranked: seq<Scored>)
    ensures SortedDesc(ranked)
    ensures multiset(ranked) == multiset(ScoreAll(QueryTerms(query), Paragraphs(content)))
  {
    SortDesc(ScoreAll(QueryTerms(query), Paragraphs(content)))
  }

  /** extract_relevant_content. */
  function ExtractRelevantContent(content: string, query: string): (r: string)
    ensures content == "" ==> r == ""
    ensures Paragraphs(content) == [] ==> r == content
    ensures Paragraphs(content) != [] && Ranked(content, query) == [] ==> r == Prefix(content, FallbackLength)
    ensures Ranked(content, query) != [] ==>
      var chosen := Select(Texts(Ranked(content, query)), Budget);
      (chosen != [] ==> r == Join(chosen, ParagraphBreak))
      && (chosen == [] ==> r == Ranked(content, query)[0].text && |r| > Budget)
  {
    if content == "" then
      NoParagraphsInEmpty();
      ""
    else
      var paras := Paragraphs(content);
      if paras == [] then content
      else
        var ranked := Ranked(content, query);
        if ranked == [] then Prefix(content, FallbackLength)
        else
          var chosen := Select(Texts(ranked), Budget);
          if chosen != [] then Join(chosen, ParagraphBreak)
          else
            NothingFits(ranked);
            ranked[0].text
  }

  /** When no paragraph fits, the best one alone is over the budget. */
  lemma NothingFits(ranked: seq<Scored>)
    requires ranked != [] && Select(Texts(ranked), Budget) == []
    ensures |ranked[0].text| > Budget
  {
    assert Texts(ranked)[0] == ranked[0].text;
  }

  /** Empty content has no paragraphs. */
  lemma NoParagraphsInEmpty()
    ensures Paragraphs("") == []
  {
    assert !Contains("", ParagraphBreak);
    assert Split("", ParagraphBreak) == [""];
  }

  /** Content whose paragraphs are all shorter than 50 characters gives its
      first 800 characters (all of it when shorter). */
  lemma ShortParagraphsFallback(content: string, query: string)
    requires Paragraphs(content) != []
    requires forall i :: 0 <= i < |Paragraphs(content)| ==> |Paragraphs(content)[i]| < MinParagraph
    ensures ExtractRelevantContent(content, query) == Prefix(content, FallbackLength)
  {
    assert ScoreAll(QueryTerms(query), Paragraphs(content)) == [];
  }

  /** When some paragraph fits, the extract is the best-first paragraphs
      joined by blank lines: at most 1000 characters of paragraph text, and
      the next ranked paragraph would not have fitted. */
  lemma ExtractWithinBudget(content: string, query: string)
    requires Ranked(content, query) != []
    requires Select(Texts(Ranked(content, query)), Budget) != []
    ensures var chosen := Select(Texts(Ranked(content, query)), Budget);
      |ExtractRelevantContent(content, query)|
        == TotalLength(chosen) + (|chosen| - 1) * |ParagraphBreak|
      && TotalLength(chosen) <= Budget
      && (|chosen| < |Ranked(content, query)| ==>
            TotalLength(chosen) + |Ranked(content, query)[|chosen|].text| > Budget)
  {
    var chosen := Select(Texts(Ranked(content, query)), Budget);
    JoinLength(chosen, ParagraphBreak);
  }
}

=== FILE: rewrite.dfy ===
/** The regular-expression substitutions shared by the light cleanup at
    ingestion time and the aggressive clean_text at query time.

    Every substitution given to the abstract `Matcher` replaces a match by
    nothing or by one of the match's own groups, so each one only deletes
    characters. The model keeps that fact and abstracts the rest: which
    characters such a pattern removes is given by the `Matcher`, one answer
    per source site. The substitutions that put literal text in place of a
    match (the newline collapse here, the whitespace stages of clean_text)
    are modelled exactly. */
module Rewrite {
  import opened Seqs
  import opened Strings

  /** A substitution's place in the source: the ingestion-side cleanup in
      backend/main.py or clean_text in backend/server.py, by line number. */
  datatype Site = Light(line: nat) | Aggressive(line: nat)

  /** For a site and an input text, the characters its pattern deletes
      (`true` = deleted; positions beyond the marks are kept). */
  type Matcher = (Site, string) -> seq<bool>

  /** One substitution of a pipeline: a pattern whose matching is abstract,
      or a pattern that is a plain literal and is modelled exactly. */
  datatype Stage = Pattern(site: Site) | Literal(text: string)

  /** The text with the marked characters removed. */
  function DeleteMarked(s: string, marks: seq<bool>): (r: string)
    ensures |r| <= |s|
    ensures forall c :: c in r ==> c in s
    decreases |s|
  {
    if s == [] then []
    else
      (if |marks| > 0 && marks[0] then [] else [s[0]])
      + DeleteMarked(s[1..], if |marks| > 0 then marks[1..] else [])
  }

  /** `re.sub(pattern, '', s)` (or with a group as replacement) for one stage. */
  function ApplyStage(rx: Matcher, stage: Stage, s: string): (r: string)
    ensures |r| <= |s|
    ensures forall c :: c in r ==> c in s
  {
    match stage
    case Pattern(site) => DeleteMarked(s, rx(site, s))
    case Literal(text) => if text == "" then s else Replace(s, text, "")
  }

  /** The stages applied one after another, in order. */
  function ApplyStages(rx: Matcher, stages: seq<Stage>, s: string): (r: string)
    ensures |r| <= |s|
    ensures forall c :: c in r ==> c in s
    decreases |stages|
  {
    if stages == [] then s else ApplyStages(rx, stages[1..], ApplyStage(rx, stages[0], s))
  }

  predicate IsNewline(c: char) {
    c == '\n'
  }

  /** No three consecutive newlines anywhere in `s`. */
  predicate NoTripleNewline(s: string) {
    forall i :: 0 <= i < |s| - 2 ==> !(s[i] == '\n' && s[i + 1] == '\n' && s[i + 2] == '\n')
  }

  lemma NoTripleAppend(a: string, b: string)
    requires |a| <= 2 && NoTripleNewline(b)
    requires (forall j :: 0 <= j < |a| ==> a[j] != '\n') || b == [] || b[0] != '\n'
    ensures NoTripleNewline(a + b)
  {
    var s := a + b;
    forall i | 0 <= i < |s| - 2
      ensures !(s[i] == '\n' && s[i + 1] == '\n' && s[i + 2] == '\n')
    {
      if i >= |a| {
        assert s[i] == b[i - |a|] && s[i + 1] == b[i - |a| + 1] && s[i + 2] == b[i - |a| + 2];
      } else if b != [] && b[0] != '\n' {
        assert s[|a|] == b[0];
      } else {
        assert s[i] == a[i];
      }
    }
  }

  /** A slice of a text without a newline triple has none either; in
      particular stripping keeps the property. */
  lemma NoTripleSlice(s: string, lo: nat, hi: nat, t: string)
    requires lo <= hi <= |s| && NoTripleNewline(s) && t == s[lo..hi]
    ensures NoTripleNewline(t)
  {
    forall i | 0 <= i < |t| - 2
      ensures !(t[i] == '\n' && t[i + 1] == '\n' && t[i + 2] == '\n')
    {
      assert t[i] == s[lo + i] && t[i + 1] == s[lo + i + 1] && t[i + 2] == s[lo + i + 2];
    }
  }

  /** `strip()` keeps a text free of newline triples. */
  lemma NoTripleStrip(s: string)
    requires NoTripleNewline(s)
    ensures NoTripleNewline(Strip(s))
  {
    var lo, hi := StripBounds(s);
    NoTripleSlice(s, lo, hi, Strip(s));
  }

  predicate NotNewline(c: char) {
    c != '\n'
  }

  /** `re.sub(r'\n{3,}', '\n\n', s)`: every run of three or more newlines
      becomes exactly two; all other characters are kept, in order, and a
      text without three newlines in a row is left as it is. Since a run of
      two is left as it is, this is also `re.sub(r'\n\n+', '\n\n', s)`. */
  function CollapseNewlines(s: string): (r: string)
    ensures NoTripleNewline(r)
    ensures Filter(r, NotNewline) == Filter(s, NotNewline)
    ensures NoTripleNewline(s) ==> r == s
    ensures forall c :: c in r ==> c in s
    ensures s != [] && s[0] != '\n' ==> r != [] && r[0] == s[0]
    ensures s != [] ==> r != []
    decreases |s|
  {
    if s == [] then []
    else if s[0] != '\n' then
      var rest := CollapseNewlines(s[1..]);
      NoTripleAppend([s[0]], rest);
      KeepStep(s, rest);
      ConsChars(s, 1, [s[0]], rest);
      [s[0]] + rest
    else
      var k := SpanLength(s, IsNewline);
      var run := if k >= 3 then "\n\n" else s[..k];
      var rest := CollapseNewlines(s[k..]);
      RunThenRest(s, k, run, rest);
      RunStep(s, k, run, rest);
      run + rest
  }

  /** The replacement of a leading run: newlines only, at most two, and
      followed by something other than a newline. */
  lemma RunThenRest(s: string, k: nat, run: string, rest: string)
    requires 0 < k <= |s| && k == SpanLength(s, IsNewline)
    requires run == (if k >= 3 then "\n\n" else s[..k])
    requires NoTripleNewline(rest)
    requires forall c :: c in rest ==> c in s[k..]
    requires s[k..] != [] && s[k..][0] != '\n' ==> rest != [] && rest[0] == s[k..][0]
    requires s[k..] == [] ==> rest == []
    ensures NoTripleNewline(run + rest)
    ensures forall c :: c in run + rest ==> c in s
    ensures run + rest != []
  {
    assert forall c :: c in run ==> c == '\n';
    NoTripleAppend(run, rest);
    ConsChars(s, k, run, rest);
  }

  /** A head made of the first characters of `s`, or of newlines from them,
      in front of a rest made of the characters after them. */
  lemma ConsChars(s: string, k: nat, head: string, rest: string)
    requires 0 < k <= |s|
    requires forall c :: c in head ==> c in s[..k]
    requires forall c :: c in rest ==> c in s[k..]
    ensures forall c :: c in head + rest ==> c in s
  {
    SplitAt(s, k);
  }

  /** A character other than a newline, in front of the collapsed rest. */
  lemma KeepStep(s: string, rest: string)
    requires s != [] && s[0] != '\n'
    requires Filter(rest, NotNewline) == Filter(s[1..], NotNewline)
    requires NoTripleNewline(s[1..]) ==> rest == s[1..]
    ensures Filter([s[0]] + rest, NotNewline) == Filter(s, NotNewline)
    ensures NoTripleNewline(s) ==> [s[0]] + rest == s
  {
    FilterCons(s[0], rest, NotNewline);
    if NoTripleNewline(s) {
      NoTripleSlice(s, 1, |s|, s[1..]);
    }
  }

  /** A run of `k` newlines, replaced by `run`, in front of the collapsed rest. */
  lemma RunStep(s: string, k: nat, run: string, rest: string)
    requires 0 < k <= |s| && k == SpanLength(s, IsNewline)
    requires run == (if k >= 3 then "\n\n" else s[..k])
    requires Filter(rest, NotNewline) == Filter(s[k..], NotNewline)
    requires NoTripleNewline(s[k..]) ==> rest == s[k..]
    ensures Filter(run + rest, NotNewline) == Filter(s, NotNewline)
    ensures NoTripleNewline(s) ==> run + rest == s
  {
    RunStepText(s, k, run, rest);
    if NoTripleNewline(s) {
      RunStepFixed(s, k, run, rest);
    }
  }

  /** In a text without a newline triple the run is at most two long and kept. */
  lemma RunStepFixed(s: string, k: nat, run: string, rest: string)
    requires 0 < k <= |s| && forall i :: 0 <= i < k ==> s[i] == '\n'
    requires NoTripleNewline(s)
    requires run == (if k >= 3 then "\n\n" else s[..k])
    requires NoTripleNewline(s[k..]) ==> rest == s[k..]
    ensures run + rest == s
  {
    if |s| >= 3 {
      assert !(s[0] == '\n' && s[1] == '\n' && s[2] == '\n');
    }
    assert k <= 2;
    NoTripleSlice(s, k, |s|, s[k..]);
    SplitAt(s, k);
  }

  lemma RunStepText(s: string, k: nat, run: string, rest: string)
    requires 0 < k <= |s| && forall i :: 0 <= i < k ==> s[i] == '\n'
    requires forall i :: 0 <= i < |run| ==> run[i] == '\n'
    requires Filter(rest, NotNewline) == Filter(s[k..], NotNewline)
    ensures Filter(run + rest, NotNewline) == Filter(s, NotNewline)
  {
    FilterAppend(run, rest, NotNewline);
    FilterNone(run, NotNewline);
    SplitAt(s, k);
    FilterAppend(s[..k], s[k..], NotNewline);
    FilterNone(s[..k], NotNewline);
  }

  /** The collapse keeps, in order, every character that `p` selects, as
      long as `p` selects no newline. */
  lemma CollapseKeepsText(s: string, p: char -> bool)
    requires !p('\n')
    ensures Filter(CollapseNewlines(s), p) == Filter(s, p)
  {
    FilterFilter(CollapseNewlines(s), NotNewline, p);
    FilterFilter(s, NotNewline, p);
  }

  /** The collapse works run by run: a character other than a newline
      separates what happens before it from what happens after it. */
  lemma {:induction false} CollapseAround(a: string, c: char, b: string)
    requires c != '\n'
    ensures CollapseNewlines(a + [c] + b) == CollapseNewlines(a) + [c] + CollapseNewlines(b)
    decreases |a|, 2
  {
    var s := a + [c] + b;
    if a == [] {
      assert s == [c] + b;
      assert s[1..] == b;
    } else if a[0] != '\n' {
      CollapseAroundKeep(a, c, b);
    } else {
      CollapseAroundRun(a, c, b);
    }
  }

  /** The same when `a` starts with a character other than a newline. */
  lemma {:induction false} CollapseAroundKeep(a: string, c: char, b: string)
    requires c != '\n' && a != [] && a[0] != '\n'
    ensures CollapseNewlines(a + [c] + b) == CollapseNewlines(a) + [c] + CollapseNewlines(b)
    decreases |a|, 1
  {
    var x, tail := a[0], a[1..];
    var s := a + [c] + b;
    assert s == [x] + (tail + [c] + b);
    assert CollapseNewlines(s) == [x] + CollapseNewlines(tail + [c] + b);
    assert a == [x] + tail;
    assert CollapseNewlines(a) == [x] + CollapseNewlines(tail);
    CollapseAround(tail, c, b);
    ConcatAssoc4([x], CollapseNewlines(tail), [c], CollapseNewlines(b));
  }

  /** The same when `a` starts with a newline run. */
  lemma {:induction false} CollapseAroundRun(a: string, c: char, b: string)
    requires c != '\n' && a != [] && a[0] == '\n'
    ensures CollapseNewlines(a + [c] + b) == CollapseNewlines(a) + [c] + CollapseNewlines(b)
    decreases |a|, 1
  {
    if SpanLength(a, IsNewline) < |a| {
      CollapseAroundInner(a, c, b);
    } else {
      CollapseAroundWhole(a, c, b);
    }
  }

  /** The run ends inside `a`. */
  lemma {:induction false} CollapseAroundInner(a: string, c: char, b: string)
    requires c != '\n' && a != [] && a[0] == '\n' && SpanLength(a, IsNewline) < |a|
    ensures CollapseNewlines(a + [c] + b) == CollapseNewlines(a) + [c] + CollapseNewlines(b)
    decreases |a|, 0
  {
    var t := [c] + b;
    var s := a + t;
    assert a + [c] + b == s;
    var k := SpanLength(a, IsNewline);
    SpanAppend(a, t, IsNewline);
    AppendSlices(a, t, k);
    var later := a[k..];
    var run := if k >= 3 then "\n\n" else a[..k];
    assert CollapseNewlines(s) == run + CollapseNewlines(later + t);
    assert CollapseNewlines(a) == run + CollapseNewlines(later);
    CollapseAround(later, c, b);
    ConcatAssoc(later, [c], b);
    assert CollapseNewlines(later + t) == CollapseNewlines(later) + [c] + CollapseNewlines(b);
    ConcatAssoc4(run, CollapseNewlines(later), [c], CollapseNewlines(b));
  }

  /** `a` is all newlines. */
  lemma CollapseAroundWhole(a: string, c: char, b: string)
    requires c != '\n' && a != [] && a[0] == '\n' && SpanLength(a, IsNewline) == |a|
    ensures CollapseNewlines(a + [c] + b) == CollapseNewlines(a) + [c] + CollapseNewlines(b)
  {
    var s := a + [c] + b;
    var k := |a|;
    var t := [c] + b;
    assert s == a + t;
    SpanAppend(a, t, IsNewline);
    assert t[0] == c && t[1..] == b;
    assert SpanLength(s, IsNewline) == k;
    CollapseRun(a);
    var run := CollapseNewlines(a);
    assert s[..k] == a && s[k..] == t;
    assert CollapseNewlines(s) == run + CollapseNewlines(t);
    ConcatAssoc(run, [c], CollapseNewlines(b));
  }

  /** A run of newlines alone: three or more become two, fewer stay. */
  lemma CollapseRun(s: string)
    requires forall i :: 0 <= i < |s| ==> s[i] == '\n'
    ensures CollapseNewlines(s) == if |s| >= 3 then "\n\n" else s
  {
    if s != [] {
      assert SpanLength(s, IsNewline) == |s|;
      assert s[|s|..] == [];
      assert s[..|s|] == s;
    }
  }
}

=== FILE: sanitizer.dfy ===
/** clean_text in backend/server.py: the query-side cleanup that turns a
    stored chunk of MDX into readable prose. The line filter, the table-row
    filter, the removal of `<` and `>` and the whitespace normalisation are
    modelled exactly; the other substitutions are abstract deletion stages
    (see module Rewrite) applied in the source's order. */
module Sanitizer {
  import opened Seqs
  import opened Strings
  import opened Rewrite

  // ---------------------------------------------------------------------
  // Abstract substitution stages, by source line
  // ---------------------------------------------------------------------

  /** The substitutions at the given lines of clean_text, in order. */
  function Patterns(lines: seq<nat>): (stages: seq<Stage>)
    ensures |stages| == |lines|
  {
    seq(|lines|, i requires 0 <= i < |lines| => Pattern(Aggressive(lines[i])))
  }

  /** Substitutions whose patterns are plain literals, in order. */
  function Literals(texts: seq<string>): (stages: seq<Stage>)
    ensures |stages| == |texts|
  {
    seq(|texts|, i requires 0 <= i < |texts| => Literal(texts[i]))
  }

  /** Before the line filter: frontmatter blocks, import lines, docstrings,
      "By the end of this" and "Before starting this" blocks. */
  const PreFilterStages: seq<Stage> := Patterns([143, 146, 149, 150, 154, 155])

  /** Inside the line filter: `**bold**` and `[text](url)` reduced to their text. */
  const LineMarkupStages: seq<Stage> := Patterns([222, 223])

  /** Between the line filter and the table filter: admonitions, code fences
      and mermaid fragments; the arrows and placeholder labels, which are
      literals; tags, comments, JSX attributes, code-like text, shell
      commands and the table separator row. */
  const CodeStages: seq<Stage> :=
    Patterns([240, 241, 244, 245, 247, 249, 250, 251])
    + Literals(["-->", "<-->", "[diagram]", "[code]", "[code example]", "[configuration example]"])
    + Patterns([262, 263, 266, 269, 270, 271, 274, 275, 276, 277, 278, 279, 280,
                283, 284, 285, 286, 287, 290, 291, 292, 293, 294, 295, 296, 297,
                298, 299, 300, 301, 304])

  /** After the table filter: links, images, headers, emphasis, inline code,
      list markers and horizontal rules, then the empty bracket pairs. */
  const MarkdownStages: seq<Stage> :=
    Patterns([310, 311, 312, 313, 314, 315, 316, 317, 320, 321, 324])
    + Literals(["[]", "()", "{}"])

  /** After `<` and `>` are gone: lines holding one capital or only digits. */
  const LoneLineStages: seq<Stage> := Patterns([333, 334])

  // ---------------------------------------------------------------------
  // The line filter
  // ---------------------------------------------------------------------

  /** The boilerplate fragments a kept line may not contain. */
  const SkipPatterns: seq<string> := [
    "By the end of this", "Before starting this", "you will be able to",
    "ensure you have", "Background:", "Curiosity:", "Mindset:",
    "Basic understanding", "Interest in robotics", "Readiness to think",
    "Define Physical AI", "Explain why embodiment", "Identify the key",
    "Understand the convergence",
    "Software:", "Hardware:", "Module:", "Completed Module", "GPU recommended",
    "ROS 2 Humble installed", "Ubuntu 22.04",
    "Launch basic", "Configure world", "Set up and configure", "Work with", "Connect",
    "Knowledge:", "Familiarity with", "Describe the", "Basic Linux",
    "Real-time |", "| Limited |", "| Supported |",
    ": ROS", "Becomes Industry", "Development Begins", "First Release",
    "Compare RT-", "Choose appropriate", "Chapter:", "Transformer architecture",
    "GPU with", "VRAM", "Plugins Services", "FUSE TR HEAD",
    "imagesize:", "numactions:", "int ="
  ]

  /** The learning-objective verbs a bullet line may not start with. */
  const ObjectiveVerbs: seq<string> := [
    "Define", "Explain", "Identify", "Understand", "Install", "Configure",
    "Launch", "Create", "Build", "Implement", "Set up", "Work with"
  ]

  /** Some skip pattern occurs in `s`, ignoring the case of both. */
  predicate HasSkipPattern(s: string) {
    exists k :: 0 <= k < |SkipPatterns| && Contains(Lower(s), Lower(SkipPatterns[k]))
  }

  /** The class `[\s\-\*]` of leading bullets. */
  predicate IsBulletMark(c: char) {
    IsSpace(c) || c == '-' || c == '*'
  }

  /** The class of the objective-verb pattern's bullet prefix: the bullets
      above and the three characters `â`, `€`, `¢` of a mis-decoded `•`
      (with `Â`, which matches `â` when case is ignored). */
  predicate IsObjectiveMark(c: char) {
    IsBulletMark(c) || c == 'â' || c == 'Â' || c == '€' || c == '¢'
  }

  /** The stripped line with its bold and link markup reduced and its
      leading bullets removed. */
  function LineClean(rx: Matcher, stripped: string): (r: string)
    ensures r == [] || !IsBulletMark(r[0])
    ensures forall c :: c in r ==> c in stripped
  {
    LStripBy(ApplyStages(rx, LineMarkupStages, stripped), IsBulletMark)
  }

  /** `rest` starts with `verb`, ignoring case, and a whitespace follows. */
  predicate VerbAt(rest: string, verb: string) {
    |verb| < |rest| && Lower(rest[..|verb|]) == Lower(verb) && IsSpace(rest[|verb|])
  }

  /** The line is a bullet of learning objectives: after any bullet marks it
      starts with an objective verb followed by whitespace. Every verb
      starts with a letter outside the bullet class, so the marks before
      the verb are exactly the longest run of them. */
  predicate IsObjectiveLine(stripped: string) {
    var rest := LStripBy(stripped, IsObjectiveMark);
    exists k :: 0 <= k < |ObjectiveVerbs| && VerbAt(rest, ObjectiveVerbs[k])
  }

  /** Whether the filter keeps a line. */
  predicate KeepLine(rx: Matcher, line: string) {
    var stripped := Strip(line);
    stripped != ""
    && !HasSkipPattern(LineClean(rx, stripped))
    && !HasSkipPattern(stripped)
    && !IsObjectiveLine(stripped)
    && (|stripped| >= 20 || EndsWith(stripped, "."))
  }

  /** The lines the loop appends, in order and unchanged (not stripped). */
  function LineFilter(rx: Matcher, lines: seq<string>): (kept: seq<string>)
    ensures |kept| <= |lines|
  {
    Filter(lines, line => KeepLine(rx, line))
  }

  /** The kept lines are an in-order subsequence of the input, and a line is
      kept exactly when it is non-blank, holds no skip pattern either raw or
      with its markup reduced, is not an objective bullet, and is at least
      20 characters long or ends with a period. */
  lemma LineFilterKeeps(rx: Matcher, lines: seq<string>)
    ensures IsSubsequence(LineFilter(rx, lines), lines)
    ensures forall line :: line in LineFilter(rx, lines) <==>
      line in lines
      && Strip(line) != ""
      && !HasSkipPattern(LineClean(rx, Strip(line)))
      && !HasSkipPattern(Strip(line))
      && !IsObjectiveLine(Strip(line))
      && (|Strip(line)| >= 20 || EndsWith(Strip(line), "."))
  {
    var p := line => KeepLine(rx, line);
    FilterIsSubsequence(lines, p);
    forall line {
      FilterMembers(lines, p, line);
    }
  }

  // ---------------------------------------------------------------------
  // The table filter
  // ---------------------------------------------------------------------

  predicate FewPipes(line: string) {
    Count(line, '|') < 2
  }

  /** The text without its lines that hold two or more `|`. */
  function TableFilter(text: string): (r: string)
    ensures forall c :: c in r ==> c in text || c == '\n'
  {
    var lines := Split(text, "\n");
    var kept := Filter(lines, FewPipes);
    forall c | c in Join(kept, "\n") && c != '\n' ensures c in text {
      JoinChars(kept, "\n", c);
      var k :| 0 <= k < |kept| && c in kept[k];
      FilterMembers(lines, FewPipes, kept[k]);
      var j :| 0 <= j < |lines| && lines[j] == kept[k];
      SplitNChars(text, "\n", -1, j, c);
    }
    Join(kept, "\n")
  }

  /** Splitting the filtered text again gives back exactly the lines that
      have fewer than two `|` (or one empty line when there are none), so
      every line of the result holds at most one `|`. */
  lemma TableLines(text: string)
    ensures var kept := Filter(Split(text, "\n"), FewPipes);
      Split(TableFilter(text), "\n") == (if kept == [] then [""] else kept)
    ensures forall line :: line in Split(TableFilter(text), "\n") ==> Count(line, '|') < 2
  {
    var kept := Filter(Split(text, "\n"), FewPipes);
    TableSplit(text, Split(text, "\n"), kept);
    FilterSatisfies(Split(text, "\n"), FewPipes);
    assert Count("", '|') == 0;
  }

  lemma TableSplit(text: string, lines: seq<string>, kept: seq<string>)
    requires lines == Split(text, "\n") && kept == Filter(lines, FewPipes)
    ensures Split(Join(kept, "\n"), "\n") == (if kept == [] then [""] else kept)
  {
    if kept == [] {
      assert !Contains("", "\n");
    } else {
      KeptLinesFree(text, lines, kept);
      assert "\n" == ['\n'];
      SplitJoin(kept, '\n');
    }
  }

  /** No kept line holds a newline, being a line of the text. */
  lemma KeptLinesFree(text: string, lines: seq<string>, kept: seq<string>)
    requires lines == Split(text, "\n") && kept == Filter(lines, FewPipes)
    ensures forall i :: 0 <= i < |kept| ==> '\n' !in kept[i]
  {
    forall i | 0 <= i < |kept| ensures '\n' !in kept[i] {
      FilterMembers(lines, FewPipes, kept[i]);
      var j :| 0 <= j < |lines| && lines[j] == kept[i];
      SplitCharFree(text, '\n', j);
    }
  }

  // ---------------------------------------------------------------------
  // Character and whitespace stages
  // ---------------------------------------------------------------------

  /** `re.sub(r'[<>]', '', s)`. */
  function DeleteAngles(s: string): (r: string)
    ensures '<' !in r && '>' !in r
    ensures forall c :: c in r ==> c in s
  {
    var p := c => c != '<' && c != '>';
    forall c | c in Filter(s, p) ensures c in s && p(c) {
      FilterMembers(s, p, c);
    }
    Filter(s, p)
  }

  /** The class `[<>]` removes a character exactly when it is an angle bracket. */
  lemma DeleteAnglesKeeps(s: string, c: char)
    ensures c in DeleteAngles(s) <==> c in s && c != '<' && c != '>'
  {
    FilterMembers(s, c => c != '<' && c != '>', c);
  }

  predicate IsBlank(c: char) {
    c == ' ' || c == '\t'
  }

  /** No two blanks in a row. */
  predicate NoDoubleBlank(s: string) {
    forall i :: 0 <= i < |s| - 1 ==> !(IsBlank(s[i]) && IsBlank(s[i + 1]))
  }

  predicate NotBlank(c: char) {
    !IsBlank(c)
  }

  /** `re.sub(r'[ \t]+', ' ', s)`: each run of spaces and tabs becomes one
      space; every other character is kept, in order, and a text with no tab
      and no two blanks in a row is left as it is. */
  function CollapseBlanks(s: string): (r: string)
    ensures '\t' !in r
    ensures NoDoubleBlank(r)
    ensures Filter(r, NotBlank) == Filter(s, NotBlank)
    ensures '\t' !in s && NoDoubleBlank(s) ==> r == s
    ensures forall c :: c in r ==> c in s || c == ' '
    ensures s != [] && !IsBlank(s[0]) ==> r != [] && r[0] == s[0]
    decreases |s|
  {
    if s == [] then []
    else if IsBlank(s[0]) then
      var k := SpanLength(s, IsBlank);
      var rest := CollapseBlanks(s[k..]);
      BlankRunStep(s, k, rest);
      BlankRunShape(s, k, rest);
      " " + rest
    else
      var rest := CollapseBlanks(s[1..]);
      BlankKeepStep(s, rest);
      BlankKeepShape(s, rest);
      [s[0]] + rest
  }

  /** One space for the run, in front of a rest that starts with no blank. */
  lemma BlankRunShape(s: string, k: nat, rest: string)
    requires 0 < k <= |s| && k == SpanLength(s, IsBlank)
    requires '\t' !in rest && NoDoubleBlank(rest)
    requires forall c :: c in rest ==> c in s[k..] || c == ' '
    requires s[k..] != [] && !IsBlank(s[k..][0]) ==> rest != [] && rest[0] == s[k..][0]
    requires s[k..] == [] ==> rest == []
    ensures '\t' !in " " + rest && NoDoubleBlank(" " + rest)
    ensures forall c :: c in " " + rest ==> c in s || c == ' '
  {
    var r := " " + rest;
    assert forall i :: 1 <= i < |r| ==> r[i] == rest[i - 1];
    forall c | c in rest ensures c in s || c == ' ' {
      if c != ' ' {
        assert c in s[k..];
      }
    }
  }

  /** A character other than a blank in front of the collapsed rest. */
  lemma BlankKeepShape(s: string, rest: string)
    requires s != [] && !IsBlank(s[0])
    requires '\t' !in rest && NoDoubleBlank(rest)
    requires forall c :: c in rest ==> c in s[1..] || c == ' '
    ensures '\t' !in [s[0]] + rest && NoDoubleBlank([s[0]] + rest)
    ensures forall c :: c in [s[0]] + rest ==> c in s || c == ' '
  {
    var r := [s[0]] + rest;
    assert forall i :: 1 <= i < |r| ==> r[i] == rest[i - 1];
    forall c | c in rest ensures c in s || c == ' ' {
      if c != ' ' {
        assert c in s[1..];
      }
    }
  }

  /** The tail of a text keeps its freedom from tabs and double blanks. */
  lemma NoDoubleBlankTail(s: string, k: nat)
    requires k <= |s| && '\t' !in s && NoDoubleBlank(s)
    ensures '\t' !in s[k..] && NoDoubleBlank(s[k..])
  {
    assert forall i :: 0 <= i < |s[k..]| ==> s[k..][i] == s[k + i];
  }

  /** A character other than a blank, in front of the collapsed rest. */
  lemma BlankKeepStep(s: string, rest: string)
    requires s != [] && !IsBlank(s[0])
    requires Filter(rest, NotBlank) == Filter(s[1..], NotBlank)
    requires '\t' !in s[1..] && NoDoubleBlank(s[1..]) ==> rest == s[1..]
    ensures Filter([s[0]] + rest, NotBlank) == Filter(s, NotBlank)
    ensures '\t' !in s && NoDoubleBlank(s) ==> [s[0]] + rest == s
  {
    FilterCons(s[0], rest, NotBlank);
    if '\t' !in s && NoDoubleBlank(s) {
      NoDoubleBlankTail(s, 1);
    }
  }

  /** A run of `k` blanks, replaced by one space, in front of the collapsed rest. */
  lemma BlankRunStep(s: string, k: nat, rest: string)
    requires 0 < k <= |s| && k == SpanLength(s, IsBlank)
    requires Filter(rest, NotBlank) == Filter(s[k..], NotBlank)
    requires '\t' !in s[k..] && NoDoubleBlank(s[k..]) ==> rest == s[k..]
    ensures Filter(" " + rest, NotBlank) == Filter(s, NotBlank)
    ensures '\t' !in s && NoDoubleBlank(s) ==> " " + rest == s
  {
    FilterCons(' ', rest, NotBlank);
    assert " " + rest == [' '] + rest;
    SplitAt(s, k);
    FilterAppend(s[..k], s[k..], NotBlank);
    FilterNone(s[..k], NotBlank);
    if '\t' !in s && NoDoubleBlank(s) {
      assert k == 1;
      assert s[0] == ' ';
      NoDoubleBlankTail(s, 1);
      SplitFirst(s);
    }
  }

  /** The collapse keeps, in order, every character that `p` selects, as
      long as `p` selects no space or tab. */
  lemma CollapseBlanksKeepsText(s: string, p: char -> bool)
    requires !p(' ') && !p('\t')
    ensures Filter(CollapseBlanks(s), p) == Filter(s, p)
  {
    FilterFilter(CollapseBlanks(s), NotBlank, p);
    FilterFilter(s, NotBlank, p);
  }

  /** The collapse works run by run: a character other than a blank
      separates what happens before it from what happens after it. */
  lemma {:induction false} CollapseBlanksAround(a: string, c: char, b: string)
    requires !IsBlank(c)
    ensures CollapseBlanks(a + [c] + b) == CollapseBlanks(a) + [c] + CollapseBlanks(b)
    decreases |a|, 2
  {
    var s := a + [c] + b;
    if a == [] {
      assert s == [c] + b;
      assert s[1..] == b;
    } else if !IsBlank(a[0]) {
      assert s[0] == a[0];
      assert s[1..] == a[1..] + [c] + b;
      CollapseBlanksAround(a[1..], c, b);
      ConcatAssoc4([a[0]], CollapseBlanks(a[1..]), [c], CollapseBlanks(b));
    } else if SpanLength(a, IsBlank) < |a| {
      BlanksAroundInner(a, c, b);
    } else {
      BlanksAroundWhole(a, c, b);
    }
  }

  /** The blank run at the start of `a` ends inside `a`. */
  lemma {:induction false} BlanksAroundInner(a: string, c: char, b: string)
    requires !IsBlank(c) && a != [] && IsBlank(a[0]) && SpanLength(a, IsBlank) < |a|
    ensures CollapseBlanks(a + [c] + b) == CollapseBlanks(a) + [c] + CollapseBlanks(b)
    decreases |a|, 1
  {
    var t := [c] + b;
    var s := a + t;
    assert a + [c] + b == s;
    var k := SpanLength(a, IsBlank);
    SpanAppend(a, t, IsBlank);
    AppendSlices(a, t, k);
    var later := a[k..];
    assert CollapseBlanks(s) == " " + CollapseBlanks(later + t);
    assert CollapseBlanks(a) == " " + CollapseBlanks(later);
    CollapseBlanksAround(later, c, b);
    ConcatAssoc(later, [c], b);
    ConcatAssoc4(" ", CollapseBlanks(later), [c], CollapseBlanks(b));
  }

  /** `a` is all blanks. */
  lemma BlanksAroundWhole(a: string, c: char, b: string)
    requires !IsBlank(c) && a != [] && IsBlank(a[0]) && SpanLength(a, IsBlank) == |a|
    ensures CollapseBlanks(a + [c] + b) == CollapseBlanks(a) + [c] + CollapseBlanks(b)
  {
    var t := [c] + b;
    var s := a + t;
    assert a + [c] + b == s;
    SpanAppend(a, t, IsBlank);
    assert t[0] == c && t[1..] == b;
    AppendSlices(a, t, |a|);
    assert a[|a|..] == [];
    CollapseBlanksRun(a);
    assert CollapseBlanks(s) == " " + CollapseBlanks(t);
    assert CollapseBlanks(t) == [c] + CollapseBlanks(b);
    ConcatAssoc(" ", [c], CollapseBlanks(b));
  }

  /** A nonempty run of spaces and tabs alone becomes one space. */
  lemma CollapseBlanksRun(s: string)
    requires s != [] && forall i :: 0 <= i < |s| ==> IsBlank(s[i])
    ensures CollapseBlanks(s) == " "
  {
    assert SpanLength(s, IsBlank) == |s|;
    assert s[|s|..] == [];
  }

  /** `'\n'.join(line.strip() for line in s.split('\n'))`. */
  function StripLines(s: string): (r: string)
    ensures forall c :: c in r ==> c in s || c == '\n'
  {
    StripLinesChars(s);
    Join(StripEach(Split(s, "\n")), "\n")
  }

  /** The stripped lines are made of the text's characters and newlines. */
  lemma StripLinesChars(s: string)
    ensures forall c :: c in Join(StripEach(Split(s, "\n")), "\n") ==> c in s || c == '\n'
  {
    forall c | c in Join(StripEach(Split(s, "\n")), "\n") && c != '\n' ensures c in s {
      StripLineChar(s, c);
    }
  }

  lemma StripLineChar(s: string, c: char)
    requires c in Join(StripEach(Split(s, "\n")), "\n") && c != '\n'
    ensures c in s
  {
    var lines := Split(s, "\n");
    var stripped := StripEach(lines);
    JoinChars(stripped, "\n", c);
    assert c !in "\n";
    var k :| 0 <= k < |stripped| && c in stripped[k];
    assert c in lines[k] by {
      assert stripped[k] == Strip(lines[k]);
    }
    assert lines == SplitN(s, "\n", -1);
    SplitNChars(s, "\n", -1, k, c);
  }

  /** No stripped line holds a newline. */
  lemma StrippedLinesFree(s: string)
    ensures forall i :: 0 <= i < |StripEach(Split(s, "\n"))| ==> '\n' !in StripEach(Split(s, "\n"))[i]
  {
    var lines := Split(s, "\n");
    forall i | 0 <= i < |lines| ensures '\n' !in StripEach(lines)[i] {
      SplitCharFree(s, '\n', i);
    }
  }

  /** Stripping the lines removes whitespace only: the characters that `p`
      selects, none of them whitespace, are kept in order. */
  lemma StripLinesKeepsText(s: string, p: char -> bool)
    requires forall c :: IsSpace(c) ==> !p(c)
    ensures Filter(StripLines(s), p) == Filter(s, p)
  {
    var lines := Split(s, "\n");
    forall i | 0 <= i < |lines| ensures Filter(StripEach(lines)[i], p) == Filter(lines[i], p) {
      StripKeepsText(lines[i], p);
    }
    JoinFilter(StripEach(lines), lines, "\n", p);
    JoinSplit(s, "\n");
  }

  /** The lines of the result are the input's lines, each stripped. */
  lemma StripLinesLines(s: string)
    ensures Split(StripLines(s), "\n") == StripEach(Split(s, "\n"))
    ensures forall line :: line in Split(StripLines(s), "\n") ==> Trimmed(line)
  {
    StrippedLinesFree(s);
    SplitJoin(StripEach(Split(s, "\n")), '\n');
  }

  /** No empty line ended by a newline: no newline at the very start (when
      `atStart`) and no two newlines in a row. A last line with no newline
      after it may still be blank, since `^\s*\n` needs the newline. */
  predicate NoEmptyLine(s: string, atStart: bool) {
    (atStart ==> s == [] || s[0] != '\n')
    && forall i :: 0 <= i < |s| - 1 ==> !(s[i] == '\n' && s[i + 1] == '\n')
  }

  /** What `^\s*\n` matches at the start of `s`: the longest whitespace
      prefix that ends in a newline (greedy `\s*`, then backing off to the
      last newline of the run); 0 when there is none. */
  function BlankLinesPrefix(s: string): (n: nat)
    ensures n <= |s|
    ensures forall i :: 0 <= i < n ==> IsSpace(s[i])
    ensures n > 0 ==> s[n - 1] == '\n'
    ensures forall j :: n <= j < SpanLength(s, IsSpace) ==> s[j] != '\n'
    decreases |s|
  {
    if s == [] || !IsSpace(s[0]) then 0
    else
      var m := BlankLinesPrefix(s[1..]);
      if m > 0 then m + 1 else if s[0] == '\n' then 1 else 0
  }

  /** `re.sub(r'^\s*\n', '', s, flags=re.MULTILINE)`: at a line start (the
      text's start or just after a newline) the match above is removed;
      elsewhere the pattern cannot match. `atStart` says whether `s` begins
      at a line start. */
  function DropBlankLines(s: string, atStart: bool): (r: string)
    ensures NoEmptyLine(r, atStart)
    ensures Filter(r, NotSpace) == Filter(s, NotSpace)
    ensures forall c :: c in r ==> c in s
    decreases |s|
  {
    if s == [] then []
    else
      var n := BlankLinesPrefix(s);
      if atStart && n > 0 then
        var r := DropBlankLines(s[n..], true);
        DropSpacesText(s, n, r);
        r
      else
        assert atStart ==> s[0] != '\n';
        var rest := DropBlankLines(s[1..], s[0] == '\n');
        PrependLine(s[0], rest, atStart);
        FilterCons(s[0], rest, NotSpace);
        [s[0]] + rest
  }

  /** Dropping `n` leading whitespace characters keeps the other characters. */
  lemma DropSpacesText(s: string, n: nat, r: string)
    requires n <= |s| && forall i :: 0 <= i < n ==> IsSpace(s[i])
    requires Filter(r, NotSpace) == Filter(s[n..], NotSpace)
    ensures Filter(r, NotSpace) == Filter(s, NotSpace)
  {
    SplitAt(s, n);
    FilterAppend(s[..n], s[n..], NotSpace);
    FilterNone(s[..n], NotSpace);
  }

  lemma PrependLine(c: char, rest: string, atStart: bool)
    requires NoEmptyLine(rest, c == '\n') && (atStart ==> c != '\n')
    ensures NoEmptyLine([c] + rest, atStart)
  {
    var r := [c] + rest;
    assert forall i :: 1 <= i < |r| ==> r[i] == rest[i - 1];
  }

  /** The newline `^\s*\n` leaves at the very end: the last line is empty
      and some line before it is not, so the newline ending that line has
      no newline after it to be matched with. */
  function TrailingNewline(lines: seq<string>): string
    requires |lines| >= 1
  {
    if Filter(lines, NonEmpty) != [] && lines[|lines| - 1] == "" then "\n" else ""
  }

  /** On lines that are already stripped, the removal keeps exactly the
      nonempty lines, in order, joined by newlines, followed by the
      trailing newline above. */
  lemma {:induction false} DropBlankLinesOfLines(lines: seq<string>)
    requires |lines| >= 1
    requires forall i :: 0 <= i < |lines| ==> '\n' !in lines[i] && Trimmed(lines[i])
    ensures DropBlankLines(Join(lines, "\n"), true)
      == Join(Filter(lines, NonEmpty), "\n") + TrailingNewline(lines)
    decreases |lines|
  {
    if |lines| == 1 {
      OnlyLine(lines);
    } else {
      var rest := lines[1..];
      assert forall i :: 0 <= i < |rest| ==> rest[i] == lines[i + 1];
      DropBlankLinesOfLines(rest);
      if lines[0] == "" {
        DroppedLineFirst(lines);
      } else {
        KeptLineStep(lines);
      }
    }
  }

  /** A nonempty first line is kept with its newline. */
  lemma KeptLineStep(lines: seq<string>)
    requires |lines| >= 2 && lines[0] != "" && '\n' !in lines[0] && Trimmed(lines[0])
    requires DropBlankLines(Join(lines[1..], "\n"), true)
      == Join(Filter(lines[1..], NonEmpty), "\n") + TrailingNewline(lines[1..])
    ensures DropBlankLines(Join(lines, "\n"), true)
      == Join(Filter(lines, NonEmpty), "\n") + TrailingNewline(lines)
  {
    var l, rest := lines[0], lines[1..];
    JoinCons(l, rest, "\n");
    assert lines == [l] + rest;
    FilterCons(l, rest, NonEmpty);
    LineFirst(l, Join(rest, "\n"));
    KeptLineFirst(lines);
  }

  /** An empty first line disappears with its newline. */
  lemma DroppedLineFirst(lines: seq<string>)
    requires |lines| >= 2 && lines[0] == ""
    requires DropBlankLines(Join(lines[1..], "\n"), true)
      == Join(Filter(lines[1..], NonEmpty), "\n") + TrailingNewline(lines[1..])
    ensures DropBlankLines(Join(lines, "\n"), true)
      == Join(Filter(lines, NonEmpty), "\n") + TrailingNewline(lines)
  {
    var rest := lines[1..];
    var t := Join(rest, "\n");
    assert Join(lines, "\n") == "\n" + t by {
      assert lines == [""] + rest;
      JoinCons("", rest, "\n");
    }
    calc {
      DropBlankLines(Join(lines, "\n"), true);
      DropBlankLines("\n" + t, true);
      { DropLeadingNewline(t); }
      DropBlankLines(t, true);
      Join(Filter(rest, NonEmpty), "\n") + TrailingNewline(rest);
      { EmptyLineFiltered(lines); TrailingAfterEmpty(lines); }
      Join(Filter(lines, NonEmpty), "\n") + TrailingNewline(lines);
    }
  }

  lemma EmptyLineFiltered(lines: seq<string>)
    requires |lines| >= 1 && lines[0] == ""
    ensures Filter(lines, NonEmpty) == Filter(lines[1..], NonEmpty)
  {
    assert lines == [""] + lines[1..];
    FilterCons("", lines[1..], NonEmpty);
  }

  /** Dropping an empty first line does not change the trailing newline. */
  lemma TrailingAfterEmpty(lines: seq<string>)
    requires |lines| >= 2 && lines[0] == ""
    ensures TrailingNewline(lines) == TrailingNewline(lines[1..])
  {
    var rest := lines[1..];
    EmptyLineFiltered(lines);
    assert lines[|lines| - 1] == rest[|rest| - 1];
  }

  /** A single line is left as it is, and it is all the text there is. */
  lemma OnlyLine(lines: seq<string>)
    requires |lines| == 1 && '\n' !in lines[0] && Trimmed(lines[0])
    ensures DropBlankLines(Join(lines, "\n"), true)
      == Join(Filter(lines, NonEmpty), "\n") + TrailingNewline(lines)
  {
    var l := lines[0];
    assert lines == [l] + [];
    FilterCons(l, [], NonEmpty);
    LastLine(l);
  }

  /** A nonempty first line stays in front of the remaining lines' result. */
  lemma KeptLineFirst(lines: seq<string>)
    requires |lines| >= 2 && lines[0] != ""
    requires Filter(lines, NonEmpty) == [lines[0]] + Filter(lines[1..], NonEmpty)
    ensures lines[0] + "\n" + (Join(Filter(lines[1..], NonEmpty), "\n") + TrailingNewline(lines[1..]))
      == Join(Filter(lines, NonEmpty), "\n") + TrailingNewline(lines)
  {
    var rest := lines[1..];
    assert lines[|lines| - 1] == rest[|rest| - 1];
    if Filter(rest, NonEmpty) == [] {
      KeptBeforeEmpty(lines);
    } else {
      KeptBeforeKept(lines);
    }
  }

  /** The remaining lines are all empty: the first line and one newline remain. */
  lemma KeptBeforeEmpty(lines: seq<string>)
    requires |lines| >= 2 && lines[0] != ""
    requires Filter(lines, NonEmpty) == [lines[0]] + Filter(lines[1..], NonEmpty)
    requires Filter(lines[1..], NonEmpty) == []
    requires lines[|lines| - 1] == lines[1..][|lines[1..]| - 1]
    ensures lines[0] + "\n" + (Join(Filter(lines[1..], NonEmpty), "\n") + TrailingNewline(lines[1..]))
      == Join(Filter(lines, NonEmpty), "\n") + TrailingNewline(lines)
  {
    var rest := lines[1..];
    FilterMembers(rest, NonEmpty, rest[|rest| - 1]);
    assert TrailingNewline(rest) == "";
    assert TrailingNewline(lines) == "\n";
    assert Filter(lines, NonEmpty) == [lines[0]];
    assert Join([lines[0]], "\n") == lines[0];
  }

  /** Some remaining line is kept: the separator comes from the join. */
  lemma KeptBeforeKept(lines: seq<string>)
    requires |lines| >= 2 && lines[0] != ""
    requires Filter(lines, NonEmpty) == [lines[0]] + Filter(lines[1..], NonEmpty)
    requires Filter(lines[1..], NonEmpty) != []
    requires lines[|lines| - 1] == lines[1..][|lines[1..]| - 1]
    ensures lines[0] + "\n" + (Join(Filter(lines[1..], NonEmpty), "\n") + TrailingNewline(lines[1..]))
      == Join(Filter(lines, NonEmpty), "\n") + TrailingNewline(lines)
  {
    var kept := Filter(lines[1..], NonEmpty);
    JoinCons(lines[0], kept, "\n");
    assert TrailingNewline(lines) == TrailingNewline(lines[1..]);
  }

  /** An empty first line disappears with the newline after it. */
  lemma DropLeadingNewline(t: string)
    ensures DropBlankLines("\n" + t, true) == DropBlankLines(t, true)
  {
    var s := "\n" + t;
    assert s[0] == '\n' && s[1..] == t;
    var m := BlankLinesPrefix(t);
    assert BlankLinesPrefix(s) == (if m > 0 then m + 1 else 1);
    if m > 0 {
      assert s[m + 1..] == t[m..];
    }
  }

  /** A line holding no newline is kept up to and including the newline
      that ends it, and a line start follows. */
  lemma {:induction false} LineRest(u: string, t: string)
    requires '\n' !in u
    ensures DropBlankLines(u + "\n" + t, false) == u + "\n" + DropBlankLines(t, true)
    decreases |u|
  {
    var s := u + "\n" + t;
    if u == [] {
      assert s == "\n" + t && s[1..] == t;
    } else {
      assert s[0] == u[0] && s[1..] == u[1..] + "\n" + t;
      LineRest(u[1..], t);
      ConcatAssoc4([u[0]], u[1..], "\n", DropBlankLines(t, true));
      SplitFirst(u);
    }
  }

  /** A nonempty stripped line at a line start is kept with its newline. */
  lemma LineFirst(l: string, t: string)
    requires l != "" && '\n' !in l && Trimmed(l)
    ensures DropBlankLines(l + "\n" + t, true) == l + "\n" + DropBlankLines(t, true)
  {
    var s := l + "\n" + t;
    assert s[0] == l[0] && s[1..] == l[1..] + "\n" + t;
    assert BlankLinesPrefix(s) == 0;
    LineRest(l[1..], t);
    ConcatAssoc4([l[0]], l[1..], "\n", DropBlankLines(t, true));
    SplitFirst(l);
  }

  /** A last line (no newline) that is empty or starts with a non-space
      character is kept as it is. */
  lemma LastLine(l: string)
    requires '\n' !in l && Trimmed(l)
    ensures DropBlankLines(l, true) == l
  {
    if l != "" {
      assert BlankLinesPrefix(l) == 0;
      NoNewlineKept(l[1..]);
      SplitFirst(l);
    }
  }

  /** Away from a line start, text without a newline is kept. */
  lemma {:induction false} NoNewlineKept(u: string)
    requires '\n' !in u
    ensures DropBlankLines(u, false) == u
    decreases |u|
  {
    if u != [] {
      NoNewlineKept(u[1..]);
      SplitFirst(u);
    }
  }

  /** After the lines are stripped, the removal of empty lines keeps every
      nonempty line, in order, and nothing else but a trailing newline. */
  lemma DropBlankStrippedLines(s: string)
    ensures var lines := StripEach(Split(s, "\n"));
      DropBlankLines(StripLines(s), true) == Join(Filter(lines, NonEmpty), "\n") + TrailingNewline(lines)
  {
    StrippedLinesFree(s);
    DropBlankLinesOfLines(StripEach(Split(s, "\n")));
  }

  predicate IsPunct(c: char) {
    c == '.' || c == ',' || c == '!' || c == '?' || c == ';' || c == ':'
  }

  /** No whitespace directly before a punctuation mark. */
  predicate NoSpaceBeforePunct(s: string) {
    forall i :: 0 <= i < |s| - 1 ==> !(IsSpace(s[i]) && IsPunct(s[i + 1]))
  }

  /** `re.sub(r'\s+([.,!?;:])', r'\1', s)`: a whitespace run followed by a
      punctuation mark is removed; a run followed by anything else is kept.
      Only whitespace is removed, and a text with no whitespace before a
      punctuation mark is left as it is. */
  function DropSpaceBeforePunct(s: string): (r: string)
    ensures NoSpaceBeforePunct(r)
    ensures Filter(r, NotSpace) == Filter(s, NotSpace)
    ensures NoSpaceBeforePunct(s) ==> r == s
    ensures forall c :: c in r ==> c in s
    ensures r != [] && IsPunct(r[0]) ==>
      SpanLength(s, IsSpace) < |s| && IsPunct(s[SpanLength(s, IsSpace)])
    decreases |s|
  {
    if s == [] then []
    else
      var w := SpanLength(s, IsSpace);
      if w > 0 && w < |s| && IsPunct(s[w]) then
        var rest := DropSpaceBeforePunct(s[w + 1..]);
        PunctDropCase(s, w, rest);
        [s[w]] + rest
      else
        var rest := DropSpaceBeforePunct(s[1..]);
        PunctKeepStep(s, rest);
        KeptBeforeNoMark(s, w, rest);
        KeptNoSpaceBefore(s[0], rest);
        KeptChars(s, rest);
        KeptMarkFirst(s);
        [s[0]] + rest
  }

  /** What `DropSpaceBeforePunct` promises about `r` as the result for `s`. */
  predicate PunctDropped(s: string, r: string) {
    && NoSpaceBeforePunct(r)
    && Filter(r, NotSpace) == Filter(s, NotSpace)
    && (NoSpaceBeforePunct(s) ==> r == s)
    && (forall c :: c in r ==> c in s)
    && (r != [] && IsPunct(r[0]) ==> SpanLength(s, IsSpace) < |s| && IsPunct(s[SpanLength(s, IsSpace)]))
  }

  /** A whitespace run before a mark: the mark goes in front of the rest's result. */
  lemma PunctDropCase(s: string, w: nat, rest: string)
    requires 0 < w < |s| && w == SpanLength(s, IsSpace) && IsPunct(s[w])
    requires PunctDropped(s[w + 1..], rest)
    ensures PunctDropped(s, [s[w]] + rest)
  {
    var r := [s[w]] + rest;
    PunctStep(s, w, rest);
    assert forall i :: 1 <= i < |r| ==> r[i] == rest[i - 1];
    assert NoSpaceBeforePunct(r);
    forall c | c in r ensures c in s {
      if c != s[w] {
        assert c in s[w + 1..];
      }
    }
  }

  /** No space before a mark in `[c] + rest` when there is none in `rest`
      and `c` is not a space in front of a mark. */
  lemma KeptNoSpaceBefore(c: char, rest: string)
    requires NoSpaceBeforePunct(rest)
    requires IsSpace(c) && rest != [] ==> !IsPunct(rest[0])
    ensures NoSpaceBeforePunct([c] + rest)
  {
    var r := [c] + rest;
    assert forall i :: 1 <= i < |r| ==> r[i] == rest[i - 1];
  }

  /** A text starting with a mark has an empty leading whitespace run. */
  lemma KeptMarkFirst(s: string)
    requires s != []
    ensures IsPunct(s[0]) ==> SpanLength(s, IsSpace) < |s| && IsPunct(s[SpanLength(s, IsSpace)])
  {
  }

  lemma KeptChars(s: string, rest: string)
    requires s != [] && forall c :: c in rest ==> c in s[1..]
    ensures forall c :: c in [s[0]] + rest ==> c in s
  {
    forall c | c in [s[0]] + rest ensures c in s {
      if c != s[0] {
        assert c in s[1..];
      }
    }
  }

  /** A kept leading space is not followed by a mark: the rest's result
      starts with one only if the rest's leading run ends at one, and that
      run would have continued the space. */
  lemma KeptBeforeNoMark(s: string, w: nat, rest: string)
    requires s != [] && w == SpanLength(s, IsSpace) && !(w > 0 && w < |s| && IsPunct(s[w]))
    requires rest != [] && IsPunct(rest[0]) ==>
      SpanLength(s[1..], IsSpace) < |s[1..]| && IsPunct(s[1..][SpanLength(s[1..], IsSpace)])
    ensures IsSpace(s[0]) && rest != [] ==> !IsPunct(rest[0])
  {
    if IsSpace(s[0]) {
      var v := SpanLength(s[1..], IsSpace);
      assert w == 1 + v;
      if v < |s[1..]| {
        assert s[1..][v] == s[w];
      }
    }
  }

  /** The whitespace run `s[..w]` before the mark `s[w]` is dropped. */
  lemma PunctStep(s: string, w: nat, rest: string)
    requires 0 < w < |s| && IsPunct(s[w]) && forall i :: 0 <= i < w ==> IsSpace(s[i])
    requires Filter(rest, NotSpace) == Filter(s[w + 1..], NotSpace)
    ensures Filter([s[w]] + rest, NotSpace) == Filter(s, NotSpace)
    ensures !NoSpaceBeforePunct(s)
  {
    assert IsSpace(s[w - 1]);
    FilterCons(s[w], rest, NotSpace);
    SplitAt(s, w);
    FilterAppend(s[..w], s[w..], NotSpace);
    FilterNone(s[..w], NotSpace);
    assert s[w..] == [s[w]] + s[w + 1..];
    FilterCons(s[w], s[w + 1..], NotSpace);
  }

  /** The first character is kept, in front of the rest's result. */
  lemma PunctKeepStep(s: string, rest: string)
    requires s != []
    requires Filter(rest, NotSpace) == Filter(s[1..], NotSpace)
    requires NoSpaceBeforePunct(s[1..]) ==> rest == s[1..]
    ensures Filter([s[0]] + rest, NotSpace) == Filter(s, NotSpace)
    ensures NoSpaceBeforePunct(s) ==> [s[0]] + rest == s
  {
    FilterCons(s[0], rest, NotSpace);
    if NoSpaceBeforePunct(s) {
      var t := s[1..];
      assert forall i :: 0 <= i < |t| ==> t[i] == s[i + 1];
    }
  }

  /** Lines 337-345: blanks collapsed, newline runs collapsed, lines
      stripped, empty lines removed, whitespace before punctuation removed,
      newline runs collapsed again, the whole stripped. Every stage only
      adds, removes or replaces whitespace, so the non-whitespace
      characters come out unchanged and in order. */
  function NormaliseWhitespace(s: string): (r: string)
    ensures NoTripleNewline(r) && Trimmed(r)
    ensures '\t' !in r
    ensures Filter(r, NotSpace) == Filter(s, NotSpace)
    ensures forall c :: c in r ==> c in s || c == ' ' || c == '\n'
  {
    var blanks := CollapseBlanks(s);
    var lines := StripLines(CollapseNewlines(blanks));
    var dropped := DropSpaceBeforePunct(DropBlankLines(lines, true));
    var collapsed := CollapseNewlines(dropped);
    NoTripleStrip(collapsed);
    NormaliseKeepsText(s, blanks, lines, dropped, collapsed);
    Strip(collapsed)
  }

  /** The stages of `NormaliseWhitespace` one by one keep the
      non-whitespace characters. */
  lemma NormaliseKeepsText(s: string, blanks: string, lines: string, dropped: string, collapsed: string)
    requires blanks == CollapseBlanks(s)
    requires lines == StripLines(CollapseNewlines(blanks))
    requires dropped == DropSpaceBeforePunct(DropBlankLines(lines, true))
    requires collapsed == CollapseNewlines(dropped)
    ensures Filter(Strip(collapsed), NotSpace) == Filter(s, NotSpace)
  {
    NormaliseFrontKeepsText(s);
    NormaliseBackKeepsText(lines);
  }

  /** Blank runs and newline runs collapsed, lines stripped. */
  lemma NormaliseFrontKeepsText(s: string)
    ensures Filter(StripLines(CollapseNewlines(CollapseBlanks(s))), NotSpace) == Filter(s, NotSpace)
  {
    var blanks := CollapseBlanks(s);
    CollapseBlanksKeepsText(s, NotSpace);
    CollapseKeepsText(blanks, NotSpace);
    StripLinesKeepsText(CollapseNewlines(blanks), NotSpace);
  }

  /** Empty lines and spaces before punctuation dropped, newline runs
      collapsed, the whole stripped. */
  lemma NormaliseBackKeepsText(lines: string)
    ensures var collapsed := CollapseNewlines(DropSpaceBeforePunct(DropBlankLines(lines, true)));
      Filter(Strip(collapsed), NotSpace) == Filter(lines, NotSpace)
  {
    var dropped := DropSpaceBeforePunct(DropBlankLines(lines, true));
    assert Filter(dropped, NotSpace) == Filter(lines, NotSpace);
    CollapseKeepsText(dropped, NotSpace);
    StripKeepsText(CollapseNewlines(dropped), NotSpace);
  }

  // ---------------------------------------------------------------------
  // The whole cleanup
  // ---------------------------------------------------------------------

  /** A character the whitespace stages did not receive is not in their
      output, unless it is a space or a newline. */
  lemma NotIntroduced(c: char, s: string, r: string)
    requires c !in s && c != ' ' && c != '\n'
    requires forall x :: x in r ==> x in s || x == ' ' || x == '\n'
    ensures c !in r
  {
  }

  /** Lines 143-329: the substitutions, the line filter and the table
      filter. */
  function StructuralClean(rx: Matcher, text: string): string
  {
    var pre := ApplyStages(rx, PreFilterStages, text);
    var filtered := Join(LineFilter(rx, Split(pre, "\n")), "\n");
    var coded := ApplyStages(rx, CodeStages, filtered);
    var marked := ApplyStages(rx, MarkdownStages, TableFilter(coded));
    marked
  }

  /** clean_text: empty input gives empty output; the result holds no angle
      bracket and no tab, has no three newlines in a row, and is trimmed. */
  function CleanText(rx: Matcher, text: string): (r: string)
    ensures text == "" ==> r == ""
    ensures '<' !in r && '>' !in r && '\t' !in r
    ensures NoTripleNewline(r) && Trimmed(r)
  {
    if text == "" then ""
    else
      var angled := DeleteAngles(StructuralClean(rx, text));
      var lone := ApplyStages(rx, LoneLineStages, angled);
      var r := NormaliseWhitespace(lone);
      NotIntroduced('<', lone, r);
      NotIntroduced('>', lone, r);
      r
  }
}

=== FILE: seqs.dfy ===
/** Generic sequence helpers shared by the ingestion and query modules. */
module Seqs {

  function Min(a: int, b: int): int {
    if a <= b then a else b
  }

  /** The elements of `s` that satisfy `p`, in their original order: a Python
      list comprehension with an `if` clause. */
  function Filter<T>(s: seq<T>, p: T -> bool): (r: seq<T>)
    ensures |r| <= |s|
    decreases |s|
  {
    if s == [] then [] else (if p(s[0]) then [s[0]] else []) + Filter(s[1..], p)
  }

  /** Concatenation of a sequence of sequences (Python's repeated `list.extend`). */
  function Flatten<T>(ss: seq<seq<T>>): seq<T>
    decreases |ss|
  {
    if ss == [] then [] else ss[0] + Flatten(ss[1..])
  }

  /** `a` is obtained from `b` by deleting elements, without reordering. */
  ghost predicate IsSubsequence<T>(a: seq<T>, b: seq<T>)
    decreases |b|
  {
    if a == [] then true
    else if b == [] then false
    else if a[0] == b[0] then IsSubsequence(a[1..], b[1..])
    else IsSubsequence(a, b[1..])
  }

  lemma {:induction false} FilterIsSubsequence<T>(s: seq<T>, p: T -> bool)
    ensures IsSubsequence(Filter(s, p), s)
    decreases |s|
  {
    if s != [] {
      FilterIsSubsequence(s[1..], p);
      if p(s[0]) {
        assert Filter(s, p) == [s[0]] + Filter(s[1..], p);
        assert ([s[0]] + Filter(s[1..], p))[1..] == Filter(s[1..], p);
      } else {
        assert Filter(s, p) == Filter(s[1..], p);
        SkipHead(Filter(s[1..], p), s);
      }
    }
  }

  /** Dropping the head of the longer sequence keeps a subsequence relation. */
  lemma {:induction false} SkipHead<T>(a: seq<T>, b: seq<T>)
    requires b != [] && IsSubsequence(a, b[1..])
    ensures IsSubsequence(a, b)
    decreases |b|, 0
  {
    if a != [] && a[0] == b[0] {
      // a[1..] is a subsequence of b[1..] because a is.
      SubsequenceTail(a, b[1..]);
    }
  }

  /** Dropping the head of the shorter sequence keeps a subsequence relation. */
  lemma {:induction false} SubsequenceTail<T>(a: seq<T>, b: seq<T>)
    requires a != [] && IsSubsequence(a, b)
    ensures IsSubsequence(a[1..], b)
    decreases |b|, 1
  {
    assert b != [];
    if a[0] == b[0] {
      SkipHead(a[1..], b);
    } else {
      SubsequenceTail(a, b[1..]);
      SkipHead(a[1..], b);
    }
  }

  /** Filtering keeps exactly the members of `s` that satisfy `p`. */
  lemma {:induction false} FilterMembers<T>(s: seq<T>, p: T -> bool, x: T)
    ensures x in Filter(s, p) <==> x in s && p(x)
    decreases |s|
  {
    if s != [] {
      FilterMembers(s[1..], p, x);
      assert s == [s[0]] + s[1..];
    }
  }

  /** Every element kept satisfies `p`. */
  lemma {:induction false} FilterSatisfies<T>(s: seq<T>, p: T -> bool)
    ensures forall i :: 0 <= i < |Filter(s, p)| ==> p(Filter(s, p)[i])
    decreases |s|
  {
    if s != [] {
      FilterSatisfies(s[1..], p);
      FilterCons(s[0], s[1..], p);
      SplitFirst(s);
    }
  }

  /** Nothing is kept from a sequence none of whose elements satisfy `p`. */
  lemma {:induction false} FilterNone<T>(s: seq<T>, p: T -> bool)
    requires forall i :: 0 <= i < |s| ==> !p(s[i])
    ensures Filter(s, p) == []
    decreases |s|
  {
    if s != [] {
      FilterNone(s[1..], p);
    }
  }

  /** Everything is kept from a sequence all of whose elements satisfy `p`. */
  lemma {:induction false} FilterAll<T>(s: seq<T>, p: T -> bool)
    requires forall i :: 0 <= i < |s| ==> p(s[i])
    ensures Filter(s, p) == s
    decreases |s|
  {
    if s != [] {
      FilterAll(s[1..], p);
      FilterCons(s[0], s[1..], p);
      SplitFirst(s);
    }
  }

  /** Filtering keeps every copy of an element that satisfies `p`, and no
      copy of one that does not. */
  lemma {:induction false} FilterMultiset<T>(s: seq<T>, p: T -> bool, x: T)
    ensures multiset(Filter(s, p))[x] == if p(x) then multiset(s)[x] else 0
    decreases |s|
  {
    if s != [] {
      FilterMultiset(s[1..], p, x);
      FilterCons(s[0], s[1..], p);
      SplitFirst(s);
    }
  }

  lemma FilterCons<T>(x: T, s: seq<T>, p: T -> bool)
    ensures Filter([x] + s, p) == (if p(x) then [x] else []) + Filter(s, p)
  {
    assert ([x] + s)[0] == x;
    assert ([x] + s)[1..] == s;
  }

  /** Filtering by a weaker test first changes nothing. */
  lemma {:induction false} FilterFilter<T>(s: seq<T>, q: T -> bool, p: T -> bool)
    requires forall x :: p(x) ==> q(x)
    ensures Filter(Filter(s, q), p) == Filter(s, p)
    decreases |s|
  {
    if s != [] {
      FilterFilter(s[1..], q, p);
      if q(s[0]) {
        assert Filter(s, q) == [s[0]] + Filter(s[1..], q);
        FilterCons(s[0], Filter(s[1..], q), p);
      } else {
        assert Filter(s, q) == Filter(s[1..], q);
        assert !p(s[0]);
      }
    }
  }

  /** Filtering distributes over concatenation. */
  lemma {:induction false} FilterAppend<T>(a: seq<T>, b: seq<T>, p: T -> bool)
    ensures Filter(a + b, p) == Filter(a, p) + Filter(b, p)
    decreases |a|
  {
    if a == [] {
      assert a + b == b;
    } else {
      var x, rest := a[0], a[1..];
      assert a == [x] + rest;
      assert a + b == [x] + (rest + b);
      FilterAppend(rest, b, p);
      FilterCons(x, rest + b, p);
      FilterCons(x, rest, p);
    }
  }

  /** Filtering a sequence whose elements outside `s[lo..hi]` all fail `p`
      is filtering that slice. */
  lemma FilterInside<T>(s: seq<T>, lo: nat, hi: nat, p: T -> bool)
    requires lo <= hi <= |s|
    requires forall i :: 0 <= i < lo ==> !p(s[i])
    requires forall i :: hi <= i < |s| ==> !p(s[i])
    ensures Filter(s, p) == Filter(s[lo..hi], p)
  {
    SplitThree(s, lo, hi);
    NoneInPrefix(s, lo, p);
    NoneInSuffix(s, hi, p);
    FilterThree(s[..lo], s[lo..hi], s[hi..], p);
  }

  lemma NoneInPrefix<T>(s: seq<T>, lo: nat, p: T -> bool)
    requires lo <= |s|
    requires forall i :: 0 <= i < lo ==> !p(s[i])
    ensures forall i :: 0 <= i < |s[..lo]| ==> !p(s[..lo][i])
  {
    assert forall i :: 0 <= i < lo ==> s[..lo][i] == s[i];
  }

  lemma NoneInSuffix<T>(s: seq<T>, hi: nat, p: T -> bool)
    requires hi <= |s|
    requires forall i :: hi <= i < |s| ==> !p(s[i])
    ensures forall i :: 0 <= i < |s[hi..]| ==> !p(s[hi..][i])
  {
    assert forall i :: 0 <= i < |s[hi..]| ==> s[hi..][i] == s[hi + i];
  }

  lemma FilterThree<T>(a: seq<T>, m: seq<T>, b: seq<T>, p: T -> bool)
    requires forall i :: 0 <= i < |a| ==> !p(a[i])
    requires forall i :: 0 <= i < |b| ==> !p(b[i])
    ensures Filter(a + m + b, p) == Filter(m, p)
  {
    FilterAppend(a + m, b, p);
    FilterAppend(a, m, p);
    FilterNone(a, p);
    FilterNone(b, p);
  }

  /** Flattening distributes over concatenation. */
  lemma {:induction false} FlattenAppend<T>(a: seq<seq<T>>, b: seq<seq<T>>)
    ensures Flatten(a + b) == Flatten(a) + Flatten(b)
    decreases |a|
  {
    if a == [] {
      assert a + b == b;
    } else {
      assert (a + b)[1..] == a[1..] + b;
      FlattenAppend(a[1..], b);
    }
  }

  /** Moving the head of the remainder to the end of the part done. */
  lemma SplitFirst<T>(s: seq<T>)
    requires s != []
    ensures s == [s[0]] + s[1..]
  {
  }

  lemma SplitLast<T>(s: seq<T>)
    requires s != []
    ensures s == s[..|s| - 1] + [s[|s| - 1]]
  {
  }

  /** A sequence is its prefix up to `i` followed by the rest. */
  lemma SplitAt<T>(s: seq<T>, i: nat)
    requires i <= |s|
    ensures s == s[..i] + s[i..]
  {
  }

  /** Three consecutive slices make up the sequence. */
  lemma SplitThree<T>(s: seq<T>, i: nat, j: nat)
    requires i <= j <= |s|
    ensures s == s[..i] + s[i..j] + s[j..]
  {
    SplitAt(s, j);
    SplitAt(s[..j], i);
    assert s[..j][..i] == s[..i] && s[..j][i..] == s[i..j];
  }

  /** Slicing a concatenation inside its first part. */
  lemma AppendSlices<T>(a: seq<T>, b: seq<T>, k: nat)
    requires k <= |a|
    ensures (a + b)[..k] == a[..k]
    ensures (a + b)[k..] == a[k..] + b
  {
  }

  lemma ConcatAssoc<T>(a: seq<T>, b: seq<T>, c: seq<T>)
    ensures a + (b + c) == (a + b) + c
  {
  }

  lemma ConcatAssoc4<T>(a: seq<T>, b: seq<T>, c: seq<T>, d: seq<T>)
    ensures a + (b + c + d) == a + b + c + d
  {
  }

  lemma MoveHead<T>(done: seq<T>, x: T, rest: seq<T>, later: seq<T>, all: seq<T>)
    requires done + rest == all && rest == [x] + later
    ensures done + [x] + later == all
  {
    assert done + [x] + later == done + ([x] + later);
  }

  /** Python's `s[i:j]` for indices that are not negative: indices past the
      end stop at the end, and an empty range gives nothing. */
  function Slice<T>(s: seq<T>, i: nat, j: nat): (r: seq<T>)
    ensures i <= j <= |s| ==> r == s[i..j]
    ensures i >= |s| || j <= i ==> r == []
    ensures |r| <= |s|
  {
    if i >= j || i >= |s| then [] else s[i..Min(j, |s|)]
  }
}

=== FILE: strings.dfy ===
/** Python `str` operations used by the ingestion and query code, over
    `string == seq<char>` (one `char` per Unicode code point). */
module Strings {
  import opened Wrappers
  import opened Seqs

  /** Python's `str.isspace()` for one character. It is also the class `\s`
      of a `re` pattern and what the argument-less `strip()` and `split()` use. */
  predicate IsSpace(c: char) {
    var n := c as int;
    n == 0x20 || 0x09 <= n <= 0x0D || 0x1C <= n <= 0x1F || n == 0x85 || n == 0xA0
    || n == 0x1680 || 0x2000 <= n <= 0x200A || n == 0x2028 || n == 0x2029
    || n == 0x202F || n == 0x205F || n == 0x3000
  }

  predicate NotSpace(c: char) {
    !IsSpace(c)
  }

  /** Length of the longest prefix of `s` whose characters all satisfy `p`. */
  function SpanLength(s: string, p: char -> bool): (n: nat)
    ensures n <= |s|
    ensures forall i :: 0 <= i < n ==> p(s[i])
    ensures n < |s| ==> !p(s[n])
    decreases |s|
  {
    if s != [] && p(s[0]) then 1 + SpanLength(s[1..], p) else 0
  }

  /** The leading run of a concatenation: that of `a`, continued into `b`
      when all of `a` belongs to it. */
  lemma {:induction false} SpanAppend(a: string, b: string, p: char -> bool)
    ensures SpanLength(a + b, p) == if SpanLength(a, p) < |a| then SpanLength(a, p) else |a| + SpanLength(b, p)
    decreases |a|
  {
    if a == [] {
      assert a + b == b;
    } else {
      assert (a + b)[0] == a[0];
      if p(a[0]) {
        assert (a + b)[1..] == a[1..] + b;
        SpanAppend(a[1..], b, p);
      }
    }
  }

  /** Python's `s.lstrip(chars)`, with the character set given as `p`. */
  function LStripBy(s: string, p: char -> bool): (r: string)
    ensures |r| <= |s| && r == s[|s| - |r|..]
    ensures r == [] || !p(r[0])
    ensures forall i :: 0 <= i < |s| - |r| ==> p(s[i])
  {
    s[SpanLength(s, p)..]
  }

  /** Python's `s.rstrip(chars)`, with the character set given as `p`. */
  function RStripBy(s: string, p: char -> bool): (r: string)
    ensures |r| <= |s| && r == s[..|r|]
    ensures r == [] || !p(r[|r| - 1])
    ensures forall i :: |r| <= i < |s| ==> p(s[i])
    decreases |s|
  {
    if s != [] && p(s[|s| - 1]) then RStripBy(s[..|s| - 1], p) else s
  }

  /** Neither end of `s` is in `p`: stripping `p` would leave it alone. */
  predicate TrimmedBy(s: string, p: char -> bool) {
    s == [] || (!p(s[0]) && !p(s[|s| - 1]))
  }

  /** No leading or trailing whitespace. */
  predicate Trimmed(s: string) {
    TrimmedBy(s, IsSpace)
  }

  /** Python's `s.strip(chars)`: a middle slice of `s` whose two ends fall
      outside `p`, with everything cut off on either side inside `p`. */
  function StripBy(s: string, p: char -> bool): (r: string)
    ensures SpanLength(s, p) + |r| <= |s|
    ensures r == s[SpanLength(s, p)..SpanLength(s, p) + |r|]
    ensures TrimmedBy(r, p)
    ensures r == [] <==> forall i :: 0 <= i < |s| ==> p(s[i])
    ensures forall i :: SpanLength(s, p) + |r| <= i < |s| ==> p(s[i])
  {
    var l := LStripBy(s, p);
    assert l == s[SpanLength(s, p)..];
    RStripBy(l, p)
  }

  /** Stripping text whose two ends are already outside `p`, after padding
      it on the left with characters inside `p`, gives back the text. */
  lemma StripPadded(a: string, s: string, p: char -> bool)
    requires forall i :: 0 <= i < |a| ==> p(a[i])
    requires TrimmedBy(s, p)
    ensures StripBy(a + s, p) == s
  {
    var t := a + s;
    if s == [] {
      assert t == a;
    } else {
      assert t[|a|] == s[0];
      assert t[|t| - 1] == s[|s| - 1];
      assert t[|a|..|a| + |s|] == s;
    }
  }

  /** Stripping a text whose ends are already outside `p` leaves it alone. */
  lemma StripByTrimmed(s: string, p: char -> bool)
    requires TrimmedBy(s, p)
    ensures StripBy(s, p) == s
  {
    assert [] + s == s;
    StripPadded([], s, p);
  }

  /** Python's argument-less `s.strip()`: the slice of `s` between its
      leading and its trailing whitespace. */
  function Strip(s: string): (r: string)
    ensures |r| <= |s|
    ensures Trimmed(r)
    ensures r == [] <==> forall i :: 0 <= i < |s| ==> IsSpace(s[i])
    ensures forall c :: c in r ==> c in s
  {
    StripBy(s, IsSpace)
  }

  /** `strip()` keeps the slice between the leading and the trailing
      whitespace, and everything outside it is whitespace. */
  lemma StripSlice(s: string)
    ensures SpanLength(s, IsSpace) + |Strip(s)| <= |s|
    ensures Strip(s) == s[SpanLength(s, IsSpace)..SpanLength(s, IsSpace) + |Strip(s)|]
    ensures forall i :: 0 <= i < SpanLength(s, IsSpace) ==> IsSpace(s[i])
    ensures forall i :: SpanLength(s, IsSpace) + |Strip(s)| <= i < |s| ==> IsSpace(s[i])
  {
    StripIsSlice(s);
    StripRightPad(s);
  }

  lemma StripIsSlice(s: string)
    ensures SpanLength(s, IsSpace) + |Strip(s)| <= |s|
    ensures Strip(s) == s[SpanLength(s, IsSpace)..SpanLength(s, IsSpace) + |Strip(s)|]
  {
  }

  lemma StripRightPad(s: string)
    ensures forall i :: SpanLength(s, IsSpace) + |Strip(s)| <= i < |s| ==> IsSpace(s[i])
  {
    assert Strip(s) == StripBy(s, IsSpace);
  }

  /** `strip()` keeps a slice of its argument. */
  lemma StripBounds(s: string) returns (lo: nat, hi: nat)
    ensures lo <= hi <= |s| && Strip(s) == s[lo..hi]
    ensures forall i :: 0 <= i < lo ==> IsSpace(s[i])
    ensures forall i :: hi <= i < |s| ==> IsSpace(s[i])
  {
    StripSlice(s);
    lo := SpanLength(s, IsSpace);
    hi := lo + |Strip(s)|;
  }

  /** All characters of `s` satisfy `p`. */
  predicate All(s: string, p: char -> bool) {
    forall i :: 0 <= i < |s| ==> p(s[i])
  }

  /** Stripping removes exactly the whitespace padding on both sides. */
  lemma StripPaddedBoth(a: string, t: string, b: string)
    requires All(a, IsSpace) && All(b, IsSpace) && Trimmed(t)
    ensures Strip(a + t + b) == t
  {
    var s := a + t + b;
    var r := Strip(s);
    StripSlice(s);
    if t == [] {
      assert s == a + b;
      assert All(s, IsSpace);
    } else {
      assert s[|a|] == t[0];
      assert s[|a| + |t| - 1] == t[|t| - 1];
      var lo := SpanLength(s, IsSpace);
      assert lo == |a|;
      assert |r| == |t|;
      assert s[|a|..|a| + |t|] == t;
    }
  }

  /** `strip()` removes whitespace only: the other characters are kept, in order. */
  lemma StripKeepsText(s: string, p: char -> bool)
    requires forall c :: IsSpace(c) ==> !p(c)
    ensures Filter(Strip(s), p) == Filter(s, p)
  {
    var lo, hi := StripBounds(s);
    FilterInside(s, lo, hi, p);
  }

  /** An occurrence in a slice is an occurrence in the whole text. */
  lemma ContainsSlice(s: string, lo: nat, hi: nat, t: string)
    requires lo <= hi <= |s| && Contains(s[lo..hi], t)
    ensures Contains(s, t)
  {
    ContainsIff(s[lo..hi], t);
    var j: nat :| OccursAt(s[lo..hi], t, j);
    var u := s[lo..hi];
    assert j + |t| <= |u| && u[j..j + |t|] == t;
    assert forall m :: 0 <= m < |t| ==> s[lo + j + m] == u[j + m] == t[m];
    assert s[lo + j..lo + j + |t|] == t;
    assert OccursAt(s, t, lo + j);
    ContainsIff(s, t);
  }

  /** Stripping cannot create an occurrence. */
  lemma StripFree(s: string, t: string)
    requires !Contains(s, t)
    ensures !Contains(Strip(s), t)
  {
    var lo, hi := StripBounds(s);
    if Contains(Strip(s), t) {
      ContainsSlice(s, lo, hi, t);
    }
  }

  /** `strip()` is the identity on trimmed text. */
  lemma StripTrimmed(s: string)
    requires Trimmed(s)
    ensures Strip(s) == s
  {
    StripByTrimmed(s, IsSpace);
  }

  /** Each string stripped. */
  function StripEach(ss: seq<string>): (r: seq<string>)
    ensures |r| == |ss|
    ensures forall i :: 0 <= i < |ss| ==> r[i] == Strip(ss[i])
  {
    seq(|ss|, i requires 0 <= i < |ss| => Strip(ss[i]))
  }

  predicate NonEmpty(s: string) {
    s != ""
  }

  predicate StartsWith(s: string, t: string) {
    |t| <= |s| && s[..|t|] == t
  }

  predicate EndsWith(s: string, t: string) {
    |t| <= |s| && s[|s| - |t|..] == t
  }

  /** Python's `s[:n]` for a non-negative `n`. */
  function Prefix(s: string, n: nat): (r: string)
    ensures |r| == Min(n, |s|) && r == s[..|r|]
  {
    s[..Min(n, |s|)]
  }

  /** `t` occurs in `s` starting at index `i`. */
  predicate OccursAt(s: string, t: string, i: nat) {
    i + |t| <= |s| && s[i..i + |t|] == t
  }

  /** Python's `s.find(t, from)`, with `None` for -1: the first occurrence at
      or after `from`. */
  function FindFrom(s: string, t: string, from: nat): (r: Option<nat>)
    ensures r.Some? ==> from <= r.value && OccursAt(s, t, r.value)
    ensures r.Some? ==> forall j :: from <= j < r.value ==> !OccursAt(s, t, j)
    ensures r.None? ==> forall j :: from <= j ==> !OccursAt(s, t, j)
    decreases |s| - from
  {
    if from + |t| > |s| then None
    else if OccursAt(s, t, from) then Some(from)
    else FindFrom(s, t, from + 1)
  }

  /** Python's `t in s`. */
  predicate Contains(s: string, t: string) {
    FindFrom(s, t, 0).Some?
  }

  lemma ContainsIff(s: string, t: string)
    ensures Contains(s, t) <==> exists j :: OccursAt(s, t, j)
  {
    if exists j :: OccursAt(s, t, j) {
      var j :| OccursAt(s, t, j);
      assert 0 <= j;
    }
  }

  /** An occurrence of a one-character string is that character. */
  lemma OccursAtChar(s: string, c: char, i: nat)
    ensures OccursAt(s, [c], i) <==> i < |s| && s[i] == c
  {
    if i < |s| {
      assert s[i..i + 1] == [s[i]];
    }
  }

  lemma ContainsChar(s: string, c: char)
    ensures Contains(s, [c]) <==> c in s
  {
    ContainsIff(s, [c]);
    if c in s {
      var i :| 0 <= i < |s| && s[i] == c;
      OccursAtChar(s, c, i);
    }
    if Contains(s, [c]) {
      var j :| OccursAt(s, [c], j);
      OccursAtChar(s, c, j);
    }
  }

  /** An occurrence inside a prefix is an occurrence in the whole string. */
  lemma OccursInPrefix(s: string, t: string, n: nat, j: nat)
    requires n <= |s| && OccursAt(s[..n], t, j)
    ensures OccursAt(s, t, j)
  {
    assert s[..n][j..j + |t|] == s[j..j + |t|];
  }

  /** Python's `s.split(sep, maxsplit)`; a negative `maxsplit` means no limit.
      Joining the pieces with `sep` gives back `s`. */
  function SplitN(s: string, sep: string, maxsplit: int): (parts: seq<string>)
    requires |sep| > 0
    ensures |parts| >= 1
    ensures maxsplit >= 0 ==> |parts| <= maxsplit + 1
    ensures maxsplit != 0 && Contains(s, sep) ==> |parts| >= 2
    ensures !Contains(s, sep) ==> parts == [s]
    ensures Join(parts, sep) == s
    decreases |s|
  {
    var found := FindFrom(s, sep, 0);
    if maxsplit == 0 || found.None? then [s]
    else
      var i := found.value;
      var rest := SplitN(s[i + |sep|..], sep, if maxsplit > 0 then maxsplit - 1 else maxsplit);
      JoinAtFirst(s, sep, i, rest);
      [s[..i]] + rest
  }

  lemma JoinAtFirst(s: string, sep: string, i: nat, rest: seq<string>)
    requires |sep| > 0 && FindFrom(s, sep, 0) == Some(i)
    requires |rest| >= 1 && Join(rest, sep) == s[i + |sep|..]
    ensures Join([s[..i]] + rest, sep) == s
  {
    JoinCons(s[..i], rest, sep);
    assert OccursAt(s, sep, i);
    SplitThree(s, i, i + |sep|);
  }

  /** Only the last piece of a split may hold the separator, and with no
      limit none does: each split happens at the first separator left. */
  lemma {:induction false} SplitNPiecesFree(s: string, sep: string, maxsplit: int)
    requires |sep| > 0
    ensures var parts := SplitN(s, sep, maxsplit);
      forall k :: 0 <= k < |parts| && (k < |parts| - 1 || maxsplit < 0) ==> !Contains(parts[k], sep)
    decreases |s|
  {
    var found := FindFrom(s, sep, 0);
    if maxsplit != 0 && found.Some? {
      var i := found.value;
      var fewer := if maxsplit > 0 then maxsplit - 1 else maxsplit;
      var rest := SplitN(s[i + |sep|..], sep, fewer);
      SplitNPiecesFree(s[i + |sep|..], sep, fewer);
      SplitNStep(s, sep, maxsplit, i);
      BeforeFirstFree(s, sep, i);
      ConsFree(s[..i], rest, sep, [s[..i]] + rest);
    }
  }

  lemma ConsFree(head: string, rest: seq<string>, sep: string, parts: seq<string>)
    requires parts == [head] + rest && !Contains(head, sep)
    requires forall k :: 0 <= k < |rest| - 1 ==> !Contains(rest[k], sep)
    ensures forall k :: 0 <= k < |rest| ==> !Contains(parts[k], sep)
    ensures |rest| >= 1 ==> parts[|rest|] == rest[|rest| - 1]
  {
    assert forall k :: 1 <= k <= |rest| ==> parts[k] == rest[k - 1];
  }

  /** Python's `s.split(sep)`. */
  function Split(s: string, sep: string): (parts: seq<string>)
    requires |sep| > 0
    ensures |parts| >= 1
  {
    SplitN(s, sep, -1)
  }

  /** Python's `sep.join(parts)`. */
  function Join(parts: seq<string>, sep: string): (r: string)
    decreases |parts|
  {
    if |parts| == 0 then ""
    else if |parts| == 1 then parts[0]
    else parts[0] + sep + Join(parts[1..], sep)
  }

  lemma JoinCons(a: string, rest: seq<string>, sep: string)
    requires |rest| >= 1
    ensures Join([a] + rest, sep) == a + sep + Join(rest, sep)
  {
    assert ([a] + rest)[1..] == rest;
  }

  /** One step of a split: the piece before the first separator, then the
      split of what follows it with one split fewer to go. */
  lemma SplitNStep(s: string, sep: string, maxsplit: int, i: nat)
    requires |sep| > 0 && maxsplit != 0 && FindFrom(s, sep, 0) == Some(i)
    ensures SplitN(s, sep, maxsplit)
      == [s[..i]] + SplitN(s[i + |sep|..], sep, if maxsplit > 0 then maxsplit - 1 else maxsplit)
  {
  }

  /** Joining the pieces of a split with the same separator gives back the text. */
  lemma JoinSplit(s: string, sep: string)
    requires |sep| > 0
    ensures Join(Split(s, sep), sep) == s
  {
  }

  /** Joining parts that keep the same selected characters keeps them too. */
  lemma {:induction false} JoinFilter(ps: seq<string>, qs: seq<string>, sep: string, p: char -> bool)
    requires |ps| == |qs|
    requires forall i :: 0 <= i < |ps| ==> Filter(ps[i], p) == Filter(qs[i], p)
    ensures Filter(Join(ps, sep), p) == Filter(Join(qs, sep), p)
    decreases |ps|
  {
    if |ps| >= 2 {
      JoinFilter(ps[1..], qs[1..], sep, p);
      JoinPartFilter(ps, sep, p);
      JoinPartFilter(qs, sep, p);
    }
  }

  lemma JoinPartFilter(ps: seq<string>, sep: string, p: char -> bool)
    requires |ps| >= 2
    ensures Filter(Join(ps, sep), p) == Filter(ps[0], p) + Filter(sep, p) + Filter(Join(ps[1..], sep), p)
  {
    FilterAppend(ps[0] + sep, Join(ps[1..], sep), p);
    FilterAppend(ps[0], sep, p);
  }

  /** The first occurrence of `c` in `a + [c] + b` when `a` has none. */
  lemma FindCharAfter(a: string, c: char, b: string)
    requires c !in a
    ensures FindFrom(a + [c] + b, [c], 0) == Some(|a|)
  {
    var s := a + [c] + b;
    OccursAtChar(s, c, |a|);
    match FindFrom(s, [c], 0)
    case None =>
    case Some(i) =>
      OccursAtChar(s, c, i);
  }

  /** Splitting lines joined by a one-character separator that none of them
      contains gives back exactly those lines. */
  lemma {:induction false} SplitJoin(xs: seq<string>, c: char)
    requires |xs| >= 1
    requires forall i :: 0 <= i < |xs| ==> c !in xs[i]
    ensures Split(Join(xs, [c]), [c]) == xs
    decreases |xs|
  {
    if |xs| == 1 {
      ContainsChar(xs[0], c);
    } else {
      var rest := Join(xs[1..], [c]);
      assert Join(xs, [c]) == xs[0] + [c] + rest;
      FindCharAfter(xs[0], c, rest);
      var s := xs[0] + [c] + rest;
      assert s[..|xs[0]|] == xs[0];
      assert s[|xs[0]| + 1..] == rest;
      SplitJoin(xs[1..], c);
      assert xs == [xs[0]] + xs[1..];
    }
  }

  /** No piece of a split contains the separator. */
  lemma SplitPiecesFree(s: string, sep: string, k: nat)
    requires |sep| > 0 && k < |Split(s, sep)|
    ensures !Contains(Split(s, sep)[k], sep)
  {
    assert Split(s, sep) == SplitN(s, sep, -1);
    SplitNPiecesFree(s, sep, -1);
  }

  /** The text before the first separator holds none. */
  lemma BeforeFirstFree(s: string, sep: string, i: nat)
    requires |sep| > 0 && FindFrom(s, sep, 0) == Some(i)
    ensures !Contains(s[..i], sep)
  {
    ContainsIff(s[..i], sep);
    if Contains(s[..i], sep) {
      var j :| OccursAt(s[..i], sep, j);
      OccursInPrefix(s, sep, i, j);
    }
  }

  lemma InSuffix(s: string, i: nat, c: char)
    requires i <= |s| && c in s[i..]
    ensures c in s
  {
    var j :| 0 <= j < |s[i..]| && s[i..][j] == c;
    assert s[i + j] == c;
  }

  lemma InPrefix(s: string, i: nat, c: char)
    requires i <= |s| && c in s[..i]
    ensures c in s
  {
    var j :| 0 <= j < i && s[..i][j] == c;
    assert s[j] == c;
  }

  /** Every character of a piece of a split comes from the text. */
  lemma {:induction false} SplitNChars(s: string, sep: string, maxsplit: int, k: nat, c: char)
    requires |sep| > 0 && k < |SplitN(s, sep, maxsplit)| && c in SplitN(s, sep, maxsplit)[k]
    ensures c in s
    decreases |s|, 1
  {
    var found := FindFrom(s, sep, 0);
    if maxsplit != 0 && found.Some? {
      SplitNLaterChars(s, sep, maxsplit, k, c, found.value);
    }
  }

  /** The same, once the first separator is found at `i`. */
  lemma {:induction false} SplitNLaterChars(s: string, sep: string, maxsplit: int, k: nat, c: char, i: nat)
    requires |sep| > 0 && maxsplit != 0 && FindFrom(s, sep, 0) == Some(i)
    requires k < |SplitN(s, sep, maxsplit)| && c in SplitN(s, sep, maxsplit)[k]
    ensures c in s
    decreases |s|, 0
  {
    var rest := s[i + |sep|..];
    var fewer := if maxsplit > 0 then maxsplit - 1 else maxsplit;
    SplitNStep(s, sep, maxsplit, i);
    if k > 0 {
      assert c in SplitN(rest, sep, fewer)[k - 1];
      SplitNChars(rest, sep, fewer, k - 1, c);
      InSuffix(s, i + |sep|, c);
    } else {
      InPrefix(s, i, c);
    }
  }

  /** No piece of a split on one character holds that character. */
  lemma SplitCharFree(s: string, c: char, k: nat)
    requires k < |Split(s, [c])|
    ensures c !in Split(s, [c])[k]
  {
    SplitPiecesFree(s, [c], k);
    ContainsChar(Split(s, [c])[k], c);
  }

  /** Every character of a join comes from a part or from the separator. */
  lemma {:induction false} JoinChars(parts: seq<string>, sep: string, c: char)
    requires c in Join(parts, sep)
    ensures c in sep || exists k :: 0 <= k < |parts| && c in parts[k]
    decreases |parts|
  {
    if |parts| >= 2 {
      if c !in parts[0] && c !in sep {
        JoinChars(parts[1..], sep, c);
        var k :| 0 <= k < |parts[1..]| && c in parts[1..][k];
        assert c in parts[k + 1];
      }
    }
  }

  /** Python's `s.replace(pat, rep)`: leftmost, non-overlapping occurrences. */
  function Replace(s: string, pat: string, rep: string): (r: string)
    requires |pat| > 0
    ensures forall c :: c in r ==> c in s || c in rep
    ensures |pat| == |rep| ==> |r| == |s|
    ensures rep == "" ==> |r| <= |s|
    ensures |pat| == 1 && pat[0] !in rep ==> pat[0] !in r
    decreases |s|
  {
    if s == [] then []
    else if StartsWith(s, pat) then rep + Replace(s[|pat|..], pat, rep)
    else [s[0]] + Replace(s[1..], pat, rep)
  }

  function LowerChar(c: char): char {
    if 'A' <= c <= 'Z' then (c as int + 32) as char else c
  }

  function UpperChar(c: char): char {
    if 'a' <= c <= 'z' then (c as int - 32) as char else c
  }

  predicate IsAsciiLetter(c: char) {
    'A' <= c <= 'Z' || 'a' <= c <= 'z'
  }

  /** Python's `s.lower()`, for the ASCII letters. */
  function Lower(s: string): string {
    seq(|s|, i requires 0 <= i < |s| => LowerChar(s[i]))
  }

  /** Python's argument-less `s.split()`: the maximal runs of non-whitespace.
      Together the words hold every non-whitespace character, in order. */
  function Words(s: string): (ws: seq<string>)
    ensures forall i :: 0 <= i < |ws| ==> ws[i] != []
    ensures forall i, j :: 0 <= i < |ws| && 0 <= j < |ws[i]| ==> !IsSpace(ws[i][j])
    ensures Flatten(ws) == Filter(s, NotSpace)
    decreases |s|
  {
    if s == [] then []
    else if IsSpace(s[0]) then
      SplitFirst(s);
      FilterCons(s[0], s[1..], NotSpace);
      Words(s[1..])
    else
      var n := SpanLength(s, NotSpace);
      var rest := Words(s[n..]);
      WordThenRest(s, n, rest);
      [s[..n]] + rest
  }

  lemma WordThenRest(s: string, n: nat, rest: seq<string>)
    requires 0 < n <= |s| && forall i :: 0 <= i < n ==> NotSpace(s[i])
    requires Flatten(rest) == Filter(s[n..], NotSpace)
    ensures Flatten([s[..n]] + rest) == Filter(s, NotSpace)
  {
    assert ([s[..n]] + rest)[0] == s[..n];
    assert ([s[..n]] + rest)[1..] == rest;
    assert s == s[..n] + s[n..];
    FilterAppend(s[..n], s[n..], NotSpace);
    FilterAll(s[..n], NotSpace);
  }

  /** A nonempty run of non-whitespace characters. */
  predicate IsWord(w: string) {
    w != [] && forall j :: 0 <= j < |w| ==> !IsSpace(w[j])
  }

  /** A word followed by whitespace or by nothing is split off whole. */
  lemma WordFirst(w: string, t: string)
    requires IsWord(w)
    requires t == [] || IsSpace(t[0])
    ensures Words(w + t) == [w] + Words(t)
  {
    var s := w + t;
    SpanAppend(w, t, NotSpace);
    assert SpanLength(w, NotSpace) == |w|;
    assert SpanLength(t, NotSpace) == 0;
    assert s[0] == w[0];
    assert s[..|w|] == w;
    assert s[|w|..] == t;
  }

  /** A leading space separates nothing. */
  lemma WordsAfterSpace(t: string)
    ensures Words(" " + t) == Words(t)
  {
    assert (" " + t)[1..] == t;
  }

  /** One step of the round trip: the first word, then the rest. */
  lemma WordsJoinStep(w: string, t: string)
    requires IsWord(w)
    ensures Words(w + " " + t) == [w] + Words(t)
  {
    assert w + " " + t == w + (" " + t);
    WordFirst(w, " " + t);
    WordsAfterSpace(t);
  }

  /** Words joined by single spaces split back into the same words: the
      round trip of `" ".join(words)` and `split()`. */
  lemma {:induction false} WordsOfJoin(ws: seq<string>)
    requires forall i :: 0 <= i < |ws| ==> IsWord(ws[i])
    ensures Words(Join(ws, " ")) == ws
    decreases |ws|
  {
    if |ws| == 1 {
      WordFirst(ws[0], "");
      assert ws[0] + "" == ws[0];
    } else if |ws| > 1 {
      WordsOfJoin(ws[1..]);
      WordsJoinStep(ws[0], Join(ws[1..], " "));
      SplitFirst(ws);
    }
  }


  function DigitChar(d: nat): char
    requires d < 10
  {
    ('0' as int + d) as char
  }

  /** Python's `str(n)` for a non-negative integer. */
  function NatToString(n: nat): (r: string)
    ensures |r| >= 1
    ensures forall i :: 0 <= i < |r| ==> '0' <= r[i] <= '9'
    decreases n
  {
    if n < 10 then [DigitChar(n)] else NatToString(n / 10) + [DigitChar(n % 10)]
  }

  /** The test "is the character `c`". */
  function IsChar(c: char): char -> bool {
    x => x == c
  }

  /** Python's `s.count(c)` for a one-character `c`: the number of
      occurrences of `c`. */
  function Count(s: string, c: char): (n: nat)
    ensures n == |Filter(s, IsChar(c))|
    ensures n == 0 <==> c !in s
    decreases |s|
  {
    if s == [] then 0 else (if s[0] == c then 1 else 0) + Count(s[1..], c)
  }

  /** `s.count(c) < 2` holds exactly when no two positions hold `c`. */
  lemma {:induction false} CountTwo(s: string, c: char)
    ensures Count(s, c) >= 2 <==> exists i, j :: 0 <= i < j < |s| && s[i] == c && s[j] == c
    decreases |s|
  {
    if s != [] {
      var t := s[1..];
      CountTwo(t, c);
      if s[0] == c {
        if c in t {
          var j :| 0 <= j < |t| && t[j] == c;
          assert s[0] == c && s[j + 1] == c;
        }
        if exists i, j :: 0 <= i < j < |s| && s[i] == c && s[j] == c {
          var i, j :| 0 <= i < j < |s| && s[i] == c && s[j] == c;
          assert t[j - 1] == c;
        }
      } else {
        if exists i, j :: 0 <= i < j < |t| && t[i] == c && t[j] == c {
          var i, j :| 0 <= i < j < |t| && t[i] == c && t[j] == c;
          assert s[i + 1] == c && s[j + 1] == c;
        }
        if exists i, j :: 0 <= i < j < |s| && s[i] == c && s[j] == c {
          var i, j :| 0 <= i < j < |s| && s[i] == c && s[j] == c;
          assert t[i - 1] == c && t[j - 1] == c;
        }
      }
    }
  }

  /** Python's `s.rfind(c)`: the last index of `c`, or -1. */
  function RFind(s: string, c: char): (r: int)
    ensures -1 <= r < |s|
    ensures r >= 0 ==> s[r] == c
    ensures forall j :: r < j < |s| ==> s[j] != c
    decreases |s|
  {
    if s == [] then -1
    else if s[|s| - 1] == c then |s| - 1
    else RFind(s[..|s| - 1], c)
  }
}

=== FILE: wrappers.dfy ===
/** The optional-value datatype used for Python's `None`-or-value results. */
module Wrappers {

  datatype Option<+T> = None | Some(value: T) {

    /** The value, or `default` when there is none (Python's `x if x is not None else default`). */
    function GetOr(default: T): T {
      match this
      case Some(v) => v
      case None => default
    }
  }
}
